=== FILE: README.md ===
# CNC digital twin — a verified model of its core

The repository simulates CNC machines and runs the services around them. The simulator
parses G-code lines, injects failure modes, integrates tool wear, computes spindle physics
and publishes telemetry snapshots over MQTT. The services include an API with a token-bucket
rate limiter and an in-memory store, a data aggregator that rolls points up into fixed
windows, an anomaly detector, and a predictive-maintenance scorer. This project models the
deterministic core of each of these in Dafny and proves what the code promises about it.

Each source file has its own Dafny file:

| Dafny file | models |
|---|---|
| `gcode_parser.dfy` | `simulator/src/gcode_parser.py`: normalisation, comment extraction, N-words, the `letter + number` pattern and the per-letter dispatch |
| `failure_modes.dfy` | `simulator/src/failure_modes.py`: the five failure modes, their impacts, and the manager with its additive `combined_impact` |
| `spindle.dfy` | `simulator/src/spindle.py`: power, thermal growth, bearing defect frequencies, vibration |
| `telemetry_models.dfy` | `simulator/src/models.py`: the telemetry sub-records and their range checks |
| `cnc_machine.dfy` | `simulator/src/cnc_machine.py`: the run/pause state machine, wear and runtime integration, the telemetry snapshot |
| `mqtt_publisher.dfy` | `simulator/src/mqtt_publisher.py`: the publish queue and its flush on connect |
| `rate_limit.dfy` | `services/digital-twin-api/src/rate_limit.py`: the token bucket |
| `store.dfy` | `services/digital-twin-api/src/store.py`: the in-memory store |
| `aggregator.dfy` | `services/data-aggregator/src/aggregator.py`: bucketing, grouping, summaries and sorting |
| `detector.dfy` | `services/anomaly-detection/src/detector.py`: rules, z-score window, isolation-forest gates |
| `predictor.dfy` | `services/predictive-maintenance/src/predictor.py`: tool life, spindle health, schedule |
| `gcode_examples.dfy` | `simulator/tests/test_gcode_parser.py`: the parser's three example lines |
| `service_client.dfy` | `services/digital-twin-api/src/service_client.py`: dotted-path metric extraction and the aggregation request |

Six shared files model the Python built-ins and the arithmetic the code relies on:

- `wrappers.dfy`: `Option` for `None` results, and `Result` for raised exceptions.
- `strings.dfy`: `str.upper`, `str.strip`, `str.split` and string order, over ASCII.
- `ordered_dict.dfy`: `dict` with its insertion order.
- `bounded_deque.dfy`: `collections.deque(maxlen=n)`.
- `json.dfy`: the JSON-like values in telemetry data.
- `numbers.dfy`: `int()` of a float, which truncates toward zero, and facts about products and squares of reals.

Objects whose methods update their fields are classes:

- `CNCMachine`
- `FailureMode`
- `FailureManager`
- `MQTTPublisher`
- `TokenBucket`
- `InMemoryStore`
- `Detector`

Each class method states its whole new state in its postconditions. `CNCMachine`,
`FailureManager`, `MQTTPublisher`, `TokenBucket`, `InMemoryStore` and `Detector` each keep
a `Valid` invariant. `FailureMode` has none: its only update is its severity, which `Tick` sets to the capped step. Loops in the source, such as the flush loop, the impact fold, the
forest's prediction scan and the metric walk, are `while` loops proved against a
specification function. The remaining code is datatypes and functions.

Each `*Properties` module holds lemmas about its model. Some of these lemmas replay the
repository's own test scenarios, stated over all inputs wherever the scenario allows.

## Model

| member | source | states |
|---|---|---|
| GCodeParser.EmptyCommand | simulator/src/gcode_parser.py:10-30 | a new command carries the given comment, empty G- and M-code lists, and no block number, tool or axis/feed/speed value |
| Numbers.Trunc | simulator/src/gcode_parser.py:68 | `int(num)` truncates toward zero: for r >= 0 the result is the largest integer not above r, for r < 0 the smallest not below it |
| GCodeParser.FractionValue | simulator/src/gcode_parser.py:36 | the digits after the decimal point read as a value in [0, 1) |
| GCodeParser.DigitRun | simulator/src/gcode_parser.py:36 | the leading `\d*` run: every character in it is a digit and the character after it is not |
| GCodeParser.SignLength | simulator/src/gcode_parser.py:36 | the optional `[-+]` takes at most one character |
| GCodeParser.UnsignedNumber | simulator/src/gcode_parser.py:36 | a match of `\d*\.?\d+` always consumes a nonempty prefix of the text |
| GCodeParser.MatchNumber | simulator/src/gcode_parser.py:36 | a match of `[-+]?\d*\.?\d+` always consumes a nonempty prefix of the text |
| GCodeParser.WithoutUnderscores | simulator/src/gcode_parser.py:55 | `int()` drops the underscores it allows between digits, leaving digits only |
| GCodeParser.MatchLength | simulator/src/gcode_parser.py:60 | the token regex matches a prefix of the token, never more than the token |
| GCodeParser.IndexOf | simulator/src/gcode_parser.py:42 | the first occurrence of a character, or none when the text has none |
| GCodeParser.CommentMatch | simulator/src/gcode_parser.py:37-42 | `search` finds the first `(` that some `)` follows, and the first `)` after it, with no `)` in between |
| GCodeParser.NoGroupWithoutMatch | simulator/src/gcode_parser.py:42-45 | when `search` finds nothing, no `(` of the line is followed by a `)` |
| GCodeParser.RemoveCommentsRemovesAll | simulator/src/gcode_parser.py:45 | `sub("", line)` leaves no parenthesised group behind |
| GCodeParser.DispatchWord | simulator/src/gcode_parser.py:67-88 | the letter if-chain: G and M append `int(num)`, T sets `int(num)`, X Y Z F S I J K set the value, other letters change nothing |
| GCodeParser.ParseToken | simulator/src/gcode_parser.py:53-88 | one pass of the token loop: an N-token sets the block number or is skipped on ValueError, an unmatched token is skipped, a match is dispatched |
| GCodeParser.ApplyTokensPush | simulator/src/gcode_parser.py:52 | the tokens are applied left to right: one more token is one more step on the previous result |
| GCodeParser.SplitComment | simulator/src/gcode_parser.py:41-45 | the comment is the first group's text, and the body is the line with every group removed and stripped |
| GCodeParser.ApplyAll | simulator/src/gcode_parser.py:52-88 | the loop over `split()` tokens computes the left-to-right fold of the token step |
| GCodeParser.ParseLine | simulator/src/gcode_parser.py:39-90 | `parse_line` computes the functional specification `Parse`: strip and upper-case, extract the comment, return early on an empty body, fold the tokens |
| GCodeParser.Parse | simulator/src/gcode_parser.py:39-90 | `parse_line` as a function: the comment of the result is the comment group of the stripped, upper-cased line, whatever the tokens are (`ParseLine` is proved equal to it) |
| GCodeParser.ApplyTokens | simulator/src/gcode_parser.py:52 | folding the tokens never changes the comment |
| GCodeParser.ApplyToken | simulator/src/gcode_parser.py:52-88 | one token never changes the comment; only an N token can change the block number, and an N token changes nothing else |
| GCodeParser.Dispatch | simulator/src/gcode_parser.py:67-88 | a matched word changes neither comment nor block number, and a letter outside G, M, T, X, Y, Z, F, S, I, J, K changes nothing |
| GCodeParser.MatchWord | simulator/src/gcode_parser.py:60-65 | applying the word pattern of line 36, a match starts with an upper-case letter and reports that letter, and it succeeds exactly when the pattern consumes a non-empty prefix |
| GCodeParser.ParseInt | simulator/src/gcode_parser.py:55 | `int()` accepts only text ending in a digit, and a negative value only after a leading minus |
| GCodeParser.CommentOf | simulator/src/gcode_parser.py:42-44 | a comment exists exactly when the pattern finds a group, and it holds no `)` |
| GCodeParser.RemoveComments | simulator/src/gcode_parser.py:45 | `sub("", line)` never lengthens the line and shortens it whenever a group exists |
| GCodeParser.BodyOf | simulator/src/gcode_parser.py:43-45 | the text left to tokenise is never longer than the line, and is the whole line when there is no group |
| GCodeParserProperties.ParseIgnoresCase | simulator/src/gcode_parser.py:40 | upper-casing the input first changes nothing |
| GCodeParserProperties.ApplyTokensKeepsComment | simulator/src/gcode_parser.py:47-88 | no token changes the comment |
| GCodeParserProperties.ParseComment | simulator/src/gcode_parser.py:41-47 | the parsed comment is the first group of the stripped, upper-cased line |
| GCodeParserProperties.CommentOfUpper | simulator/src/gcode_parser.py:37-44 | a captured comment is upper-case and never contains `)` |
| GCodeParserProperties.CommentProperties | simulator/src/gcode_parser.py:40-45 | there is a comment exactly when the normalised line holds a `(...)` group (both directions); it is upper-case and holds no `)` |
| GCodeParserProperties.ParseEmptyBody | simulator/src/gcode_parser.py:49-50 | a line with nothing left after the groups are removed parses to the bare command with its comment |
| GCodeParserProperties.OnlyComment | simulator/src/gcode_parser.py:39-50 | a line that is only `(c)` parses to the bare command with comment `upper(c)` |
| GCodeWordProperties.ApplyTokenValue | simulator/src/gcode_parser.py:71-88 | a token sets axis/feed/speed letter l to its value exactly when it matches with letter l; otherwise l keeps its value |
| GCodeWordProperties.DispatchValue | simulator/src/gcode_parser.py:71-88 | dispatching letter L sets value field L and no other value field |
| GCodeWordProperties.LastValueWins | simulator/src/gcode_parser.py:71-88 | of several X (Y, Z, F, S, I, J, K) words on a line, the last one's value is kept |
| GCodeWordProperties.UnnamedValueKept | simulator/src/gcode_parser.py:71-88 | a value letter that no token names keeps its prior value |
| GCodeWordProperties.LastToolWins | simulator/src/gcode_parser.py:81-82 | the tool is `int()` of the last T word |
| GCodeWordProperties.ApplyTokenTool | simulator/src/gcode_parser.py:81-82 | a token sets the tool exactly when it matches with letter T, to the truncated value |
| GCodeWordProperties.LastBlockWins | simulator/src/gcode_parser.py:53-58 | the block number is `int()` of the suffix of the last N token that `int()` accepts; an N token whose suffix it rejects leaves the earlier value, and None when no N token is accepted |
| GCodeWordProperties.ApplyTokenBlock | simulator/src/gcode_parser.py:53-58 | only N tokens change the block number |
| GCodeWordProperties.CodesInOrder | simulator/src/gcode_parser.py:67-70 | G and M codes are appended in line order, one per G or M word, each the truncated value |
| GCodeWordProperties.ApplyTokenCodes | simulator/src/gcode_parser.py:67-70 | a token appends to the G (M) list exactly when it matches with letter G (M) |
| GCodeWordProperties.InertTokenIgnored | simulator/src/gcode_parser.py:60-62 | a token that is not an N token and does not match the word regex can be dropped from anywhere in the line without changing the result |
| GCodeWordProperties.InertTokenKeeps | simulator/src/gcode_parser.py:60-62 | such a token leaves the command as it was |
| GCodeMatchProperties.UnsignedNumberPrefix | simulator/src/gcode_parser.py:36 | the unsigned part of the number regex reads the same on its own match as on the whole text |
| GCodeMatchProperties.MatchNumberPrefix | simulator/src/gcode_parser.py:36 | the number regex reads the same on its own match as on the whole text |
| GCodeMatchProperties.TrailingIgnored | simulator/src/gcode_parser.py:60 | `match` looks only at the start of the token: cutting what follows the match changes nothing |
| GCodeWordForms.WordsCons | simulator/src/gcode_parser.py:52 | `split()` of "w rest" is w followed by the split of rest |
| GCodeWordForms.IntegerWord | simulator/src/gcode_parser.py:36-65 | a letter followed by digits matches with that letter and the digits' decimal value |
| GCodeWordForms.DecimalWord | simulator/src/gcode_parser.py:36-65 | a letter followed by digits, a point and digits matches with that letter and value whole + fraction |
| GCodeWordForms.BlockDigits | simulator/src/gcode_parser.py:55 | `int()` of a digit string is its decimal value |
| GCodeWordForms.ParseWithoutComment | simulator/src/gcode_parser.py:39-52 | a stripped upper-case line without `(` parses as the token fold over its words |
| Impacts.AddEntry | simulator/src/failure_modes.py:103-104 | one `impact[key] = impact.get(key, 0.0) + value`: that key gains the value, a missing key counting as 0, and no other key changes |
| Impacts.AddImpact | simulator/src/failure_modes.py:103-104 | the inner loop adds every entry of one mode's impact, in its order, into the running total |
| Impacts.Combine | simulator/src/failure_modes.py:100-105 | the combined impact of a list of impacts is a well-formed insertion-ordered dict |
| Impacts.SeenIsMember | simulator/src/failure_modes.py:103 | a key occurs among the first n entries exactly when it is in that prefix of the key list |
| Impacts.AddEntriesKeys | simulator/src/failure_modes.py:103-104 | after the first n entries of an impact are added, a key is present exactly when it was before or is among those entries, and its total grows by that impact's value exactly then |
| Impacts.AddEntryAt | simulator/src/failure_modes.py:104 | one entry's effect on any one key: presence and value |
| Impacts.CombineIsKeywiseSum | simulator/src/failure_modes.py:100-105 | the combined impact holds exactly the keys some mode reports (both directions), each with the sum over modes of what they report for it (0 for modes that do not); no modes give an empty dict |
| Impacts.CombineStep | simulator/src/failure_modes.py:102-104 | the last mode's impact adds exactly its own value to each key on top of the earlier total |
| Impacts.CombinePrefix | simulator/src/failure_modes.py:102-104 | each pass of the outer loop adds one more mode's entries to the running total |
| FailureModes.TickSeverity | simulator/src/failure_modes.py:21-22 | `tick`: severity + rate * delta, capped at 1.0 and never above the uncapped value |
| FailureModes.ImpactOf | simulator/src/failure_modes.py:24-78 | each kind's `get_impact` reports its own fixed, distinct keys (none for the base mode) |
| FailureModes.FailureMode.constructor | simulator/src/failure_modes.py:11-75 | the dataclass fields as given, except that each fault kind's `__post_init__` replaces the name |
| FailureModes.FailureMode.Tick | simulator/src/failure_modes.py:21-22 | the new severity is the capped step from the old one; nothing else changes |
| FailureModes.FailureMode.Impact | simulator/src/failure_modes.py:24-78 | the impact of the mode's kind at its current severity is a well-formed dict |
| FailureModes.ImpactsOf | simulator/src/failure_modes.py:102-103 | the impacts of the active modes, one per mode, in order |
| FailureModes.FailureManager.constructor | simulator/src/failure_modes.py:84-85 | no active modes |
| FailureModes.FailureManager.Inject | simulator/src/failure_modes.py:87-88 | the mode is stored under its own id, replacing any mode with that id; the id-keyed invariant holds |
| FailureModes.FailureManager.Remove | simulator/src/failure_modes.py:90-91 | only that id is removed; an unknown id changes nothing |
| FailureModes.FailureManager.ActiveFailures | simulator/src/failure_modes.py:93-94 | the modes in insertion order, no id twice |
| FailureModes.FailureManager.Tick | simulator/src/failure_modes.py:96-98 | every active mode's severity takes the capped step from its own old value |
| FailureModes.FailureManager.DistinctModes | simulator/src/failure_modes.py:85-88 | distinct ids hold distinct mode objects, so ticking one never ticks another twice |
| FailureModes.FailureManager.CombinedImpact | simulator/src/failure_modes.py:100-105 | `combined_impact` is the key-wise sum (`Combine`) of the active modes' impacts in insertion order |
| FailureModeProperties.TickNeverDecreases | simulator/src/failure_modes.py:21-22 | a non-negative step never lowers a severity at most 1, and the result stays at most 1 |
| FailureModeProperties.TickHasNoLowerClamp | simulator/src/failure_modes.py:22 | there is no lower clamp: a negative time step drives the severity below 0 |
| FailureModeProperties.ImpactAffine | simulator/src/failure_modes.py:35-78 | each kind reports the same keys at every severity, and each value is intercept + slope * severity with coefficients fixed by the kind and key |
| FailureModeProperties.AffineForm | simulator/src/failure_modes.py:35-78 | each reported value equals its kind's intercept plus slope times severity |
| FailureModeProperties.InjectCount | simulator/src/failure_modes.py:87-94 | injecting under a new id adds one active mode; under a known id the count is unchanged |
| SpindlePhysics.AsDict | simulator/src/spindle.py:60 | `bearing_frequencies_hz` returns exactly the keys BPFO, BPFI, BSF, FTF, in that order, each holding its frequency |
| SpindlePhysics.PowerKw | simulator/src/spindle.py:27-33 | power is non-negative for non-negative speed and torque, and zero when either is zero |
| SpindlePhysics.ThermalExpansionMm | simulator/src/spindle.py:35-38 | growth is zero for zero length or zero temperature rise, and non-negative when all three factors are |
| SpindlePhysics.BearingFrequenciesHz | simulator/src/spindle.py:40-60 | BPFO plus BPFI is the number of balls times the shaft frequency rpm / 60, and a still shaft has all four frequencies zero |
| SpindlePhysics.VibrationMmS | simulator/src/spindle.py:62-70 | vibration never exceeds the 10 mm/s cap |
| SpindlePhysics.WearFraction | simulator/src/spindle.py:68 | the wear percentage clamped into [0, 100] and divided by 100 lies in [0, 1] |
| SpindleProperties.PowerBilinear | simulator/src/spindle.py:27-33 | power is linear in the speed and in the torque, and zero when either is zero |
| SpindleProperties.PowerExample | simulator/tests/test_spindle.py:16-18 | 12000 rpm at 10 N·m gives 4π kW, which lies strictly between 10 and 15 |
| SpindleProperties.ThermalExample | simulator/tests/test_spindle.py:39-41 | 100 mm heated by 20 °C with the default coefficient grows by 0.0234 mm, within [0.02, 0.03] |
| SpindleProperties.FrequenciesLinear | simulator/src/spindle.py:46-58 | every defect frequency scales linearly with the shaft speed |
| SpindleProperties.FrequencyRelations | simulator/src/spindle.py:51-58 | for a non-negative contact-angle cosine the inner-race frequency is at least the outer-race one, and the outer-race frequency is the number of balls times the cage frequency |
| SpindleProperties.VibrationClampsWear | simulator/src/spindle.py:68 | a wear below 0 reads as 0 and a wear above 100 as 100 |
| SpindleProperties.VibrationRange | simulator/src/spindle.py:68-70 | the vibration lies between the base vibration and the 10 mm/s cap |
| SpindleProperties.VibrationMonotone | simulator/src/spindle.py:68-70 | more wear never gives less vibration |
| SpindleProperties.VibrationWearExample | simulator/tests/test_spindle.py:27-30 | with the default spindle, 80 % wear vibrates strictly more than 10 % |
| TelemetryModelProperties.DefaultsValid | simulator/src/models.py:16-81 | every field default satisfies its own field's bounds |
| TelemetryModelProperties.ExampleValid | simulator/src/models.py:98-127 | the example snapshot passes validation, names a machine and has rpm and wear in range; its total power is not the sum of its spindle and servo power |
| TelemetryModelProperties.ValidIgnoresUncheckedFields | simulator/src/models.py:22-38 | validity ignores the axes, timestamp, machine id, program and block, which carry no bounds |
| CncMachine.CNCMachine.constructor | simulator/src/cnc_machine.py:25-43 | a stopped, unpaused machine with no cycle timestamp and zero wear and runtime; the machine id falls back to the configuration's |
| CncMachine.Elapsed | simulator/src/cnc_machine.py:85-92 | the first cycle reads 0 seconds; later ones read the time that, added to the last timestamp, gives now |
| CncMachine.AdvancedWear | simulator/src/cnc_machine.py:78-83 | a non-positive delta keeps the wear; otherwise wear at most 100 never decreases, stays at most 100, and strictly rises while below 100 |
| CncMachine.Snapshot | simulator/src/cnc_machine.py:99-154 | the snapshot carries the timestamp, machine id, wear and runtime given, its total power is spindle plus servo, and a stopped or paused machine reports zero speed and load |
| CncMachine.CNCMachine.Start | simulator/src/cnc_machine.py:45-50 | running, not paused, the cycle clock restarted at the current monotonic time; counters unchanged |
| CncMachine.CNCMachine.Stop | simulator/src/cnc_machine.py:52-56 | neither running nor paused; timestamp and counters unchanged |
| CncMachine.CNCMachine.Pause | simulator/src/cnc_machine.py:58-61 | paused whether or not running; nothing else changes |
| CncMachine.CNCMachine.Resume | simulator/src/cnc_machine.py:63-67 | unpauses only a running machine; a stopped machine keeps its pause flag |
| CncMachine.CNCMachine.AdvanceState | simulator/src/cnc_machine.py:78-83 | a non-positive delta changes nothing; otherwise runtime grows by delta/60 minutes and wear by 0.05 % per minute, capped at 100; wear stays in [0, 100] |
| CncMachine.CNCMachine.ElapsedSinceLastCycle | simulator/src/cnc_machine.py:85-92 | 0 on the first call, otherwise now minus the last timestamp; the timestamp becomes now either way |
| CncMachine.CNCMachine.GenerateTelemetry | simulator/src/cnc_machine.py:94-154 | a running machine (paused or not) reads the clock and advances its counters, a stopped one does neither; the snapshot reports the updated counters |
| CncMachine.CNCMachine.RunCycle | simulator/src/cnc_machine.py:72-76 | one pass of the loop body, reached only while the machine runs: a paused machine produces nothing and changes nothing; otherwise the clock is read, the timestamp becomes now, wear and runtime advance by the elapsed time, and the snapshot reports them |
| CncMachineProperties.AdvanceMonotone | simulator/src/cnc_machine.py:78-83 | neither counter ever decreases, wear stays at most 100, and a non-positive delta changes nothing |
| CncMachineProperties.WearIncreases | simulator/tests/test_cnc_machine.py:17-28 | positive elapsed time strictly raises wear below the cap; two 120-second cycles from a new tool give 0.1 % then 0.2 % |
| CncMachineProperties.StoppedSnapshot | simulator/src/cnc_machine.py:100-136 | a stopped or paused machine reports zero speed, load, feed, coolant flow and pressure, zero spindle power and 0.5 kW servo and total power |
| CncMachineProperties.CuttingSnapshot | simulator/src/cnc_machine.py:100-134 | a running, unpaused machine reports a speed in [3000, 18000], the drawn load and feed, coolant at 12 l/min and 4 bar, and positive spindle power |
| CncMachineProperties.SnapshotPower | simulator/src/cnc_machine.py:102-107 | total power is spindle plus servo power, the servo draws at least 0.5 kW and the spindle power is never negative |
| CncMachineProperties.SnapshotValid | simulator/src/cnc_machine.py:94-154 | every snapshot passes its own schema's range checks and reports the machine id and counters it was given |
| MqttPublisher.Topic | simulator/src/mqtt_publisher.py:42-44 | the topic is `dt/cnc/`, the machine id, then `/telemetry` |
| MqttPublisher.Flushed | simulator/src/mqtt_publisher.py:75-76 | flushing sends each pending message, in order, on the machine's topic at qos 0 |
| MqttPublisher.MessagesFlushed | simulator/src/mqtt_publisher.py:73-76 | the messages a flush sends are exactly the pending queue, in order |
| MqttPublisher.MQTTPublisher.constructor | simulator/src/mqtt_publisher.py:15-37 | an empty queue, not connected, nothing published |
| MqttPublisher.MQTTPublisher.Publish | simulator/src/mqtt_publisher.py:60-65 | when disconnected the message is appended to the queue and nothing is sent; when connected it is sent at once on the topic with the caller's qos; no message is lost or reordered |
| MqttPublisher.MQTTPublisher.QueueSize | simulator/src/mqtt_publisher.py:67-68 | the number of queued messages |
| MqttPublisher.MQTTPublisher.Connect | simulator/src/mqtt_publisher.py:46-51 | connected, with the queue flushed in FIFO order at qos 0 and left empty |
| MqttPublisher.MQTTPublisher.Disconnect | simulator/src/mqtt_publisher.py:53-58 | disconnected; queue and sent log unchanged |
| MqttPublisher.MQTTPublisher.FlushQueue | simulator/src/mqtt_publisher.py:70-76 | the queue is emptied and its messages are appended to the sent log in order at qos 0; sent messages followed by the queue are still exactly the accepted messages |
| MqttPublisherScenarios.BufferedPublishFlushesOnConnect | simulator/tests/test_mqtt_publisher.py:37-53 | a message published before connecting is queued (size 1), then sent at qos 0 on connect, leaving size 0 |
| MqttPublisherScenarios.DisconnectBuffersAgain | simulator/src/mqtt_publisher.py:53-65 | after a disconnect, publishing buffers again and sends nothing |
| RateLimit.Refilled | services/digital-twin-api/src/rate_limit.py:21-23 | the refilled level is the smaller of the capacity and the level plus elapsed time times the rate: it is at most each, and equal to one of them |
| RateLimit.AllowStep | services/digital-twin-api/src/rate_limit.py:19-27 | the request is granted exactly when the refilled level covers it; a grant leaves the refilled level minus the amount, a refusal leaves a level below the amount |
| RateLimit.TokenBucket.constructor | services/digital-twin-api/src/rate_limit.py:9-17 | a full bucket whose refill clock starts at the current time |
| RateLimit.TokenBucket.Allow | services/digital-twin-api/src/rate_limit.py:19-27 | the clock moves to now; the bucket refills, then grants exactly when the refilled level covers the amount, deducting it only then |
| RateLimitProperties.AllowKeepsBounds | services/digital-twin-api/src/rate_limit.py:19-27 | the level never exceeds the capacity after a call, and never goes negative for a non-negative start, capacity, rate and elapsed time |
| RateLimitProperties.AllowDeducts | services/digital-twin-api/src/rate_limit.py:24-27 | a grant leaves exactly the amount fewer tokens than the refill produced; a refusal leaves the refilled level, which was short |
| RateLimitProperties.BurstThenRefuse | services/digital-twin-api/src/main.py:39-42 | the API's bucket (capacity 100, 100 tokens a minute) grants 100 unit requests at one instant and refuses the 101st |
| Store.AddedTelemetry | services/digital-twin-api/src/store.py:28-30 | `add_telemetry` succeeds exactly when the bound is non-negative (the new deque is built even when unused); the map stays well formed and every history within its bound |
| Store.Newest | services/digital-twin-api/src/store.py:32-34 | the last element of a non-empty history, and None for a missing or empty one |
| Store.InMemoryStore.constructor | services/digital-twin-api/src/store.py:12-17 | four empty maps |
| Store.InMemoryStore.AddMachine | services/digital-twin-api/src/store.py:19-20 | the machine is stored under its id, replacing any other; nothing else changes |
| Store.InMemoryStore.ListMachines | services/digital-twin-api/src/store.py:22-23 | every stored machine, in first-insertion order |
| Store.InMemoryStore.GetMachine | services/digital-twin-api/src/store.py:25-26 | the machine stored under the id, or None exactly when there is none |
| Store.InMemoryStore.AddTelemetry | services/digital-twin-api/src/store.py:28-30 | appends to the machine's bounded history, creating it with the given bound on first use; a negative bound is an error that changes nothing; other maps unchanged |
| Store.InMemoryStore.SetTelemetry | services/digital-twin-api/src/store.py:28-30 | the telemetry map is replaced by a well-formed, bounded one; nothing else changes |
| Store.InMemoryStore.LatestTelemetry | services/digital-twin-api/src/store.py:32-34 | the machine's newest record, or None exactly when it has none |
| Store.InMemoryStore.History | services/digital-twin-api/src/store.py:36-38 | the machine's records oldest first; empty for an unknown machine |
| Store.InMemoryStore.AddPrediction | services/digital-twin-api/src/store.py:40-41 | the record is appended to the machine's list, which is created if missing; nothing else changes |
| Store.InMemoryStore.ListPredictions | services/digital-twin-api/src/store.py:43-44 | the machine's list, or empty |
| Store.InMemoryStore.AddAnomaly | services/digital-twin-api/src/store.py:46-47 | the record is appended to the machine's list, which is created if missing; nothing else changes |
| Store.InMemoryStore.ListAnomalies | services/digital-twin-api/src/store.py:49-50 | the machine's list, or empty |
| StoreProperties.AddedTelemetryNewest | services/digital-twin-api/src/store.py:28-34 | after an accepted append with a positive bound, the newest record is the appended one, the history is within its bound and other machines are untouched |
| StoreProperties.MaxlenFixedAtFirstInsert | services/digital-twin-api/src/store.py:29 | a machine's bound is fixed by its first record; later bounds are ignored |
| StoreProperties.FullHistoryDropsOldest | services/digital-twin-api/src/store.py:29-30 | appending to a full history drops its oldest record |
| StoreProperties.IngestStoresLatest | services/digital-twin-api/src/main.py:100-102 | ingesting one record for a new machine makes it that machine's latest and only record |
| Aggregator.WindowSeconds | services/data-aggregator/src/aggregator.py:10-14 | every window length is positive |
| Aggregator.FloorTo | services/data-aggregator/src/aggregator.py:56 | `t - t % seconds` is the multiple of the window at or below t, and t lies in that bucket |
| Aggregator.BucketStart | services/data-aggregator/src/aggregator.py:52-57 | the bucket start is the multiple of the window length at or below the whole-second timestamp, and that second lies in its bucket |
| Aggregator.AddTo | services/data-aggregator/src/aggregator.py:30-32 | appending to a default-to-empty list keeps the dict well formed and every group non-empty |
| Aggregator.AddPoint | services/data-aggregator/src/aggregator.py:28-32 | adding one point under each window keeps the groups well formed and non-empty |
| Aggregator.Group | services/data-aggregator/src/aggregator.py:23-32 | the grouping of all points is well formed and every group holds at least one value |
| Aggregator.Min | services/data-aggregator/src/aggregator.py:43 | `min(values)` is one of the values and at most each of them |
| Aggregator.Max | services/data-aggregator/src/aggregator.py:44 | `max(values)` is one of the values and at least each of them |
| Aggregator.MakeBucket | services/data-aggregator/src/aggregator.py:35-47 | a summary keeps its group's key, counts its values, takes as minimum and maximum values that are among them and bound every one of them, and takes as mean their sum divided by their count |
| Aggregator.BucketsFor | services/data-aggregator/src/aggregator.py:35-47 | one summary per group, in the groups' insertion order |
| Aggregator.Insert | services/data-aggregator/src/aggregator.py:49 | inserting one summary adds it to the multiset of summaries and its count to the total count |
| Aggregator.AddPointGroups | services/data-aggregator/src/aggregator.py:28-32 | the inner loop computes the grouping after one point under every window |
| Aggregator.SortBuckets | services/data-aggregator/src/aggregator.py:49 | the result is sorted by (machine, metric, window name, bucket start) and is a permutation of the input, so the total count is kept |
| Aggregator.GroupPoints | services/data-aggregator/src/aggregator.py:27-32 | the outer loop computes the grouping of every point under every window |
| Aggregator.BuildBuckets | services/data-aggregator/src/aggregator.py:34-47 | the summary loop builds one summary per group, in group order |
| Aggregator.Aggregate | services/data-aggregator/src/aggregator.py:20-50 | the result is sorted and a permutation of the groups' summaries; the counts add up to points times windows; each bucket has count at least 1 and minimum <= mean <= maximum; no points or no windows give no buckets |
| Aggregator.KeyLeTotal | services/data-aggregator/src/aggregator.py:49 | any two buckets are ordered one way or the other by the sort key |
| Aggregator.KeyLeTransitive | services/data-aggregator/src/aggregator.py:49 | the sort key order is transitive |
| Aggregator.KeyLe | services/data-aggregator/src/aggregator.py:49 | the sort key order on machine id, metric, window name and bucket start is reflexive (`KeyLeTotal` and `KeyLeTransitive` give the rest) |
| Aggregator.InsertSorted | services/data-aggregator/src/aggregator.py:49 | inserting into a sorted list keeps it sorted |
| Aggregator.InsertBelow | services/data-aggregator/src/aggregator.py:49 | a lower bound on the element and on the list is a lower bound on the list after insertion |
| Aggregator.PermutedStats | services/data-aggregator/src/aggregator.py:42-49 | sorting keeps every bucket's count >= 1 and minimum <= mean <= maximum |
| Aggregator.BucketStats | services/data-aggregator/src/aggregator.py:42-45 | a summary has count at least 1 and its mean between its minimum and maximum |
| Aggregator.MeanBetween | services/data-aggregator/src/aggregator.py:45 | a total between n times a lower and n times an upper bound has its mean between them |
| Aggregator.GroupTotal | services/data-aggregator/src/aggregator.py:27-32 | the groups hold exactly points times windows values between them |
| Aggregator.BucketsTotal | services/data-aggregator/src/aggregator.py:35-47 | the summaries' counts add up to the number of grouped values |
| Aggregator.GroupEmpty | services/data-aggregator/src/aggregator.py:27-32 | no points or no windows give no groups |
| AggregatorProperties.WindowLengths | services/data-aggregator/src/aggregator.py:10-14 | the windows last 60, 300 and 3600 seconds |
| AggregatorProperties.BucketStartProperties | services/data-aggregator/src/aggregator.py:52-57 | a bucket starts on a multiple of its window and holds the truncated second it came from |
| AggregatorProperties.WindowNameOrder | services/data-aggregator/src/aggregator.py:49 | windows sort by name, not by length: 1hour before 1min before 5min |
| AggregatorProperties.ExampleGroups | services/data-aggregator/tests/test_api.py:22-36 | two points 45 seconds apart in one minute form one 1-minute group holding 40 and 50 |
| AggregatorProperties.RollupExample | services/data-aggregator/tests/test_api.py:18-45 | those points give one bucket with count 2, minimum 40, maximum 50 and mean 45 |
| Detector.RuleHit | services/anomaly-detection/src/detector.py:39-49 | one rule yields exactly one anomaly, with its metric, value, severity and the `rule` detector, precisely when its condition holds, and nothing otherwise |
| Detector.DetectRuleBased | services/anomaly-detection/src/detector.py:32-90 | at most four anomalies, every one from the `rule` detector and carrying the snapshot's machine id (or `unknown`) |
| Detector.SquaredDeviations | services/anomaly-detection/src/detector.py:101 | the sum of squared deviations is never negative |
| Detector.Variance | services/anomaly-detection/src/detector.py:101 | the population variance (the square of `np.std`) is never negative |
| Detector.MinSamples | services/anomaly-detection/src/detector.py:98 | the warm-up length `max(5, window_size // 2)` is at least 5 |
| Detector.ZScoreFlags | services/anomaly-detection/src/detector.py:98-105 | a flag needs a warm, non-empty window whose variance exceeds 1e-12, and with a non-negative threshold a value off the mean |
| Detector.ZScoreResult | services/anomaly-detection/src/detector.py:98-116 | one medium `zscore` anomaly for the tested metric and value exactly when the window is warm, its spread exceeds 1e-6 and the value lies more than the threshold in standard deviations from the mean; none otherwise |
| Detector.ForestAnomalies | services/anomaly-detection/src/detector.py:129-143 | no more anomalies than rows, every one a low-severity `isolation_forest` anomaly |
| Detector.PushKeepsWindows | services/anomaly-detection/src/detector.py:28-30 | appending to a metric's window (created empty on first use) keeps every window a deque bounded by the configured size |
| Detector.Detector.constructor | services/anomaly-detection/src/detector.py:15-26 | a new detector has no history, an untrained forest, and bounded windows |
| Detector.Detector.Push | services/anomaly-detection/src/detector.py:28-30 | the metric's window becomes the old one (or an empty one) with the value appended and the oldest evicted when full; other windows and the forest flag are unchanged |
| Detector.Detector.DetectZScore | services/anomaly-detection/src/detector.py:92-116 | the value is recorded first, and the result is the z-score verdict on the window that now includes it |
| Detector.Detector.TrainIForest | services/anomaly-detection/src/detector.py:118-122 | the model becomes ready exactly when at least ten rows are given (a ready model stays ready); the history is untouched |
| Detector.Detector.DetectIForest | services/anomaly-detection/src/detector.py:124-143 | nothing before training; afterwards one anomaly per row predicted -1, in row order, valued by the row's index |
| DetectorProperties.RuleMetricsDistinct | services/anomaly-detection/src/detector.py:43-82 | the four rule metrics are different names |
| DetectorProperties.RuleOrigin | services/anomaly-detection/src/detector.py:39-88 | the i-th rule anomaly comes from the temperature, wear, vibration or coolant rule according to how many earlier rules fired, with that rule's reading as value and its severity |
| DetectorProperties.RuleBasedExact | services/anomaly-detection/src/detector.py:39-88 | each metric is reported if and only if its rule's strict comparison holds (the coolant rule needs both rpm above the running threshold and flow below the low threshold) |
| DetectorProperties.RuleBasedOrdered | services/anomaly-detection/src/detector.py:32-90 | the anomalies come in rule order, hence at most one per rule |
| DetectorProperties.AllRulesFire | services/anomaly-detection/tests/test_detector.py:22-42 | the test snapshot (75 °C, 12000 rpm, 7 mm/s, 85 % wear, 1.0 l/min) trips all four rules in order under the default thresholds of services/anomaly-detection/src/config.py |
| DetectorProperties.EmptySnapshotIsQuiet | services/anomaly-detection/src/detector.py:34-37 | missing sections and readings default to 0, so an empty snapshot reports nothing under the default thresholds |
| DetectorProperties.SumConstant | services/anomaly-detection/src/detector.py:100 | the sum of n equal values is n times the value |
| DetectorProperties.DeviationsConstant | services/anomaly-detection/src/detector.py:101 | n equal values c deviate from m by n·(c-m)² in total |
| DetectorProperties.SnocSums | services/anomaly-detection/src/detector.py:100-101 | appending one value adds it to the sum and its squared deviation to the total |
| DetectorProperties.ConstantWindowNeverFlags | services/anomaly-detection/src/detector.py:102-103 | a window of equal values has no spread, so no value is ever flagged against it |
| DetectorProperties.WarmUpNeverFlags | services/anomaly-detection/src/detector.py:98-99 | fewer than max(5, window_size // 2) values never flag |
| DetectorProperties.SpikeFlags | services/anomaly-detection/tests/test_detector.py:11-19 | nine 40s followed by 100 (mean 46, std 18) put the 100 three deviations out, which a threshold of 2 flags |
| DetectorProperties.ForestAnomaliesExact | services/anomaly-detection/src/detector.py:131-142 | the forest yields exactly one anomaly per outlier row, in row order, valued by that row's index and labelled with the machine and metric |
| Detector.Outliers | services/anomaly-detection/src/detector.py:131-132 | the indices of the rows predicted -1 are in range and point at -1 predictions |
| DetectorProperties.OutliersExact | services/anomaly-detection/src/detector.py:131-132 | the outlier indices are strictly increasing, and a row is among them exactly when it was predicted -1 |
| DetectorProperties.ZScoreIsStdTest | services/anomaly-detection/src/detector.py:98-116 | for the non-negative square root s of the window's variance, the squared test flags exactly when the window is warm, s > 1e-6 and abs(value - mean) / s exceeds the threshold |
| DetectorProperties.RatioVersusSquares | services/anomaly-detection/src/detector.py:104-105 | for a ≥ 0, s > 0 and t ≥ 0, a / s > t holds exactly when a² > t²·s² |
| Numbers.SquareLe | services/anomaly-detection/src/detector.py:101-105 | for non-negative reals, x ≤ y exactly when x² ≤ y² |
| DetectorProperties.SpikeScenario | services/anomaly-detection/tests/test_detector.py:4-19 | driving a detector with window 10 and threshold 2: the nine 40s return nothing and the final 100 returns one `zscore` anomaly for that value |
| Predictor.WearFactor | services/predictive-maintenance/src/predictor.py:24 | the wear factor lies in [0, 1] and is exactly wear/100 for wear within 0..100 |
| Predictor.SpeedFactor | services/predictive-maintenance/src/predictor.py:25 | the speed factor is never negative |
| Predictor.PredictToolRul | services/predictive-maintenance/src/predictor.py:16-34 | the estimate fits the response schema (minutes ≥ 0, confidence in [0.3, 1]) and is `max(0, base life − consumed)`: never below the base life minus the life consumed by runtime, wear and speed, and either 0 or exactly that difference |
| Predictor.PredictSpindleHealth | services/predictive-maintenance/src/predictor.py:37-56 | score and days are non-negative and the days to maintenance are the score divided by 5 |
| Predictor.BuildSchedule | services/predictive-maintenance/src/predictor.py:59-101 | two entries: first "Tool" / "Replace" with the urgency of the tool's remaining minutes and the tool's confidence, then "Spindle Bearings" / "Inspect" with the urgency of the health score and confidence 0.7; for schema-valid inputs neither estimated time lies before now |
| Numbers.MulMonotone | services/predictive-maintenance/src/predictor.py:28 | scaling by a non-negative factor preserves order |
| PredictorProperties.ToolRulClamps | services/predictive-maintenance/src/predictor.py:24-25 | wear below 0 or above 100 and negative speeds estimate like the clamped value |
| PredictorProperties.ToolRulAtMostBaseLife | services/predictive-maintenance/src/predictor.py:26-30 | with a non-negative base life and runtime the estimate never exceeds `max_tool_life_minutes * safety_factor` |
| PredictorProperties.WearFactorMonotone | services/predictive-maintenance/src/predictor.py:24 | more wear never gives a smaller wear factor |
| PredictorProperties.ToolRulMonotone | services/predictive-maintenance/src/predictor.py:24-31 | more wear, runtime or speed never leaves more minutes or a higher confidence |
| PredictorProperties.SumMonotone | services/predictive-maintenance/src/predictor.py:27-29 | the three consumption terms add monotonically |
| PredictorProperties.ToolRulWearExample | services/predictive-maintenance/tests/test_predictor.py:10-18 | with the defaults of services/predictive-maintenance/src/config.py:13-14 the base life is 270; wear 10 leaves 203 minutes and wear 80 leaves 14, with confidence 0.3 |
| PredictorProperties.HealthWithinSchema | services/predictive-maintenance/src/predictor.py:45-51 | non-negative readings and positive limits keep the score within [0, 100]; an idle cold spindle scores 100 |
| PredictorProperties.HealthExhausted | services/predictive-maintenance/src/predictor.py:45-50 | both readings at their limits and a trend of 10 or more give a score of 0 |
| PredictorProperties.UrgencyMonotone | services/predictive-maintenance/src/predictor.py:67-71 | less life or health never lowers urgency, and the thresholds 30/120 minutes and 40/70 points are strict |
| PredictorProperties.ScheduleExample | services/predictive-maintenance/src/predictor.py:59-101 | a tool with 14 minutes left is replaced at high urgency 840 s from now; a healthy spindle is inspected at low urgency in 20 days |
| ServiceClient.Lookup | services/digital-twin-api/src/service_client.py:76-83 | the walk stops with nothing as soon as a step meets a non-object or a missing key; at the end of the path an int, float or bool reads as a number and anything else as nothing |
| ServiceClient.ExtractMetric | services/digital-twin-api/src/service_client.py:74-83 | the loop over the dot-separated parts returns exactly the recursive lookup of the metric's path |
| ServiceClient.Survivors | services/digital-twin-api/src/service_client.py:52-64 | at most one point per record, each carrying the requested machine id and metric |
| ServiceClient.AggregatePayloadOf | services/digital-twin-api/src/service_client.py:44-66 | the request's points are exactly the survivors of the records, in order, and the windows pass through unchanged |
| ServiceClientProperties.LeafValues | services/digital-twin-api/src/service_client.py:81-83 | a bool leaf reads as 1.0 or 0.0, an int or float as its value, anything else as nothing |
| ServiceClientProperties.LookupIsWalk | services/digital-twin-api/src/service_client.py:76-83 | the lookup is the walk through objects followed by the number check on what it reaches |
| ServiceClientProperties.Walk | services/digital-twin-api/src/service_client.py:77-80 | an empty path reaches the starting value itself |
| ServiceClientProperties.SurvivorsAppend | services/digital-twin-api/src/service_client.py:53-64 | the filter distributes over concatenation, so it never reorders records |
| ServiceClientProperties.SurvivorsOne | services/digital-twin-api/src/service_client.py:54-64 | a record survives if and only if its metric can be extracted, and then carries that value and its own timestamp |
| ServiceClientProperties.TopLevelMetric | services/digital-twin-api/src/service_client.py:77-83 | a metric name without a dot is looked up directly in the data object |
| ServiceClientProperties.NoSeparatorSplit | services/digital-twin-api/src/service_client.py:77 | splitting a string without the separator yields the string alone |
| Strings.UpperChar | simulator/src/gcode_parser.py:40 | upper-casing a character leaves no lower-case letter, keeps white space as it is and leaves non-letters alone |
| Strings.UpperIsUpper | simulator/src/gcode_parser.py:40 | an upper-cased line has no lower-case letters, and upper-casing twice changes nothing more |
| Strings.LStrip | simulator/src/gcode_parser.py:40 | the result is a suffix of the line reached by dropping white space only, and starts with a non-space |
| Strings.RStrip | simulator/src/gcode_parser.py:40 | the result is a prefix of the line reached by dropping white space only, and ends with a non-space |
| Strings.StripUpper | simulator/src/gcode_parser.py:40 | stripping and upper-casing commute |
| Strings.WordLength | simulator/src/gcode_parser.py:52 | the first word runs up to the first white space or the end |
| Strings.Words | simulator/src/gcode_parser.py:52 | `str.split()` yields only non-empty words that begin with a non-space |
| Strings.SplitOn | services/digital-twin-api/src/service_client.py:77 | `str.split(".")` yields at least one part and no part contains the separator |
| Strings.JoinSplitOn | services/digital-twin-api/src/service_client.py:77 | joining the parts with the separator gives back the original string |
| Strings.LexLeTotal | services/data-aggregator/src/aggregator.py:49 | string order compares any two strings |
| Strings.LexLeTransitive | services/data-aggregator/src/aggregator.py:49 | string order is transitive |
| Strings.LexLeAntisymmetric | services/data-aggregator/src/aggregator.py:49 | strings ordered both ways are equal |
| OrderedDicts.Empty | services/digital-twin-api/src/store.py:13-17 | a fresh dict has no keys |
| OrderedDicts.ODict.Get | services/digital-twin-api/src/store.py:26 | `dict.get` finds a value exactly when the key is present, and then it is the stored value |
| OrderedDicts.ODict.GetOr | services/digital-twin-api/src/store.py:44 | `dict.get(k, default)` is the stored value when the key is present, else the default |
| OrderedDicts.ODict.Put | services/digital-twin-api/src/store.py:20 | assignment stores the value; a new key goes last in insertion order, an existing key keeps its place |
| OrderedDicts.ODict.Remove | simulator/src/failure_modes.py:91 | `dict.pop(k, None)` drops the key, keeps the rest of the order, and does nothing for an absent key |
| OrderedDicts.ODict.Values | simulator/src/failure_modes.py:96 | `dict.values()` lists one value per key in insertion order |
| OrderedDicts.Without | simulator/src/failure_modes.py:91 | taking a key out of the order never lengthens it |
| OrderedDicts.WithoutKeepsOthers | simulator/src/failure_modes.py:91 | taking a key out keeps every other key, once each, and shortens the order by one exactly when the key was present |
| BoundedDeques.BoundedDeque.Append | services/digital-twin-api/src/store.py:30 | `deque.append` on a deque with `maxlen` keeps the newest `maxlen` items, ending in the appended one |
| BoundedDeques.NewDeque | services/digital-twin-api/src/store.py:29 | `deque(maxlen=n)` exists exactly for n ≥ 0 and starts empty |
| BoundedDeques.LastN | services/digital-twin-api/src/store.py:29-30 | the last n items form a suffix of the sequence of length min(n, length) |
| BoundedDeques.AppendAll | services/digital-twin-api/src/store.py:28-30 | repeated appends keep the bound and the deque's well-formedness |
| BoundedDeques.AppendAllKeepsNewest | services/digital-twin-api/src/store.py:28-30 | after any number of appends the deque holds the newest `maxlen` of all items ever appended |
| BoundedDeques.LastNAppend | services/digital-twin-api/src/store.py:28-30 | evicting early and evicting late keep the same newest items |
| JsonValues.AsFloat | services/digital-twin-api/src/service_client.py:81-82 | `float(x)` of a bool is 1.0 or 0.0, of an int its value, of a float itself |
| Store.PutKeepsBounded | services/digital-twin-api/src/store.py:29-30 | replacing one machine's deque with a well-formed one keeps every deque bounded |
| MqttPublisher.Messages | simulator/src/mqtt_publisher.py:73-76 | the messages of a publish log, one per call, in order |
| MqttPublisher.MessagesAppend | simulator/src/mqtt_publisher.py:73-76 | the messages of two logs joined are the messages of each, joined |
| GCodeParserExamples.ParseRapidMove | simulator/tests/test_gcode_parser.py:4-17 | `N0010 G00 X12.5 Y3.0 Z2.0` parses to block 10, G-codes [0], x 12.5, y 3.0, z 2.0 and nothing else |
| GCodeParserExamples.ParseLinearMove | simulator/tests/test_gcode_parser.py:20-30 | `N0020 G01 X10.0 Y5.0 F1200` parses to block 20, G-codes [1], x 10.0, y 5.0, feed 1200 and nothing else |
| GCodeParserExamples.ParseMCodes | simulator/tests/test_gcode_parser.py:33-42 | `N0030 M03 S8000 T1` parses to block 30, M-codes [3], speed 8000, tool 1, no G-codes and no comment |
| GCodeParserExamples.WordsFive | simulator/src/gcode_parser.py:52 | five space-free words joined by single spaces split back into those five words |
| GCodeParserExamples.BlockFour | simulator/src/gcode_parser.py:53-58 | `N` and four digits sets the block number to the digits' decimal value |
| GCodeParserExamples.DecimalTwoOne | simulator/src/gcode_parser.py:60-66 | a letter other than N with `dd.d` dispatches the value of those digits |

## Left out

- Floating point: every Python `float` is a Dafny `real`. Rounding, overflow, infinities and NaN are not modelled. Decimal constants such as `0.9` and `1e-6` are therefore exact.
- `math.pi`: it is the decimal constant 3.141592653589793.
- `math.cos` and `math.exp`: they are function parameters. The lemmas that need them assume only the laws they state: `exp` is strictly increasing, `exp(0) = 1`, and `exp(3) <= 20.1`.
- Randomness and clocks are parameters of the methods that use them, with the ranges the code draws from as preconditions. This covers `random.uniform`, `time.monotonic` and `datetime.now`.
- Timestamps, including `isoformat` strings, are real numbers of seconds.
- The simulator's run loop and its `asyncio`/`time.sleep` pacing are not modelled; one pass of its body is (`CncMachine.CNCMachine.RunCycle`).
- MQTT networking is not modelled: the paho client, TLS, the network loop, reconnection and callbacks. The broker client is the log of publish calls it receives.
- Payloads are serialised by `json.dumps`, which is not modelled; messages are opaque strings.
- The HTTP layer is not modelled. This covers the FastAPI routes, request validation, `httpx` calls, `send_alert` and the responses of downstream services. `ServiceClient.AggregatePayloadOf` builds the body that `aggregate` posts.
- The isolation forest (`sklearn`) is not modelled. Its training is reduced to the row-count gate. Its predictions are a parameter of `Detector.Detector.DetectIForest`.
- `Detector.ZScoreResult`: its anomaly reason is the fixed text `Z-score exceeds threshold`. The source formats the z value into the reason with two decimals, which is not modelled.
- The z-score test is decided on squared quantities, without square roots. `DetectorProperties.ZScoreIsStdTest` proves it equal to the source's test with the square root for real numbers; it is not bit-for-bit equal for floats.
- `Detector.Detector.constructor`: requires a non-negative window size. Python's `deque(maxlen=n)` raises `ValueError` for a negative `n` on the first push, and that error path is not modelled.
- `Predictor.PredictSpindleHealth`: requires non-zero limits. The source divides by them and would raise `ZeroDivisionError`, which is not modelled. Negative readings give a score above 100, which `services/predictive-maintenance/src/models.py:41` (`le=100`) would reject with a validation error; the model does not check the response, and request validation (`models.py:32-33`, `ge=0`) keeps negative readings off the API path.
- `Store.InMemoryStore.ListPredictions` and `Store.InMemoryStore.ListAnomalies`: they return the stored sequence as a value. The source returns the stored list itself (`store.py:43-44`, `store.py:49-50`), so a caller that mutates it changes the store; that aliasing is not modelled.
- `SpindlePhysics.BearingFrequenciesHz`: requires non-zero ball and pitch diameters. `bearing_frequencies_hz` (`simulator/src/spindle.py:49-54`) divides by both, so a zero diameter raises `ZeroDivisionError` there; that error path is not modelled.
- Strings are ASCII only. `str.upper`, `str.isspace` and `str.split()` are modelled on the ASCII range; Unicode case mapping and Unicode white space are not modelled.
- Telemetry readings that are not numbers (strings or lists where the rules expect numbers) are not modelled. In the rule detector, each reading is either a number or absent. The dotted-path extraction handles every JSON kind.
- Logging calls and environment-variable configuration are not modelled. Configuration objects carry the documented default values.
- `simulator/src/cnc_machine.py:100-105` draws the spindle speed from a fixed 3000–18000 band rather than from configuration; the model follows the code.
- `services/data-aggregator/src/aggregator.py:49` sorts windows by their names as strings, so `1hour` sorts before `1min` and `5min`. The model keeps that order.

=== FILE: aggregator.dfy ===
/** Fixed-window rollups of metric points: each point is floored into one bucket per
    requested window, values are grouped by (machine, metric, window, bucket start), and
    each group is summarised by count, minimum, maximum and mean, sorted by that key. */
module Aggregator {
  import opened Numbers
  import opened Strings
  import opened OrderedDicts

  datatype Window = Min1 | Min5 | Hour1

  /** The window's name as the API spells it. */
  function WindowName(w: Window): string {
    match w
    case Min1 => "1min"
    case Min5 => "5min"
    case Hour1 => "1hour"
  }

  function WindowSeconds(w: Window): (s: int)
    ensures s > 0
  {
    match w
    case Min1 => 60
    case Min5 => 300
    case Hour1 => 3600
  }

  /** A metric point; the timestamp is in seconds since the epoch. */
  datatype MetricPoint = MetricPoint(machineId: string, metric: string, timestamp: real, value: real)

  /** The start of the window-long bucket holding whole second `t`. Python's `%` with a
      positive divisor never returns a negative remainder, like Dafny's. */
  function FloorTo(t: int, seconds: int): (start: int)
    requires seconds > 0
    ensures start == seconds * (t / seconds)
    ensures start <= t < start + seconds
  {
    t - t % seconds
  }

  /** `_bucket_start`: the timestamp truncated to whole seconds, then floored to the window. */
  function BucketStart(timestamp: real, w: Window): (start: int)
    ensures start <= Trunc(timestamp) < start + WindowSeconds(w)
    ensures start == WindowSeconds(w) * (Trunc(timestamp) / WindowSeconds(w))
  {
    FloorTo(Trunc(timestamp), WindowSeconds(w))
  }

  datatype GroupKey = GroupKey(machineId: string, metric: string, window: Window, bucketStart: int)

  datatype AggregateBucket = AggregateBucket(
    machineId: string,
    metric: string,
    window: Window,
    bucketStart: int,
    count: int,
    minValue: real,
    maxValue: real,
    avgValue: real)

  type Groups = ODict<GroupKey, seq<real>>

  /** Every group holds at least one value. */
  ghost predicate NonEmptyGroups(g: Groups) {
    forall k :: k in g.m ==> g.m[k] != []
  }

  /** `grouped[key].append(value)` on a default-to-empty-list dictionary. */
  function AddTo(g: Groups, k: GroupKey, v: real): (r: Groups)
    requires g.Valid()
    ensures r.Valid()
    ensures NonEmptyGroups(g) ==> NonEmptyGroups(r)
  {
    g.Put(k, g.GetOr(k, []) + [v])
  }

  function KeyOf(p: MetricPoint, w: Window): GroupKey {
    GroupKey(p.machineId, p.metric, w, BucketStart(p.timestamp, w))
  }

  /** The groups after adding point `p` under each of `ws`, in order. */
  function AddPoint(g: Groups, p: MetricPoint, ws: seq<Window>): (r: Groups)
    requires g.Valid()
    ensures r.Valid()
    ensures NonEmptyGroups(g) ==> NonEmptyGroups(r)
  {
    if ws == [] then g else AddTo(AddPoint(g, p, ws[..|ws| - 1]), KeyOf(p, ws[|ws| - 1]), p.value)
  }

  /** The groups after every point, in order, under every window. */
  function Group(ps: seq<MetricPoint>, ws: seq<Window>): (r: Groups)
    ensures r.Valid() && NonEmptyGroups(r)
  {
    if ps == [] then Empty() else AddPoint(Group(ps[..|ps| - 1], ws), ps[|ps| - 1], ws)
  }

  function Sum(vs: seq<real>): real {
    if vs == [] then 0.0 else vs[0] + Sum(vs[1..])
  }

  function Min(vs: seq<real>): (m: real)
    requires vs != []
    ensures m in vs && forall i :: 0 <= i < |vs| ==> m <= vs[i]
  {
    if |vs| == 1 then vs[0]
    else
      var rest := Min(vs[1..]);
      if vs[0] <= rest then vs[0] else rest
  }

  function Max(vs: seq<real>): (m: real)
    requires vs != []
    ensures m in vs && forall i :: 0 <= i < |vs| ==> vs[i] <= m
  {
    if |vs| == 1 then vs[0]
    else
      var rest := Max(vs[1..]);
      if rest <= vs[0] then vs[0] else rest
  }

  /** The summary of one group. */
  function MakeBucket(k: GroupKey, vs: seq<real>): (b: AggregateBucket)
    requires vs != []
    ensures b.machineId == k.machineId && b.metric == k.metric
    ensures b.window == k.window && b.bucketStart == k.bucketStart
    ensures b.count == |vs| && b.minValue in vs && b.maxValue in vs && b.minValue <= b.maxValue
    ensures forall i :: 0 <= i < |vs| ==> b.minValue <= vs[i] <= b.maxValue
    ensures b.avgValue == Sum(vs) / |vs| as real
  {
    AggregateBucket(k.machineId, k.metric, k.window, k.bucketStart,
                    |vs|, Min(vs), Max(vs), Sum(vs) / |vs| as real)
  }

  /** The summaries of the groups named by `keys`, in that order. */
  function BucketsFor(keys: seq<GroupKey>, m: map<GroupKey, seq<real>>): (bs: seq<AggregateBucket>)
    requires forall k :: k in keys ==> k in m && m[k] != []
    ensures |bs| == |keys|
    ensures forall i :: 0 <= i < |keys| ==> bs[i] == MakeBucket(keys[i], m[keys[i]])
  {
    if keys == [] then []
    else BucketsFor(keys[..|keys| - 1], m) + [MakeBucket(keys[|keys| - 1], m[keys[|keys| - 1]])]
  }

  /** The sort key order: machine id, then metric, then window name, then bucket start. */
  predicate KeyLe(a: AggregateBucket, b: AggregateBucket): (le: bool)
    ensures a == b ==> le
  {
    if a.machineId != b.machineId then LexLe(a.machineId, b.machineId)
    else if a.metric != b.metric then LexLe(a.metric, b.metric)
    else if WindowName(a.window) != WindowName(b.window) then LexLe(WindowName(a.window), WindowName(b.window))
    else a.bucketStart <= b.bucketStart
  }

  predicate Sorted(bs: seq<AggregateBucket>) {
    forall i, j :: 0 <= i < j < |bs| ==> KeyLe(bs[i], bs[j])
  }

  /** The total number of values across `bs`. */
  function TotalCount(bs: seq<AggregateBucket>): int {
    if bs == [] then 0 else bs[0].count + TotalCount(bs[1..])
  }

  /** `x` placed before the first element it is key-less-or-equal to. */
  function Insert(x: AggregateBucket, s: seq<AggregateBucket>): (r: seq<AggregateBucket>)
    ensures multiset(r) == multiset(s) + multiset{x}
    ensures TotalCount(r) == TotalCount(s) + x.count
  {
    if s == [] || KeyLe(x, s[0]) then [x] + s
    else
      assert s == [s[0]] + s[1..];
      [s[0]] + Insert(x, s[1..])
  }

  /** One point's values added to `grouped` under each window: the inner loop of
      `aggregate`. */
  method AddPointGroups(grouped: Groups, p: MetricPoint, windows: seq<Window>)
    returns (r: Groups)
    requires grouped.Valid()
    ensures r == AddPoint(grouped, p, windows)
  {
    r := grouped;
    var j := 0;
    while j < |windows|
      invariant 0 <= j <= |windows|
      invariant r == AddPoint(grouped, p, windows[..j])
    {
      assert windows[..j + 1][..j] == windows[..j];
      var k := GroupKey(p.machineId, p.metric, windows[j], BucketStart(p.timestamp, windows[j]));
      r := r.Put(k, r.GetOr(k, []) + [p.value]);
      j := j + 1;
    }
    assert windows[..j] == windows;
  }

  /** Sorts `bs` by the bucket key, one insertion at a time. */
  method SortBuckets(bs: seq<AggregateBucket>) returns (r: seq<AggregateBucket>)
    ensures Sorted(r) && multiset(r) == multiset(bs)
    ensures TotalCount(r) == TotalCount(bs)
  {
    r := [];
    var i := 0;
    while i < |bs|
      invariant 0 <= i <= |bs|
      invariant Sorted(r) && multiset(r) == multiset(bs[..i])
      invariant TotalCount(r) == TotalCount(bs[..i])
    {
      InsertSorted(bs[i], r);
      TotalCountSnoc(bs[..i], bs[i]);
      assert bs[..i + 1] == bs[..i] + [bs[i]];
      r := Insert(bs[i], r);
      i := i + 1;
    }
    assert bs[..i] == bs;
  }

  /** The outer loop of `aggregate`: every point, in order, under every window. */
  method GroupPoints(points: seq<MetricPoint>, windows: seq<Window>) returns (grouped: Groups)
    ensures grouped == Group(points, windows)
  {
    grouped := Empty();
    var i := 0;
    while i < |points|
      invariant 0 <= i <= |points|
      invariant grouped == Group(points[..i], windows)
    {
      assert points[..i + 1][..i] == points[..i];
      grouped := AddPointGroups(grouped, points[i], windows);
      i := i + 1;
    }
    assert points[..i] == points;
  }

  /** One summary per group, in the groups' insertion order. */
  method BuildBuckets(grouped: Groups) returns (built: seq<AggregateBucket>)
    requires grouped.Valid() && NonEmptyGroups(grouped)
    ensures built == BucketsFor(grouped.keys, grouped.m)
  {
    built := [];
    var n := 0;
    while n < |grouped.keys|
      invariant 0 <= n <= |grouped.keys|
      invariant built == BucketsFor(grouped.keys[..n], grouped.m)
    {
      BucketsForSnoc(grouped.keys, grouped.m, n);
      var k := grouped.keys[n];
      built := built + [MakeBucket(k, grouped.m[k])];
      n := n + 1;
    }
    assert grouped.keys[..n] == grouped.keys;
  }

  /** `aggregate`: groups every (point, window) pair, summarises each group, and sorts the
      summaries by key. */
  method Aggregate(points: seq<MetricPoint>, windows: seq<Window>)
    returns (buckets: seq<AggregateBucket>)
    ensures var g := Group(points, windows);
      Sorted(buckets) && multiset(buckets) == multiset(BucketsFor(g.keys, g.m))
    ensures TotalCount(buckets) == |points| * |windows|
    ensures forall b :: b in buckets ==> b.count >= 1 && b.minValue <= b.avgValue <= b.maxValue
    ensures points == [] || windows == [] ==> buckets == []
  {
    var grouped := GroupPoints(points, windows);
    var built := BuildBuckets(grouped);
    buckets := SortBuckets(built);
    GroupTotal(points, windows);
    BucketsTotal(grouped.keys, grouped.m);
    PermutedStats(grouped, built, buckets);
    if points == [] || windows == [] {
      GroupEmpty(points, windows);
      assert |buckets| == |multiset(buckets)| == 0;
    }
  }

  // ---- Lemmas the method proofs use ----

  lemma {:induction false} TotalCountSnoc(s: seq<AggregateBucket>, x: AggregateBucket)
    ensures TotalCount(s + [x]) == TotalCount(s) + x.count
  {
    if s != [] {
      assert (s + [x])[1..] == s[1..] + [x];
      TotalCountSnoc(s[1..], x);
    }
  }

  lemma BucketsForSnoc(keys: seq<GroupKey>, m: map<GroupKey, seq<real>>, n: nat)
    requires n < |keys| && forall k :: k in keys ==> k in m && m[k] != []
    ensures BucketsFor(keys[..n + 1], m) == BucketsFor(keys[..n], m) + [MakeBucket(keys[n], m[keys[n]])]
  {
    assert keys[..n + 1][..n] == keys[..n];
  }

  lemma LexChain(x: string, y: string, z: string)
    requires x != y ==> LexLe(x, y)
    requires y != z ==> LexLe(y, z)
    ensures x != z ==> LexLe(x, z)
    ensures x == z ==> x == y
  {
    if x != y && y != z {
      LexLeTransitive(x, y, z);
    }
    if x == z && x != y {
      LexLeAntisymmetric(x, y);
    }
  }

  lemma KeyLeTotal(a: AggregateBucket, b: AggregateBucket)
    ensures KeyLe(a, b) || KeyLe(b, a)
  {
    LexLeTotal(a.machineId, b.machineId);
    LexLeTotal(a.metric, b.metric);
    LexLeTotal(WindowName(a.window), WindowName(b.window));
  }

  lemma KeyLeTransitive(a: AggregateBucket, b: AggregateBucket, c: AggregateBucket)
    requires KeyLe(a, b) && KeyLe(b, c)
    ensures KeyLe(a, c)
  {
    LexChain(a.machineId, b.machineId, c.machineId);
    if a.machineId == c.machineId {
      LexChain(a.metric, b.metric, c.metric);
      if a.metric == c.metric {
        LexChain(WindowName(a.window), WindowName(b.window), WindowName(c.window));
      }
    }
  }

  lemma {:induction false} InsertSorted(x: AggregateBucket, s: seq<AggregateBucket>)
    requires Sorted(s)
    ensures Sorted(Insert(x, s))
  {
    if s == [] || KeyLe(x, s[0]) {
      forall j | 0 <= j < |s| ensures KeyLe(x, s[j]) {
        KeyLeTransitive(x, s[0], s[j]);
      }
    } else {
      KeyLeTotal(x, s[0]);
      InsertSorted(x, s[1..]);
      InsertBelow(s[0], x, s[1..]);
    }
  }

  /** Every element of `s` is at or after `y` in key order. */
  predicate AllFrom(y: AggregateBucket, s: seq<AggregateBucket>) {
    forall j :: 0 <= j < |s| ==> KeyLe(y, s[j])
  }

  lemma {:induction false} InsertBelow(y: AggregateBucket, x: AggregateBucket, s: seq<AggregateBucket>)
    requires KeyLe(y, x) && AllFrom(y, s)
    ensures AllFrom(y, Insert(x, s))
  {
    if s != [] && !KeyLe(x, s[0]) {
      assert AllFrom(y, s[1..]) by {
        forall j | 0 <= j < |s[1..]| ensures KeyLe(y, s[1..][j]) {
          assert s[1..][j] == s[j + 1];
        }
      }
      InsertBelow(y, x, s[1..]);
      var t := Insert(x, s[1..]);
      forall j | 0 <= j < |[s[0]] + t| ensures KeyLe(y, ([s[0]] + t)[j]) {
        if j > 0 {
          assert ([s[0]] + t)[j] == t[j - 1];
        }
      }
    }
  }

  /** Every bucket of a permutation of the built summaries has the summary properties. */
  lemma PermutedStats(g: Groups, built: seq<AggregateBucket>, buckets: seq<AggregateBucket>)
    requires g.Valid() && NonEmptyGroups(g)
    requires built == BucketsFor(g.keys, g.m) && multiset(buckets) == multiset(built)
    ensures forall b :: b in buckets ==> b.count >= 1 && b.minValue <= b.avgValue <= b.maxValue
  {
    forall b | b in buckets
      ensures b.count >= 1 && b.minValue <= b.avgValue <= b.maxValue
    {
      assert b in multiset(built);
      var i :| 0 <= i < |built| && built[i] == b;
      BucketStats(g.keys[i], g.m[g.keys[i]]);
    }
  }

  lemma BucketStats(k: GroupKey, vs: seq<real>)
    requires vs != []
    ensures var b := MakeBucket(k, vs);
      b.count >= 1 && b.minValue <= b.avgValue <= b.maxValue
  {
    SumBetween(vs, Min(vs), Max(vs));
    MeanBetween(Sum(vs), |vs|, Min(vs), Max(vs));
  }

  /** `c` added to itself `n` times. */
  function Repeat(n: nat, c: real): real {
    if n == 0 then 0.0 else c + Repeat(n - 1, c)
  }

  lemma {:induction false} RepeatIsProduct(n: nat, c: real)
    ensures Repeat(n, c) == n as real * c
  {
    if n > 0 {
      RepeatIsProduct(n - 1, c);
      assert n as real * c == c + (n - 1) as real * c;
    }
  }

  lemma {:induction false} SumBetween(vs: seq<real>, lo: real, hi: real)
    requires forall i :: 0 <= i < |vs| ==> lo <= vs[i] <= hi
    ensures Repeat(|vs|, lo) <= Sum(vs) <= Repeat(|vs|, hi)
  {
    if vs != [] {
      SumBetween(vs[1..], lo, hi);
    }
  }

  /** A total between `n` copies of a lower and of an upper bound has its mean between
      them. */
  lemma MeanBetween(total: real, n: nat, lo: real, hi: real)
    requires n > 0 && Repeat(n, lo) <= total <= Repeat(n, hi)
    ensures lo <= total / n as real <= hi
  {
    RepeatIsProduct(n, lo);
    RepeatIsProduct(n, hi);
    var k := n as real;
    var avg := total / k;
    assert k * avg == total;
    if avg < lo {
      MulStrict(k, avg, lo);
    }
    if hi < avg {
      MulStrict(k, hi, avg);
    }
  }

  /** The number of values in the groups named by `keys`. */
  function SumLen(keys: seq<GroupKey>, m: map<GroupKey, seq<real>>): int
    requires forall k :: k in keys ==> k in m
  {
    if keys == [] then 0 else SumLen(keys[..|keys| - 1], m) + |m[keys[|keys| - 1]]|
  }

  lemma {:induction false} SumLenUpdate(keys: seq<GroupKey>, m: map<GroupKey, seq<real>>,
                                        k: GroupKey, vs: seq<real>)
    requires Distinct(keys) && forall x :: x in keys ==> x in m
    ensures SumLen(keys, m[k := vs])
         == SumLen(keys, m) + if k in keys then |vs| - |m[k]| else 0
  {
    if keys != [] {
      var p := keys[..|keys| - 1];
      assert Distinct(p);
      assert forall x :: x in p ==> x in keys;
      SumLenUpdate(p, m, k, vs);
      if keys[|keys| - 1] == k {
        assert k !in p;
      }
      assert keys == p + [keys[|keys| - 1]];
    }
  }

  lemma AddToTotal(g: Groups, k: GroupKey, v: real)
    requires g.Valid()
    ensures SumLen(AddTo(g, k, v).keys, AddTo(g, k, v).m) == SumLen(g.keys, g.m) + 1
  {
    var vs := g.GetOr(k, []) + [v];
    SumLenUpdate(g.keys, g.m, k, vs);
    if k !in g.m {
      var ks := g.keys + [k];
      assert ks[..|ks| - 1] == g.keys;
    }
  }

  lemma {:induction false} AddPointTotal(g: Groups, p: MetricPoint, ws: seq<Window>)
    requires g.Valid()
    ensures SumLen(AddPoint(g, p, ws).keys, AddPoint(g, p, ws).m) == SumLen(g.keys, g.m) + |ws|
  {
    if ws != [] {
      AddPointTotal(g, p, ws[..|ws| - 1]);
      AddToTotal(AddPoint(g, p, ws[..|ws| - 1]), KeyOf(p, ws[|ws| - 1]), p.value);
    }
  }

  lemma {:induction false} GroupTotal(ps: seq<MetricPoint>, ws: seq<Window>)
    ensures SumLen(Group(ps, ws).keys, Group(ps, ws).m) == |ps| * |ws|
  {
    if ps != [] {
      GroupTotal(ps[..|ps| - 1], ws);
      AddPointTotal(Group(ps[..|ps| - 1], ws), ps[|ps| - 1], ws);
      assert (|ps| - 1) * |ws| + |ws| == |ps| * |ws|;
    }
  }

  lemma {:induction false} BucketsTotal(keys: seq<GroupKey>, m: map<GroupKey, seq<real>>)
    requires forall k :: k in keys ==> k in m && m[k] != []
    ensures TotalCount(BucketsFor(keys, m)) == SumLen(keys, m)
  {
    if keys != [] {
      var p := keys[..|keys| - 1];
      assert forall k :: k in p ==> k in keys;
      BucketsTotal(p, m);
      TotalCountSnoc(BucketsFor(p, m), MakeBucket(keys[|keys| - 1], m[keys[|keys| - 1]]));
    }
  }

  lemma {:induction false} GroupEmpty(ps: seq<MetricPoint>, ws: seq<Window>)
    requires ps == [] || ws == []
    ensures Group(ps, ws).keys == []
  {
    if ps != [] {
      GroupEmpty(ps[..|ps| - 1], ws);
    }
  }
}

module AggregatorProperties {
  import opened Numbers
  import opened Strings
  import opened OrderedDicts
  import opened Aggregator

  /** Window lengths in seconds. */
  lemma WindowLengths()
    ensures WindowSeconds(Min1) == 60 && WindowSeconds(Min5) == 300
    ensures WindowSeconds(Hour1) == 3600
  {
  }

  /** A bucket starts on a multiple of its window and holds the whole second it was computed
      from. */
  lemma BucketStartProperties(timestamp: real, w: Window)
    ensures var b := BucketStart(timestamp, w);
      && b == WindowSeconds(w) * (Trunc(timestamp) / WindowSeconds(w))
      && b <= Trunc(timestamp) < b + WindowSeconds(w)
  {
  }

  /** The windows sort by name, not by length: "1hour" before "1min" before "5min". */
  lemma WindowNameOrder()
    ensures LexLe(WindowName(Hour1), WindowName(Min1))
    ensures LexLe(WindowName(Min1), WindowName(Min5))
    ensures !LexLe(WindowName(Min1), WindowName(Hour1))
  {
    assert WindowName(Hour1) == "1hour" && WindowName(Min1) == "1min";
    assert "1hour"[1..] == "hour" && "1min"[1..] == "min";
    assert "hour"[0] == 'h' && "min"[0] == 'm';
  }

  /** The grouping of two points 45 seconds apart within one minute, under the 1-minute
      window. */
  lemma ExampleGroups(machineId: string, metric: string)
    ensures var ps := [MetricPoint(machineId, metric, 1770199205.0, 40.0),
                       MetricPoint(machineId, metric, 1770199250.0, 50.0)];
      var k := GroupKey(machineId, metric, Min1, 1770199200);
      var g := Group(ps, [Min1]);
      g.keys == [k] && k in g.m && g.m[k] == [40.0, 50.0]
  {
    var p1 := MetricPoint(machineId, metric, 1770199205.0, 40.0);
    var p2 := MetricPoint(machineId, metric, 1770199250.0, 50.0);
    var ps := [p1, p2];
    var k := GroupKey(machineId, metric, Min1, 1770199200);
    assert BucketStart(1770199205.0, Min1) == 1770199200;
    assert BucketStart(1770199250.0, Min1) == 1770199200;
    assert ps[..1] == [p1] && [p1][..0] == [] && [Min1][..0] == [];
    assert Group([], [Min1]) == Empty();
    var g1 := Group([p1], [Min1]);
    assert g1 == AddPoint(Empty(), p1, [Min1]);
    assert KeyOf(p1, Min1) == k;
    assert AddPoint(Empty(), p1, [Min1]) == AddTo(AddPoint(Empty(), p1, []), k, 40.0);
    assert g1 == AddTo(Empty(), k, 40.0);
    assert g1.keys == [k] && g1.m[k] == [40.0];
    assert ps[1] == p2 && KeyOf(p2, Min1) == k;
    assert AddPoint(g1, p2, [Min1]) == AddTo(AddPoint(g1, p2, []), k, 50.0);
    assert Group(ps, [Min1]) == AddPoint(g1, p2, [Min1]);
  }

  /** Points at 10:00:05 (40) and 10:00:50 (50) with the 1-minute window give one bucket:
      count 2, minimum 40, maximum 50, mean 45. */
  method RollupExample(machineId: string, metric: string) returns (buckets: seq<AggregateBucket>)
    ensures |buckets| == 1
    ensures buckets[0].count == 2 && buckets[0].minValue == 40.0
    ensures buckets[0].maxValue == 50.0 && buckets[0].avgValue == 45.0
  {
    var ps := [MetricPoint(machineId, metric, 1770199205.0, 40.0),
               MetricPoint(machineId, metric, 1770199250.0, 50.0)];
    buckets := Aggregate(ps, [Min1]);
    ExampleGroups(machineId, metric);
    var k := GroupKey(machineId, metric, Min1, 1770199200);
    var vs := [40.0, 50.0];
    var g := Group(ps, [Min1]);
    var b := MakeBucket(k, vs);
    assert BucketsFor(g.keys, g.m) == [b];
    assert multiset(buckets) == multiset{b};
    assert |buckets| == 1;
    assert buckets[0] in multiset(buckets);
    assert Sum(vs) == 90.0;
    assert Min(vs) == 40.0 && Max(vs) == 50.0;
  }
}

=== FILE: bounded_deque.dfy ===
/** `collections.deque(maxlen=n)` as used for per-key histories: appending to a full deque
    drops the oldest element. */
module BoundedDeques {
  import opened Wrappers

  datatype BoundedDeque<T> = BoundedDeque(items: seq<T>, maxlen: nat)
  {
    predicate Valid() {
      |items| <= maxlen
    }

    /** `q.append(x)`: `x` goes to the right; if that overflows, elements leave on the left
        until `maxlen` remain. */
    function Append(x: T): (q: BoundedDeque<T>)
      ensures q.Valid() && q.maxlen == maxlen
      ensures q.items == LastN(items + [x], maxlen)
      ensures maxlen > 0 ==> q.items != [] && q.items[|q.items| - 1] == x
      ensures maxlen == 0 ==> q.items == []
    {
      var s := items + [x];
      if |s| <= maxlen then BoundedDeque(s, maxlen) else BoundedDeque(s[|s| - maxlen..], maxlen)
    }
  }

  /** A new empty deque; a negative `maxlen` is refused. */
  function NewDeque<T>(maxlen: int): (r: Option<BoundedDeque<T>>)
    ensures r.Some? <==> maxlen >= 0
    ensures r.Some? ==> r.value.Valid() && r.value.items == [] && r.value.maxlen == maxlen
  {
    if maxlen < 0 then None else Some(BoundedDeque([], maxlen))
  }

  /** The last `n` elements of `s`, or all of them if there are fewer. */
  function LastN<T>(s: seq<T>, n: nat): (r: seq<T>)
    ensures |r| == if |s| < n then |s| else n
    ensures r == s[|s| - |r|..]
  {
    if |s| <= n then s else s[|s| - n..]
  }

  /** Appending the elements of `xs` one by one keeps exactly the newest `maxlen` of all the
      elements seen, oldest first. */
  function AppendAll<T>(q: BoundedDeque<T>, xs: seq<T>): (r: BoundedDeque<T>)
    ensures r.maxlen == q.maxlen
    ensures q.Valid() || xs != [] ==> r.Valid()
    decreases |xs|
  {
    if xs == [] then q else AppendAll(q.Append(xs[0]), xs[1..])
  }

  lemma {:induction false} AppendAllKeepsNewest<T>(q: BoundedDeque<T>, xs: seq<T>)
    requires q.Valid()
    ensures AppendAll(q, xs).items == LastN(q.items + xs, q.maxlen)
    decreases |xs|
  {
    if xs == [] {
      assert q.items + xs == q.items;
    } else {
      var q1 := q.Append(xs[0]);
      AppendAllKeepsNewest(q1, xs[1..]);
      LastNAppend(q.items + [xs[0]], xs[1..], q.maxlen);
      assert q.items + [xs[0]] + xs[1..] == q.items + xs;
    }
  }

  /** Trimming to `n` before appending more and trimming again is the same as trimming once. */
  lemma LastNAppend<T>(s: seq<T>, t: seq<T>, n: nat)
    ensures LastN(LastN(s, n) + t, n) == LastN(s + t, n)
  {
    var a := LastN(LastN(s, n) + t, n);
    var b := LastN(s + t, n);
    assert |a| == |b|;
    forall i | 0 <= i < |a| ensures a[i] == b[i] {
      var k := |b| - i;
      if k <= |t| {
        assert a[i] == t[|t| - k];
        assert b[i] == t[|t| - k];
      } else {
        assert a[i] == LastN(s, n)[|LastN(s, n)| - (k - |t|)];
        assert b[i] == s[|s| - (k - |t|)];
      }
    }
  }
}

=== FILE: cnc_machine.dfy ===
/** The simulated CNC machine: run and pause flags, a last-cycle timestamp, tool wear and
    runtime counters integrated over elapsed time, and the telemetry snapshot one cycle
    produces. The monotonic clock, the wall clock and the random draws are parameters. */
module CncMachine {
  import opened Wrappers
  import opened Numbers
  import opened SpindlePhysics
  import opened TelemetryModels

  /** The simulator configuration values the machine reads. */
  datatype SimulatorConfig = SimulatorConfig(machineId: string, cycleTimeS: real)

  const DefaultConfig := SimulatorConfig("CNC-001", 0.1)

  /** Tool wear grows by this many percent per minute of elapsed time. */
  const WearRatePerMin: real := 0.05

  /** The values one snapshot draws from `random.uniform`, one per call site. A draw the
      snapshot does not use (the speed of a stopped spindle, say) is simply ignored. */
  datatype Draws = Draws(
    rpm: real,
    loadPercent: real,
    feed: real,
    xPositionMm: real,
    yPositionMm: real,
    zPositionMm: real,
    spindleTemperatureC: real,
    coolantTemperatureC: real)
  {
    /** Each draw lies in the interval its call site asks for. */
    predicate InRange() {
      && 3000.0 <= rpm <= 18000.0
      && 20.0 <= loadPercent <= 80.0
      && 500.0 <= feed <= 8000.0
      && 0.0 <= xPositionMm <= 250.0
      && 0.0 <= yPositionMm <= 250.0
      && -100.0 <= zPositionMm <= 0.0
      && 25.0 <= spindleTemperatureC <= 60.0
      && 20.0 <= coolantTemperatureC <= 30.0
    }
  }

  /** The time since the last cycle: 0 the first time, when no timestamp is recorded. */
  function Elapsed(lastCycleTs: Option<real>, now: real): (deltaS: real)
    ensures lastCycleTs.None? ==> deltaS == 0.0
    ensures lastCycleTs.Some? ==> lastCycleTs.value + deltaS == now
  {
    if lastCycleTs.None? then 0.0 else now - lastCycleTs.value
  }

  /** Runtime after `deltaS` seconds: unchanged for a non-positive delta. */
  function AdvancedRuntime(runtimeMinutes: real, deltaS: real): real {
    if deltaS <= 0.0 then runtimeMinutes else runtimeMinutes + deltaS / 60.0
  }

  /** Wear after `deltaS` seconds, capped at 100: unchanged for a non-positive delta. */
  function AdvancedWear(wearPercent: real, deltaS: real): (w: real)
    ensures deltaS <= 0.0 ==> w == wearPercent
    ensures wearPercent <= 100.0 ==> wearPercent <= w <= 100.0
    ensures deltaS > 0.0 && wearPercent < 100.0 ==> wearPercent < w
  {
    if deltaS <= 0.0 then wearPercent
    else
      var w := wearPercent + WearRatePerMin * (deltaS / 60.0);
      if 100.0 < w then 100.0 else w
  }

  /** The snapshot built from the machine's flags and counters after the state update.
      Every field that depends on the spindle speed tests the one speed value `rpm`. */
  function Snapshot(machineId: string, config: SimulatorConfig, sp: Spindle,
                    running: bool, paused: bool, wearPercent: real, runtimeMinutes: real,
                    draws: Draws, timestamp: real, exp: real -> real): (t: Telemetry)
    ensures t.timestamp == timestamp && t.machineId == machineId
    ensures t.tool.wearPercent == wearPercent && t.tool.runtimeMinutes == runtimeMinutes
    ensures t.power.totalKw == t.power.spindleKw + t.power.servoKw
    ensures !running || paused ==> t.spindle.rpm == 0.0 && t.spindle.loadPercent == 0.0
  {
    var rpm := if !running || paused then 0.0 else draws.rpm;
    var loadPercent := if rpm == 0.0 then 0.0 else draws.loadPercent;
    var torqueNm := 6.0 + 0.0005 * rpm;
    var spindleKw := PowerKw(rpm, torqueNm);
    var feed := if rpm == 0.0 then 0.0 else draws.feed;
    var servoKw := 0.5 + 0.0002 * feed;
    Telemetry(
      timestamp,
      machineId,
      SpindleTelemetry(rpm, loadPercent, draws.spindleTemperatureC,
                       VibrationMmS(sp, wearPercent, exp)),
      AxesTelemetry(
        AxisState(draws.xPositionMm, feed),
        AxisState(draws.yPositionMm, feed),
        AxisState(draws.zPositionMm, feed / 2.0)),
      ToolTelemetry("T01", EndMill, 10.0, wearPercent, runtimeMinutes),
      CoolantTelemetry(if rpm > 0.0 then 12.0 else 0.0, draws.coolantTemperatureC,
                       if rpm > 0.0 then 4.0 else 0.0),
      PowerTelemetry(spindleKw + servoKw, spindleKw, servoKw),
      StatusTelemetry(Auto, "O1234", "N0100", Trunc(config.cycleTimeS * 1000.0)))
  }

  class CNCMachine {
    const machineId: string
    const config: SimulatorConfig
    const spindle: Spindle
    var running: bool
    var paused: bool
    var lastCycleTs: Option<real>
    var toolWearPercent: real
    var toolRuntimeMinutes: real

    /** Wear is a percentage and runtime is never negative. */
    ghost predicate Valid()
      reads this
    {
      0.0 <= toolWearPercent <= 100.0 && toolRuntimeMinutes >= 0.0
    }

    /** A stopped machine with fresh counters; the machine id falls back to the
        configuration's. */
    constructor (machineId: Option<string>, config: SimulatorConfig, spindle: Spindle)
      ensures Valid()
      ensures this.machineId == machineId.GetOr(config.machineId)
      ensures this.config == config && this.spindle == spindle
      ensures !running && !paused && lastCycleTs == None
      ensures toolWearPercent == 0.0 && toolRuntimeMinutes == 0.0
    {
      this.machineId := machineId.GetOr(config.machineId);
      this.config := config;
      this.spindle := spindle;
      running := false;
      paused := false;
      lastCycleTs := None;
      toolWearPercent := 0.0;
      toolRuntimeMinutes := 0.0;
    }

    /** Running, not paused, with the cycle clock restarted at `now`. */
    method Start(now: real)
      modifies this
      ensures running && !paused && lastCycleTs == Some(now)
      ensures toolWearPercent == old(toolWearPercent)
      ensures toolRuntimeMinutes == old(toolRuntimeMinutes)
    {
      running := true;
      paused := false;
      lastCycleTs := Some(now);
    }

    /** Neither running nor paused; the timestamp and counters stay. */
    method Stop()
      modifies this
      ensures !running && !paused
      ensures lastCycleTs == old(lastCycleTs)
      ensures toolWearPercent == old(toolWearPercent)
      ensures toolRuntimeMinutes == old(toolRuntimeMinutes)
    {
      running := false;
      paused := false;
    }

    /** Paused, whether or not the machine is running. */
    method Pause()
      modifies this
      ensures paused && running == old(running)
      ensures lastCycleTs == old(lastCycleTs)
      ensures toolWearPercent == old(toolWearPercent)
      ensures toolRuntimeMinutes == old(toolRuntimeMinutes)
    {
      paused := true;
    }

    /** Unpaused if running; a stopped machine is left exactly as it was. */
    method Resume()
      modifies this
      ensures paused == (old(paused) && !old(running))
      ensures running == old(running)
      ensures lastCycleTs == old(lastCycleTs)
      ensures toolWearPercent == old(toolWearPercent)
      ensures toolRuntimeMinutes == old(toolRuntimeMinutes)
    {
      if running {
        paused := false;
      }
    }

    /** Integrates `deltaS` seconds of cutting into the wear and runtime counters. */
    method AdvanceState(deltaS: real)
      requires Valid()
      modifies this
      ensures Valid()
      ensures toolRuntimeMinutes == AdvancedRuntime(old(toolRuntimeMinutes), deltaS)
      ensures toolWearPercent == AdvancedWear(old(toolWearPercent), deltaS)
      ensures running == old(running) && paused == old(paused)
      ensures lastCycleTs == old(lastCycleTs)
    {
      if deltaS <= 0.0 {
        return;
      }
      toolRuntimeMinutes := toolRuntimeMinutes + deltaS / 60.0;
      var w := toolWearPercent + WearRatePerMin * (deltaS / 60.0);
      toolWearPercent := if 100.0 < w then 100.0 else w;
    }

    /** The seconds since the last cycle, recording `now` as the new last cycle. */
    method ElapsedSinceLastCycle(now: real) returns (deltaS: real)
      modifies this
      ensures deltaS == Elapsed(old(lastCycleTs), now)
      ensures lastCycleTs == Some(now)
      ensures running == old(running) && paused == old(paused)
      ensures toolWearPercent == old(toolWearPercent)
      ensures toolRuntimeMinutes == old(toolRuntimeMinutes)
    {
      if lastCycleTs.None? {
        lastCycleTs := Some(now);
        return 0.0;
      }
      deltaS := now - lastCycleTs.value;
      lastCycleTs := Some(now);
    }

    /** One snapshot: a running machine (paused or not) reads the clock and advances its
        counters, a stopped one does neither; the snapshot then reports the new counters. */
    method GenerateTelemetry(now: real, timestamp: real, draws: Draws, exp: real -> real)
      returns (t: Telemetry)
      requires Valid()
      modifies this
      ensures Valid()
      ensures running == old(running) && paused == old(paused)
      ensures lastCycleTs == if old(running) then Some(now) else old(lastCycleTs)
      ensures var deltaS := if old(running) then Elapsed(old(lastCycleTs), now) else 0.0;
        && toolWearPercent == AdvancedWear(old(toolWearPercent), deltaS)
        && toolRuntimeMinutes == AdvancedRuntime(old(toolRuntimeMinutes), deltaS)
      ensures t == Snapshot(machineId, config, spindle, running, paused,
                            toolWearPercent, toolRuntimeMinutes, draws, timestamp, exp)
    {
      var deltaS := 0.0;
      if running {
        deltaS := ElapsedSinceLastCycle(now);
      }
      AdvanceState(deltaS);
      t := Snapshot(machineId, config, spindle, running, paused,
                    toolWearPercent, toolRuntimeMinutes, draws, timestamp, exp);
    }

    /** One pass of the run loop's body, which runs only while the machine is running: a
        snapshot unless paused. The loop itself, with its sleep between passes, is not
        modelled. */
    method RunCycle(now: real, timestamp: real, draws: Draws, exp: real -> real)
      returns (t: Option<Telemetry>)
      requires Valid() && running
      modifies this
      ensures Valid()
      ensures running == old(running) && paused == old(paused)
      ensures old(paused) ==> t == None && lastCycleTs == old(lastCycleTs)
      ensures old(paused) ==> toolWearPercent == old(toolWearPercent)
      ensures old(paused) ==> toolRuntimeMinutes == old(toolRuntimeMinutes)
      ensures !old(paused) ==> lastCycleTs == Some(now)
      ensures !old(paused) ==> toolWearPercent == AdvancedWear(old(toolWearPercent), Elapsed(old(lastCycleTs), now))
      ensures !old(paused) ==> toolRuntimeMinutes == AdvancedRuntime(old(toolRuntimeMinutes), Elapsed(old(lastCycleTs), now))
      ensures !old(paused) ==> t == Some(Snapshot(machineId, config, spindle, running, paused,
                                  toolWearPercent, toolRuntimeMinutes, draws, timestamp, exp))
    {
      if paused {
        return None;
      }
      var s := GenerateTelemetry(now, timestamp, draws, exp);
      t := Some(s);
    }
  }
}

module CncMachineProperties {
  import opened Wrappers
  import opened Numbers
  import opened SpindlePhysics
  import opened SpindleProperties
  import opened TelemetryModels
  import opened CncMachine

  /** Neither counter ever decreases, wear stays a percentage, and a non-positive delta
      changes nothing. */
  lemma AdvanceMonotone(wearPercent: real, runtimeMinutes: real, deltaS: real)
    requires 0.0 <= wearPercent <= 100.0
    ensures wearPercent <= AdvancedWear(wearPercent, deltaS) <= 100.0
    ensures runtimeMinutes <= AdvancedRuntime(runtimeMinutes, deltaS)
    ensures deltaS <= 0.0 ==> AdvancedWear(wearPercent, deltaS) == wearPercent
    ensures deltaS <= 0.0 ==> AdvancedRuntime(runtimeMinutes, deltaS) == runtimeMinutes
    ensures deltaS > 0.0 ==> AdvancedRuntime(runtimeMinutes, deltaS) == runtimeMinutes + deltaS / 60.0
  {
  }

  /** Positive elapsed time strictly raises wear that is below the cap: two 120-second
      cycles from a new tool give 0.1 % and then 0.2 %. */
  lemma WearIncreases(wearPercent: real, deltaS: real)
    requires 0.0 <= wearPercent < 100.0 && deltaS > 0.0
    ensures AdvancedWear(wearPercent, deltaS) > wearPercent
    ensures AdvancedWear(0.0, 120.0) == 0.1 && AdvancedWear(0.1, 120.0) == 0.2
  {
  }

  /** A stopped machine reports zero speed, load, feed, coolant flow, pressure and spindle
      power, and only the servo's idle 0.5 kW. */
  lemma StoppedSnapshot(machineId: string, config: SimulatorConfig, sp: Spindle,
                        running: bool, paused: bool, wear: real, runtime: real,
                        draws: Draws, timestamp: real, exp: real -> real)
    requires !running || paused
    ensures var t := Snapshot(machineId, config, sp, running, paused, wear, runtime,
                              draws, timestamp, exp);
      && t.spindle.rpm == 0.0 && t.spindle.loadPercent == 0.0
      && t.axes.x.velocityMmMin == 0.0 && t.axes.z.velocityMmMin == 0.0
      && t.coolant.flowRateLpm == 0.0 && t.coolant.pressureBar == 0.0
      && t.power.spindleKw == 0.0 && t.power.servoKw == 0.5 && t.power.totalKw == 0.5
  {
    PowerBilinear(0.0, 6.0, 1.0);
  }

  /** A running, unpaused machine draws its speed from [3000, 18000] and then reports coolant
      at 12 l/min and 4 bar, a drawn load and feed, and at least 0.5 kW of servo power. */
  lemma CuttingSnapshot(machineId: string, config: SimulatorConfig, sp: Spindle,
                        wear: real, runtime: real, draws: Draws, timestamp: real,
                        exp: real -> real)
    requires draws.InRange()
    ensures var t := Snapshot(machineId, config, sp, true, false, wear, runtime,
                              draws, timestamp, exp);
      && 3000.0 <= t.spindle.rpm <= 18000.0
      && t.spindle.loadPercent == draws.loadPercent
      && t.axes.x.velocityMmMin == draws.feed
      && t.coolant.flowRateLpm == 12.0 && t.coolant.pressureBar == 4.0
      && t.power.servoKw >= 0.5 && t.power.spindleKw > 0.0
  {
    var rpm := draws.rpm;
    assert 2.0 * Pi * rpm * (6.0 + 0.0005 * rpm) > 0.0 by {
      MulPositive(2.0 * Pi, rpm);
      MulPositive(2.0 * Pi * rpm, 6.0 + 0.0005 * rpm);
    }
  }

  /** The snapshot's power readings: the total is exactly spindle plus servo, the servo power
      is at least its 0.5 kW idle draw, and the spindle power is never negative. */
  lemma SnapshotPower(machineId: string, config: SimulatorConfig, sp: Spindle,
                      running: bool, paused: bool, wear: real, runtime: real,
                      draws: Draws, timestamp: real, exp: real -> real)
    requires draws.InRange()
    ensures var p := Snapshot(machineId, config, sp, running, paused, wear, runtime,
                              draws, timestamp, exp).power;
      p.totalKw == p.spindleKw + p.servoKw && p.servoKw >= 0.5 && p.spindleKw >= 0.0
  {
    if !running || paused {
      StoppedSnapshot(machineId, config, sp, running, paused, wear, runtime, draws, timestamp, exp);
    } else {
      CuttingSnapshot(machineId, config, sp, wear, runtime, draws, timestamp, exp);
    }
  }

  /** The snapshot always passes its own schema's validation, given in-range draws, counters
      that satisfy the machine invariant, a non-negative cycle time and a base vibration of
      at most 10 mm/s. It also reports the counters and the machine id it was given. */
  lemma SnapshotValid(machineId: string, config: SimulatorConfig, sp: Spindle,
                      running: bool, paused: bool, wear: real, runtime: real,
                      draws: Draws, timestamp: real, exp: real -> real)
    requires draws.InRange() && ExpLaws(exp)
    requires 0.0 <= wear <= 100.0 && runtime >= 0.0
    requires config.cycleTimeS >= 0.0 && 0.0 <= sp.baseVibrationMmS <= 10.0
    ensures var t := Snapshot(machineId, config, sp, running, paused, wear, runtime,
                              draws, timestamp, exp);
      && t.Valid()
      && t.machineId == machineId
      && t.tool.wearPercent == wear && t.tool.runtimeMinutes == runtime
  {
    VibrationRange(sp, wear, exp);
    SnapshotPower(machineId, config, sp, running, paused, wear, runtime, draws, timestamp, exp);
  }
}

=== FILE: detector.dfy ===
/** The anomaly detector: fixed threshold rules over one telemetry snapshot, a z-score test
    over a bounded per-metric history, and the readiness gates around the isolation-forest
    model (whose fitting and predictions are parameters here). */
module Detector {
  import opened Wrappers
  import opened OrderedDicts
  import opened BoundedDeques

  datatype DetectorConfig = DetectorConfig(
    windowSize: int,
    zscoreThreshold: real,
    ruleTempHighC: real,
    ruleToolWearHigh: real,
    ruleVibrationHigh: real,
    ruleCoolantLow: real,
    ruleMinRpmRunning: real)

  const DefaultConfig := DetectorConfig(30, 3.0, 70.0, 80.0, 5.0, 2.0, 500.0)

  datatype Severity = Low | Medium | High

  datatype DetectorKind = Rule | ZScore | IsolationForest

  datatype Anomaly = Anomaly(
    machineId: string,
    metric: string,
    value: real,
    severity: Severity,
    detector: DetectorKind,
    reason: string)

  /** The readings the rules look at; `None` is a field absent from the snapshot (or a whole
      absent section). */
  datatype Snapshot = Snapshot(
    machineId: Option<string>,
    spindleTemperatureC: Option<real>,
    spindleRpm: Option<real>,
    spindleVibrationMmS: Option<real>,
    toolWearPercent: Option<real>,
    coolantFlowRateLpm: Option<real>)

  const TempMetric: string := "spindle.temperature_c"
  const WearMetric: string := "tool.wear_percent"
  const VibrationMetric: string := "spindle.vibration_mm_s"
  const CoolantMetric: string := "coolant.flow_rate_lpm"

  /** `d.get(key, 0)`. */
  function Reading(r: Option<real>): real {
    r.GetOr(0.0)
  }

  /** One rule: its anomaly if `fires`, otherwise nothing. */
  function RuleHit(fires: bool, machineId: string, metric: string, value: real,
                   severity: Severity, reason: string): (r: seq<Anomaly>)
    ensures |r| <= 1 && (r != [] <==> fires)
    ensures r != [] ==> r[0] == Anomaly(machineId, metric, value, severity, Rule, reason)
  {
    if fires then [Anomaly(machineId, metric, value, severity, Rule, reason)] else []
  }

  predicate TempFires(cfg: DetectorConfig, t: Snapshot) {
    Reading(t.spindleTemperatureC) > cfg.ruleTempHighC
  }

  predicate WearFires(cfg: DetectorConfig, t: Snapshot) {
    Reading(t.toolWearPercent) > cfg.ruleToolWearHigh
  }

  predicate VibrationFires(cfg: DetectorConfig, t: Snapshot) {
    Reading(t.spindleVibrationMmS) > cfg.ruleVibrationHigh
  }

  /** The spindle turns faster than the running threshold while coolant flow is low. */
  predicate CoolantFires(cfg: DetectorConfig, t: Snapshot) {
    Reading(t.spindleRpm) > cfg.ruleMinRpmRunning && Reading(t.coolantFlowRateLpm) < cfg.ruleCoolantLow
  }

  /** `detect_rule_based`: the four rules in their fixed order. */
  function DetectRuleBased(cfg: DetectorConfig, t: Snapshot): (r: seq<Anomaly>)
    ensures |r| <= 4
    ensures forall i :: 0 <= i < |r| ==>
      r[i].detector == Rule && r[i].machineId == t.machineId.GetOr("unknown")
  {
    var id := t.machineId.GetOr("unknown");
    RuleHit(TempFires(cfg, t), id, TempMetric, Reading(t.spindleTemperatureC), High,
            "Spindle temperature high")
    + RuleHit(WearFires(cfg, t), id, WearMetric, Reading(t.toolWearPercent), Medium,
              "Tool wear high")
    + RuleHit(VibrationFires(cfg, t), id, VibrationMetric, Reading(t.spindleVibrationMmS), High,
              "Vibration high")
    + RuleHit(CoolantFires(cfg, t), id, CoolantMetric, Reading(t.coolantFlowRateLpm), High,
              "Coolant flow low while spindle running")
  }

  // ---- Statistics over a window (population mean and variance, as numpy computes them) ----

  function Sum(xs: seq<real>): real {
    if xs == [] then 0.0 else Sum(xs[..|xs| - 1]) + xs[|xs| - 1]
  }

  /** The sum of squared deviations from `m`. */
  function SquaredDeviations(xs: seq<real>, m: real): (r: real)
    ensures r >= 0.0
  {
    if xs == [] then 0.0
    else
      var d := xs[|xs| - 1] - m;
      SquaredDeviations(xs[..|xs| - 1], m) + d * d
  }

  function Mean(xs: seq<real>): real
    requires xs != []
  {
    Sum(xs) / |xs| as real
  }

  /** `np.var`, the square of `np.std`. */
  function Variance(xs: seq<real>): (v: real)
    requires xs != []
    ensures v >= 0.0
  {
    SquaredDeviations(xs, Mean(xs)) / |xs| as real
  }

  /** The number of samples a window needs before the z-score test runs. */
  function MinSamples(cfg: DetectorConfig): (n: int)
    ensures n >= 5
  {
    if 5 < cfg.windowSize / 2 then cfg.windowSize / 2 else 5
  }

  /** The z-score verdict without square roots. With std = sqrt(var): std <= 1e-6 exactly
      when var <= 1e-12, and |value - mean| / std > threshold exactly when the squared
      deviation exceeds threshold² · var (or the threshold is negative). */
  function ZScoreFlags(cfg: DetectorConfig, window: seq<real>, value: real): (flag: bool)
    ensures flag ==> window != [] && |window| >= MinSamples(cfg) && Variance(window) > 1.0e-12
    ensures flag && cfg.zscoreThreshold >= 0.0 ==>
      (value - Mean(window)) * (value - Mean(window)) > 0.0
  {
    if |window| < MinSamples(cfg) || window == [] then false
    else
      var v := Variance(window);
      if v <= 1.0e-12 then false
      else
        var d := value - Mean(window);
        cfg.zscoreThreshold < 0.0 || d * d > cfg.zscoreThreshold * cfg.zscoreThreshold * v
  }

  /** What `detect_zscore` returns for the window after the push. */
  function ZScoreResult(cfg: DetectorConfig, window: seq<real>, metric: string, value: real,
                        machineId: string): (r: seq<Anomaly>)
    ensures |r| <= 1 && (r != [] <==> ZScoreFlags(cfg, window, value))
    ensures r != [] ==> (r[0].detector == ZScore && r[0].severity == Medium
      && r[0].metric == metric && r[0].value == value && r[0].machineId == machineId)
  {
    if ZScoreFlags(cfg, window, value)
    then [Anomaly(machineId, metric, value, Medium, ZScore, "Z-score exceeds threshold")]
    else []
  }

  /** The indices of the rows the model predicted -1, in row order. */
  function Outliers(preds: seq<int>): (ks: seq<nat>)
    ensures |ks| <= |preds|
    ensures forall i :: 0 <= i < |ks| ==> ks[i] < |preds| && preds[ks[i]] == -1
  {
    if preds == [] then []
    else
      var init := preds[..|preds| - 1];
      Outliers(init) + if preds[|preds| - 1] == -1 then [|preds| - 1] else []
  }

  /** The isolation-forest anomalies for the model's predictions: one per row predicted
      -1, whose value is that row's index. */
  function ForestAnomalies(preds: seq<int>, machineId: string, metricLabel: string): (r: seq<Anomaly>)
    ensures |r| <= |preds|
    ensures forall i :: 0 <= i < |r| ==> r[i].detector == IsolationForest && r[i].severity == Low
  {
    if preds == [] then []
    else
      var rest := ForestAnomalies(preds[..|preds| - 1], machineId, metricLabel);
      if preds[|preds| - 1] == -1
      then rest + [Anomaly(machineId, metricLabel, (|preds| - 1) as real, Low, IsolationForest,
                           "Isolation Forest flagged outlier")]
      else rest
  }

  /** Every window in `h` is a deque bounded by `w`. */
  ghost predicate Windowed(h: ODict<string, BoundedDeque<real>>, w: nat) {
    forall m :: m in h.m ==> h.m[m].Valid() && h.m[m].maxlen == w
  }

  lemma PushKeepsWindows(h: ODict<string, BoundedDeque<real>>, metric: string, value: real, w: nat)
    requires h.Valid() && Windowed(h, w)
    ensures Windowed(h.Put(metric, h.GetOr(metric, BoundedDeque([], w)).Append(value)), w)
  {
    var q := h.GetOr(metric, BoundedDeque([], w));
    assert q.maxlen == w;
    var n := h.Put(metric, q.Append(value));
    assert n.m == h.m[metric := q.Append(value)];
  }

  class Detector {
    const config: DetectorConfig
    var history: ODict<string, BoundedDeque<real>>
    var iforestReady: bool

    /** Every history is a deque bounded by the configured window. */
    ghost predicate Valid()
      reads this
    {
      && config.windowSize >= 0
      && history.Valid()
      && Windowed(history, config.windowSize)
    }

    constructor (config: DetectorConfig)
      requires config.windowSize >= 0
      ensures Valid() && this.config == config
      ensures history == Empty() && !iforestReady
    {
      this.config := config;
      history := Empty();
      iforestReady := false;
    }

    /** Appends `value` to the metric's window, evicting the oldest value when full. */
    method Push(metric: string, value: real)
      requires Valid()
      modifies this
      ensures Valid() && iforestReady == old(iforestReady)
      ensures history == old(history).Put(metric,
        old(history).GetOr(metric, BoundedDeque([], config.windowSize)).Append(value))
    {
      var window := history.GetOr(metric, BoundedDeque([], config.windowSize));
      PushKeepsWindows(history, metric, value, config.windowSize);
      history := history.Put(metric, window.Append(value));
    }

    /** `detect_zscore`: records the value, then tests it against the window. */
    method DetectZScore(metric: string, value: real, machineId: string) returns (r: seq<Anomaly>)
      requires Valid()
      modifies this
      ensures Valid() && iforestReady == old(iforestReady)
      ensures history == old(history).Put(metric,
        old(history).GetOr(metric, BoundedDeque([], config.windowSize)).Append(value))
      ensures metric in history.m
      ensures r == ZScoreResult(config, history.m[metric].items, metric, value, machineId)
    {
      Push(metric, value);
      r := ZScoreResult(config, history.m[metric].items, metric, value, machineId);
    }

    /** Fits the model only on at least ten rows; fewer rows change nothing. */
    method TrainIForest(rows: nat)
      modifies this
      ensures iforestReady == (old(iforestReady) || rows >= 10)
      ensures history == old(history)
    {
      if rows < 10 {
        return;
      }
      iforestReady := true;
    }

    /** No anomalies until the model is trained; then one per row predicted -1. */
    method DetectIForest(preds: seq<int>, machineId: string, metricLabel: string) returns (r: seq<Anomaly>)
      ensures !iforestReady ==> r == []
      ensures iforestReady ==> r == ForestAnomalies(preds, machineId, metricLabel)
    {
      if !iforestReady {
        return [];
      }
      r := [];
      var i := 0;
      while i < |preds|
        invariant 0 <= i <= |preds|
        invariant r == ForestAnomalies(preds[..i], machineId, metricLabel)
      {
        assert preds[..i + 1][..i] == preds[..i];
        if preds[i] == -1 {
          r := r + [Anomaly(machineId, metricLabel, i as real, Low, IsolationForest,
                            "Isolation Forest flagged outlier")];
        }
        i := i + 1;
      }
      assert preds[..i] == preds;
    }
  }
}

module DetectorProperties {
  import opened Wrappers
  import opened Numbers
  import opened OrderedDicts
  import opened BoundedDeques
  import opened Detector

  /** The four rule metrics are different names. */
  lemma RuleMetricsDistinct()
    ensures TempMetric != WearMetric && TempMetric != VibrationMetric && TempMetric != CoolantMetric
    ensures WearMetric != VibrationMetric && WearMetric != CoolantMetric
    ensures VibrationMetric != CoolantMetric
  {
    assert TempMetric[0] == 's' && WearMetric[0] == 't' && CoolantMetric[0] == 'c';
    assert VibrationMetric[0] == 's';
    assert TempMetric[8] == 't' && VibrationMetric[8] == 'v';
  }

  /** The position of a rule in the order the rules run. */
  function RuleRank(metric: string): int {
    if metric == TempMetric then 0
    else if metric == WearMetric then 1
    else if metric == VibrationMetric then 2
    else 3
  }

  predicate Reports(r: seq<Anomaly>, metric: string) {
    exists i :: 0 <= i < |r| && r[i].metric == metric
  }

  /** Where each element of the rule output comes from: the hits sit in rule order, each
      with its own metric, the value it read and its severity. */
  lemma RuleOrigin(cfg: DetectorConfig, t: Snapshot, i: int)
    requires 0 <= i < |DetectRuleBased(cfg, t)|
    ensures var r := DetectRuleBased(cfg, t);
      var nt := if TempFires(cfg, t) then 1 else 0;
      var nw := nt + if WearFires(cfg, t) then 1 else 0;
      var nv := nw + if VibrationFires(cfg, t) then 1 else 0;
      && (i < nt ==> r[i].metric == TempMetric && r[i].value == Reading(t.spindleTemperatureC) && r[i].severity == High)
      && (nt <= i < nw ==> r[i].metric == WearMetric && r[i].value == Reading(t.toolWearPercent) && r[i].severity == Medium)
      && (nw <= i < nv ==> r[i].metric == VibrationMetric && r[i].value == Reading(t.spindleVibrationMmS) && r[i].severity == High)
      && (nv <= i ==> CoolantFires(cfg, t) && r[i].metric == CoolantMetric
                      && r[i].value == Reading(t.coolantFlowRateLpm) && r[i].severity == High)
  {
    var id := t.machineId.GetOr("unknown");
    var a := RuleHit(TempFires(cfg, t), id, TempMetric, Reading(t.spindleTemperatureC), High,
                     "Spindle temperature high");
    var b := RuleHit(WearFires(cfg, t), id, WearMetric, Reading(t.toolWearPercent), Medium,
                     "Tool wear high");
    var c := RuleHit(VibrationFires(cfg, t), id, VibrationMetric, Reading(t.spindleVibrationMmS), High,
                     "Vibration high");
    var d := RuleHit(CoolantFires(cfg, t), id, CoolantMetric, Reading(t.coolantFlowRateLpm), High,
                     "Coolant flow low while spindle running");
    var r := DetectRuleBased(cfg, t);
    assert r == a + b + c + d;
    if i < |a| {
    } else if i < |a| + |b| {
      assert r[i] == b[i - |a|];
    } else if i < |a| + |b| + |c| {
      assert r[i] == c[i - |a| - |b|];
    } else {
      assert r[i] == d[i - |a| - |b| - |c|];
    }
  }

  /** Each rule reports exactly when its strict comparison holds. */
  lemma RuleBasedExact(cfg: DetectorConfig, t: Snapshot)
    ensures var r := DetectRuleBased(cfg, t);
      && (Reports(r, TempMetric) <==> TempFires(cfg, t))
      && (Reports(r, WearMetric) <==> WearFires(cfg, t))
      && (Reports(r, VibrationMetric) <==> VibrationFires(cfg, t))
      && (Reports(r, CoolantMetric) <==> CoolantFires(cfg, t))
  {
    RuleMetricsDistinct();
    var r := DetectRuleBased(cfg, t);
    var nt := if TempFires(cfg, t) then 1 else 0;
    var nw := nt + if WearFires(cfg, t) then 1 else 0;
    var nv := nw + if VibrationFires(cfg, t) then 1 else 0;
    assert |r| == nv + if CoolantFires(cfg, t) then 1 else 0;
    forall i | 0 <= i < |r| {
      RuleOrigin(cfg, t, i);
    }
    if TempFires(cfg, t) { assert r[0].metric == TempMetric; }
    if WearFires(cfg, t) { assert r[nt].metric == WearMetric; }
    if VibrationFires(cfg, t) { assert r[nw].metric == VibrationMetric; }
    if CoolantFires(cfg, t) { assert r[nv].metric == CoolantMetric; }
  }

  /** The reports come in rule order, so there is at most one per rule. */
  lemma RuleBasedOrdered(cfg: DetectorConfig, t: Snapshot)
    ensures var r := DetectRuleBased(cfg, t);
      forall i, j :: 0 <= i < j < |r| ==> RuleRank(r[i].metric) < RuleRank(r[j].metric)
  {
    RuleMetricsDistinct();
    var r := DetectRuleBased(cfg, t);
    forall i | 0 <= i < |r| {
      RuleOrigin(cfg, t, i);
    }
  }

  /** A snapshot with every reading over its threshold reports all four rules, in order. */
  lemma AllRulesFire()
    ensures var r := DetectRuleBased(DefaultConfig,
      Snapshot(Some("CNC-001"), Some(75.0), Some(12000.0), Some(7.0), Some(85.0), Some(1.0)));
      |r| == 4 && r[0].metric == TempMetric && r[1].metric == WearMetric
      && r[2].metric == VibrationMetric && r[3].metric == CoolantMetric
      && r[0].machineId == "CNC-001"
  {
  }

  /** A snapshot with no readings reports nothing: every missing reading is 0, below every
      default threshold, and a stopped spindle cannot trip the coolant rule. */
  lemma EmptySnapshotIsQuiet(machineId: Option<string>)
    ensures DetectRuleBased(DefaultConfig, Snapshot(machineId, None, None, None, None, None)) == []
  {
  }

  /** `n` copies of `c`. */
  function Repeated(n: nat, c: real): (xs: seq<real>)
    ensures |xs| == n && Constant(xs, c)
  {
    seq(n, (i: int) => c)
  }

  predicate Constant(xs: seq<real>, c: real) {
    forall i :: 0 <= i < |xs| ==> xs[i] == c
  }

  lemma {:induction false} SumConstant(xs: seq<real>, c: real)
    requires Constant(xs, c)
    ensures Sum(xs) == |xs| as real * c
  {
    if xs != [] {
      SumConstant(xs[..|xs| - 1], c);
    }
  }

  lemma {:induction false} DeviationsConstant(xs: seq<real>, c: real, m: real)
    requires Constant(xs, c)
    ensures SquaredDeviations(xs, m) == |xs| as real * ((c - m) * (c - m))
  {
    if xs != [] {
      DeviationsConstant(xs[..|xs| - 1], c, m);
    }
  }

  lemma SnocSums(xs: seq<real>, x: real, m: real)
    ensures Sum(xs + [x]) == Sum(xs) + x
    ensures SquaredDeviations(xs + [x], m) == SquaredDeviations(xs, m) + (x - m) * (x - m)
  {
    assert (xs + [x])[..|xs|] == xs;
  }

  /** A window of equal values has zero spread, so it never flags anything, whatever the
      value tested. */
  lemma ConstantWindowNeverFlags(cfg: DetectorConfig, xs: seq<real>, c: real, value: real)
    requires xs != [] && Constant(xs, c)
    ensures !ZScoreFlags(cfg, xs, value)
  {
    SumConstant(xs, c);
    assert Mean(xs) == c;
    DeviationsConstant(xs, c, c);
  }

  function Abs(x: real): real {
    if x < 0.0 then -x else x
  }

  /** For non-negative `a`, positive `s` and non-negative `t`: `a / s > t` exactly when
      `a² > t² · s²`. */
  lemma RatioVersusSquares(a: real, s: real, t: real)
    requires a >= 0.0 && s > 0.0 && t >= 0.0
    ensures a / s > t <==> a * a > t * t * (s * s)
  {
    var q := a / s;
    assert q * s == a;
    if q > t {
      MulStrict(s, t, q);
    } else {
      MulMonotone(q, t, s);
    }
    MulNonNegative(t, s);
    SquareLe(a, t * s);
    assert (t * s) * (t * s) == t * t * (s * s);
  }

  /** The squared test is the source's: with `s` the standard deviation of the window (the
      non-negative root of its variance), a value is flagged exactly when the window is
      warm, `s` exceeds 1e-6, and `|value - mean| / s` exceeds the threshold. */
  lemma ZScoreIsStdTest(cfg: DetectorConfig, w: seq<real>, value: real, s: real)
    requires w != [] && s >= 0.0 && s * s == Variance(w)
    ensures ZScoreFlags(cfg, w, value) <==>
      |w| >= MinSamples(cfg) && s > 0.000001
      && Abs(value - Mean(w)) / s > cfg.zscoreThreshold
  {
    SquareLe(s, 0.000001);
    if |w| >= MinSamples(cfg) && s > 0.000001 {
      var a := Abs(value - Mean(w));
      var t := cfg.zscoreThreshold;
      assert a * a == (value - Mean(w)) * (value - Mean(w));
      if t >= 0.0 {
        RatioVersusSquares(a, s, t);
      } else {
        assert a / s >= 0.0;
      }
    }
  }

  /** Until the window holds max(5, window size / 2) values, nothing is flagged. */
  lemma WarmUpNeverFlags(cfg: DetectorConfig, xs: seq<real>, value: real)
    requires |xs| < 5 || |xs| < cfg.windowSize / 2
    ensures !ZScoreFlags(cfg, xs, value)
  {
  }

  /** Nine readings of 40 then one of 100: mean 46, variance 324 (std 18), so the last value
      is 3 standard deviations out and a threshold of 2 flags it. */
  lemma SpikeFlags(cfg: DetectorConfig)
    requires cfg.windowSize == 10 && cfg.zscoreThreshold == 2.0
    ensures ZScoreFlags(cfg, Repeated(9, 40.0) + [100.0], 100.0)
  {
    var xs: seq<real> := Repeated(9, 40.0);
    var w := xs + [100.0];
    SumConstant(xs, 40.0);
    SnocSums(xs, 100.0, 46.0);
    assert Mean(w) == 46.0;
    DeviationsConstant(xs, 40.0, 46.0);
    assert SquaredDeviations(w, 46.0) == 3240.0;
    assert Variance(w) == 324.0;
  }

  /** The isolation-forest anomalies are one per outlier row, in row order, each valued by
      that row's index and labelled with the caller's machine id and metric. */
  lemma {:induction false} ForestAnomaliesExact(preds: seq<int>, machineId: string, metricLabel: string)
    ensures var r := ForestAnomalies(preds, machineId, metricLabel);
      |r| == |Outliers(preds)|
      && forall i :: 0 <= i < |r| ==>
        r[i].value == Outliers(preds)[i] as real && r[i].machineId == machineId
        && r[i].metric == metricLabel
  {
    if preds != [] {
      ForestAnomaliesExact(preds[..|preds| - 1], machineId, metricLabel);
    }
  }

  /** The outlier indices are increasing, and a row is among them exactly when the model
      predicted -1 for it. */
  lemma {:induction false} OutliersExact(preds: seq<int>)
    ensures forall i, j :: 0 <= i < j < |Outliers(preds)| ==> Outliers(preds)[i] < Outliers(preds)[j]
    ensures forall k :: 0 <= k < |preds| ==> (preds[k] == -1 <==> k in Outliers(preds))
  {
    if preds != [] {
      var init := preds[..|preds| - 1];
      OutliersExact(init);
      forall k | 0 <= k < |init| ensures preds[k] == init[k] {
      }
    }
  }

  /** Ten readings on one metric with a window of 10 and a threshold of 2: the nine 40s are
      never flagged, and the final 100 is flagged by the z-score detector. */
  method SpikeScenario(machineId: string) returns (quiet: seq<Anomaly>, alarm: seq<Anomaly>)
    ensures quiet == []
    ensures |alarm| == 1 && alarm[0].detector == ZScore && alarm[0].value == 100.0
  {
    var cfg := DefaultConfig.(windowSize := 10, zscoreThreshold := 2.0);
    var d := new Detector(cfg);
    var metric := TempMetric;
    quiet := [];
    var i := 0;
    while i < 9
      invariant 0 <= i <= 9
      invariant d.Valid() && d.config == cfg && quiet == []
      invariant d.history.GetOr(metric, BoundedDeque([], 10)) == BoundedDeque(Repeated(i, 40.0), 10)
    {
      ghost var before := Repeated(i, 40.0);
      var r := d.DetectZScore(metric, 40.0, machineId);
      assert before + [40.0] == Repeated(i + 1, 40.0);
      ConstantWindowNeverFlags(cfg, Repeated(i + 1, 40.0), 40.0, 40.0);
      quiet := quiet + r;
      i := i + 1;
    }
    alarm := d.DetectZScore(metric, 100.0, machineId);
    SpikeFlags(cfg);
  }
}

=== FILE: failure_modes.dfy ===
/** Impacts, the key-to-value maps failure modes report, and how `combined_impact` adds
    them up key by key. */
module Impacts {
  import opened OrderedDicts

  type Impact = ODict<string, real>

  /** Entry `j` of `d` added into `prev`, a missing key counting as 0. */
  function AddEntry(prev: Impact, d: Impact, j: nat): (r: Impact)
    requires prev.Valid() && d.Valid() && j < |d.keys|
    ensures r.Valid()
    ensures d.keys[j] in d.m
    ensures r.m == prev.m[d.keys[j] := prev.GetOr(d.keys[j], 0.0) + d.m[d.keys[j]]]
  {
    var k := d.keys[j];
    prev.Put(k, prev.GetOr(k, 0.0) + d.m[k])
  }

  /** The first `n` entries of `d` added into `acc`. */
  function AddEntries(acc: Impact, d: Impact, n: nat): (r: Impact)
    requires acc.Valid() && d.Valid() && n <= |d.keys|
    ensures r.Valid()
  {
    if n == 0 then acc else AddEntry(AddEntries(acc, d, n - 1), d, n - 1)
  }

  /** The inner loop of `combined_impact`: one mode's impact added into the running total. */
  method AddImpact(acc: Impact, d: Impact) returns (impact: Impact)
    requires acc.Valid() && d.Valid()
    ensures impact == AddEntries(acc, d, |d.keys|)
  {
    impact := acc;
    var j := 0;
    while j < |d.keys|
      invariant 0 <= j <= |d.keys|
      invariant impact == AddEntries(acc, d, j)
    {
      impact := AddEntry(impact, d, j);
      j := j + 1;
    }
  }

  ghost predicate AllValid(ds: seq<Impact>) {
    forall i :: 0 <= i < |ds| ==> ds[i].Valid()
  }

  /** `combined_impact` over the impacts in the manager's order. */
  function Combine(ds: seq<Impact>): (r: Impact)
    requires AllValid(ds)
    ensures r.Valid()
  {
    if ds == [] then Empty()
    else AddEntries(Combine(ds[..|ds| - 1]), ds[|ds| - 1], |ds[|ds| - 1].keys|)
  }

  /** The sum, over the impacts, of what each reports for `k` (0 when it does not). */
  function SumAt(ds: seq<Impact>, k: string): real {
    if ds == [] then 0.0 else SumAt(ds[..|ds| - 1], k) + ds[|ds| - 1].GetOr(k, 0.0)
  }

  /** Whether `k` is among the first `n` keys. */
  predicate Seen(keys: seq<string>, n: nat, k: string)
    requires n <= |keys|
  {
    n > 0 && (keys[n - 1] == k || Seen(keys, n - 1, k))
  }

  lemma {:induction false} SeenIsMember(keys: seq<string>, n: nat, k: string)
    requires n <= |keys|
    ensures Seen(keys, n, k) <==> k in keys[..n]
  {
    if n > 0 {
      SeenIsMember(keys, n - 1, k);
      assert keys[..n] == keys[..n - 1] + [keys[n - 1]];
    }
  }

  lemma {:induction false} NotSeenBefore(keys: seq<string>, n: nat, j: nat)
    requires Distinct(keys) && n <= j < |keys|
    ensures !Seen(keys, n, keys[j])
  {
    if n > 0 {
      NotSeenBefore(keys, n - 1, j);
    }
  }

  lemma {:induction false} AddEntriesKeys(acc: Impact, d: Impact, n: nat, k: string)
    requires acc.Valid() && d.Valid() && n <= |d.keys|
    ensures k in AddEntries(acc, d, n).m <==> k in acc.m || Seen(d.keys, n, k)
    ensures AddEntries(acc, d, n).GetOr(k, 0.0)
      == acc.GetOr(k, 0.0) + (if Seen(d.keys, n, k) then d.GetOr(k, 0.0) else 0.0)
  {
    if n > 0 {
      var prev := AddEntries(acc, d, n - 1);
      assert AddEntries(acc, d, n) == AddEntry(prev, d, n - 1);
      AddEntriesKeys(acc, d, n - 1, k);
      AddEntryAt(prev, d, n - 1, k);
      if k == d.keys[n - 1] {
        NotSeenBefore(d.keys, n - 1, n - 1);
      }
    }
  }

  /** One entry's effect on one key. */
  lemma AddEntryAt(prev: Impact, d: Impact, j: nat, k: string)
    requires prev.Valid() && d.Valid() && j < |d.keys|
    ensures k in AddEntry(prev, d, j).m <==> k in prev.m || k == d.keys[j]
    ensures AddEntry(prev, d, j).GetOr(k, 0.0)
      == prev.GetOr(k, 0.0) + (if k == d.keys[j] then d.GetOr(k, 0.0) else 0.0)
  {
  }

  /** `combined_impact` reports exactly the keys some active mode reports, and for each the
      sum over the modes (additive, not the largest); no modes give an empty impact. */
  lemma {:induction false} CombineIsKeywiseSum(ds: seq<Impact>, k: string)
    requires AllValid(ds)
    ensures k in Combine(ds).m <==> exists i :: 0 <= i < |ds| && k in ds[i].m
    ensures Combine(ds).GetOr(k, 0.0) == SumAt(ds, k)
    ensures ds == [] ==> Combine(ds).keys == []
  {
    if ds != [] {
      var last := |ds| - 1;
      var d := ds[last];
      CombineIsKeywiseSum(ds[..last], k);
      CombineStep(ds, k);
      assert ds[..last] + [d] == ds;
      ExistsSnoc(ds[..last], d, k);
    }
  }

  /** The last impact's contribution to one key. */
  lemma CombineStep(ds: seq<Impact>, k: string)
    requires ds != [] && AllValid(ds)
    ensures var d := ds[|ds| - 1]; var prev := Combine(ds[..|ds| - 1]);
      && (k in Combine(ds).m <==> k in prev.m || k in d.m)
      && Combine(ds).GetOr(k, 0.0) == prev.GetOr(k, 0.0) + d.GetOr(k, 0.0)
  {
    var d := ds[|ds| - 1];
    AddEntriesKeys(Combine(ds[..|ds| - 1]), d, |d.keys|, k);
    SeenIsMember(d.keys, |d.keys|, k);
    assert d.keys[..|d.keys|] == d.keys;
  }

  /** One more impact taken from `ds` adds its entries to the running total. */
  lemma CombinePrefix(ds: seq<Impact>, n: nat)
    requires AllValid(ds) && n < |ds|
    ensures AllValid(ds[..n]) && AllValid(ds[..n + 1])
    ensures Combine(ds[..n + 1]) == AddEntries(Combine(ds[..n]), ds[n], |ds[n].keys|)
  {
    assert ds[..n + 1][..n] == ds[..n];
  }

  lemma ExistsSnoc(ds: seq<Impact>, d: Impact, k: string)
    ensures (exists i :: 0 <= i < |ds + [d]| && k in (ds + [d])[i].m)
      <==> (exists i :: 0 <= i < |ds| && k in ds[i].m) || k in d.m
  {
    if exists i :: 0 <= i < |ds + [d]| && k in (ds + [d])[i].m {
      var i :| 0 <= i < |ds + [d]| && k in (ds + [d])[i].m;
      if i < |ds| {
        assert (ds + [d])[i] == ds[i];
      }
    }
    if exists i :: 0 <= i < |ds| && k in ds[i].m {
      var i :| 0 <= i < |ds| && k in ds[i].m;
      assert (ds + [d])[i] == ds[i];
    }
    if k in d.m {
      assert (ds + [d])[|ds|] == d;
    }
  }

}

/** Injectable machine faults: each mode has a severity in `[.., 1]` that grows with time and
    reports an impact that is affine in that severity; the manager keeps the active modes
    by id, advances them together and adds their impacts key by key. */
module FailureModes {
  import opened Wrappers
  import opened OrderedDicts
  import opened Impacts

  /** The five fault kinds and the plain base mode, which reports no impact. */
  datatype Variant =
    | Base
    | ToolWearAccelerated(multiplier: real)
    | SpindleBearingDegradation
    | CoolantSystemFailure
    | ThermalDrift
    | AxisBacklash

  const DefaultName: string := "failure"
  const DefaultProgressionRate: real := 0.01
  const DefaultToolWearMultiplier: real := 2.0

  const ToolWearMultiplierKey: string := "tool_wear_multiplier"
  const VibrationMultiplierKey: string := "vibration_multiplier"
  const TempOffsetKey: string := "temp_offset_c"
  const CoolantFlowMultiplierKey: string := "coolant_flow_multiplier"
  const PositionDriftKey: string := "position_drift_mm"
  const BacklashKey: string := "backlash_mm"

  /** The name a mode ends up with: every fault kind overwrites the given one. */
  function NameOf(v: Variant, given: string): string {
    match v
    case Base => given
    case ToolWearAccelerated(_) => "TOOL_WEAR_ACCELERATED"
    case SpindleBearingDegradation => "SPINDLE_BEARING_DEGRADATION"
    case CoolantSystemFailure => "COOLANT_SYSTEM_FAILURE"
    case ThermalDrift => "THERMAL_DRIFT"
    case AxisBacklash => "AXIS_BACKLASH"
  }

  /** `FailureMode.tick`: severity advances at the mode's rate and is capped at 1, with no
      lower bound. */
  function TickSeverity(severity: real, rate: real, deltaMinutes: real): (s: real)
    ensures s <= 1.0 && s <= severity + rate * deltaMinutes
    ensures s == 1.0 || s == severity + rate * deltaMinutes
  {
    if severity + rate * deltaMinutes < 1.0 then severity + rate * deltaMinutes else 1.0
  }

  /** The keys each kind reports, whatever its severity. */
  function ImpactKeys(v: Variant): seq<string> {
    match v
    case Base => []
    case ToolWearAccelerated(_) => [ToolWearMultiplierKey]
    case SpindleBearingDegradation => [VibrationMultiplierKey, TempOffsetKey]
    case CoolantSystemFailure => [CoolantFlowMultiplierKey, TempOffsetKey]
    case ThermalDrift => [PositionDriftKey]
    case AxisBacklash => [BacklashKey]
  }

  /** The keys that one kind reports together differ. */
  lemma SharedKeysDistinct()
    ensures VibrationMultiplierKey != TempOffsetKey && CoolantFlowMultiplierKey != TempOffsetKey
  {
    assert VibrationMultiplierKey[0] == 'v' && CoolantFlowMultiplierKey[0] == 'c';
    assert TempOffsetKey[0] == 't';
  }

  /** `get_impact` of each kind at severity `s`. */
  function ImpactOf(v: Variant, s: real): (d: Impact)
    ensures d.Valid() && d.keys == ImpactKeys(v)
  {
    SharedKeysDistinct();
    match v
    case Base => ODict([], map[])
    case ToolWearAccelerated(mult) =>
      ODict([ToolWearMultiplierKey], map[ToolWearMultiplierKey := mult * (1.0 + s)])
    case SpindleBearingDegradation =>
      ODict([VibrationMultiplierKey, TempOffsetKey],
            map[VibrationMultiplierKey := 1.0 + 2.0 * s, TempOffsetKey := 5.0 * s])
    case CoolantSystemFailure =>
      ODict([CoolantFlowMultiplierKey, TempOffsetKey],
            map[CoolantFlowMultiplierKey := 1.0 - 0.7 * s, TempOffsetKey := 3.0 * s])
    case ThermalDrift => ODict([PositionDriftKey], map[PositionDriftKey := 0.02 * s])
    case AxisBacklash => ODict([BacklashKey], map[BacklashKey := 0.05 * s])
  }

  /** One injectable fault. Only the severity changes after construction. */
  class FailureMode {
    const id: string
    const name: string
    const progressionRate: real
    const injectedAt: real
    const variant: Variant
    var severity: real

    /** The dataclass constructor; `id` and `injectedAt` stand for the uuid and the clock
        reading the source draws itself. */
    constructor (id: string, name: string, progressionRate: real, severity: real,
                 injectedAt: real, variant: Variant)
      ensures this.id == id && this.name == NameOf(variant, name)
      ensures this.progressionRate == progressionRate && this.severity == severity
      ensures this.injectedAt == injectedAt && this.variant == variant
    {
      this.id := id;
      this.name := NameOf(variant, name);
      this.progressionRate := progressionRate;
      this.severity := severity;
      this.injectedAt := injectedAt;
      this.variant := variant;
    }

    method Tick(deltaMinutes: real)
      modifies this
      ensures severity == TickSeverity(old(severity), progressionRate, deltaMinutes)
    {
      var next := severity + progressionRate * deltaMinutes;
      severity := if next < 1.0 then next else 1.0;
    }

    function Impact(): (d: Impact)
      reads this
      ensures d.Valid()
    {
      ImpactOf(variant, severity)
    }
  }

  function ImpactsOf(fs: seq<FailureMode>): (ds: seq<Impact>)
    reads fs
    ensures |ds| == |fs| && AllValid(ds)
    ensures forall i :: 0 <= i < |fs| ==> ds[i] == fs[i].Impact()
  {
    seq(|fs|, i requires 0 <= i < |fs| reads fs => fs[i].Impact())
  }

  /** The set of active faults, keyed by their own id. */
  class FailureManager {
    var active: ODict<string, FailureMode>

    ghost predicate Valid()
      reads this
    {
      active.Valid() && forall k :: k in active.m ==> active.m[k].id == k
    }

    /** The frame of `Tick`: the modes the manager holds, the only objects it changes. */
    ghost function Modes(): set<FailureMode>
      reads this
    {
      set k | k in active.m :: active.m[k]
    }

    constructor ()
      ensures Valid() && active == Empty()
    {
      active := Empty();
    }

    /** `inject`: stored under its id, replacing any mode with the same id. */
    method Inject(failure: FailureMode)
      requires Valid()
      modifies this
      ensures Valid() && active == old(active).Put(failure.id, failure)
    {
      active := active.Put(failure.id, failure);
    }

    /** `remove`: only that id goes; an unknown id changes nothing. */
    method Remove(failureId: string)
      requires Valid()
      modifies this
      ensures Valid() && active == old(active).Remove(failureId)
    {
      active := active.Remove(failureId);
    }

    /** `active_failures`: the modes in injection order, one per distinct id. */
    method ActiveFailures() returns (fs: seq<FailureMode>)
      requires Valid()
      ensures fs == active.Values()
      ensures forall i, j :: 0 <= i < j < |fs| ==> fs[i].id != fs[j].id
    {
      fs := active.Values();
    }

    /** `tick`: every active mode advances by the same time; nothing else changes. */
    method Tick(deltaMinutes: real)
      requires Valid()
      modifies Modes()
      ensures Valid()
      ensures forall f :: f in Modes() ==>
        f.severity == TickSeverity(old(f.severity), f.progressionRate, deltaMinutes)
    {
      var fs := active.Values();
      var n := 0;
      while n < |fs|
        invariant 0 <= n <= |fs|
        invariant forall i :: 0 <= i < n ==>
          fs[i].severity == TickSeverity(old(fs[i].severity), fs[i].progressionRate, deltaMinutes)
        invariant forall i :: n <= i < |fs| ==> fs[i].severity == old(fs[i].severity)
      {
        DistinctModes(n);
        fs[n].Tick(deltaMinutes);
        n := n + 1;
      }
      forall f | f in Modes()
        ensures f.severity == TickSeverity(old(f.severity), f.progressionRate, deltaMinutes)
      {
        var k :| k in active.m && active.m[k] == f;
        var i :| 0 <= i < |active.keys| && active.keys[i] == k;
        assert fs[i] == f;
      }
    }

    /** Distinct ids make distinct objects, so ticking one mode leaves the others alone. */
    lemma DistinctModes(n: nat)
      requires Valid() && n < |active.keys|
      ensures forall i :: 0 <= i < |active.keys| && i != n ==> active.Values()[i] != active.Values()[n]
    {
    }

    /** `combined_impact`: the impacts added key by key in the manager's order. */
    method CombinedImpact() returns (impact: Impact)
      requires Valid()
      ensures impact == Combine(ImpactsOf(active.Values()))
    {
      var fs := active.Values();
      ghost var ds := ImpactsOf(fs);
      impact := Empty();
      var n := 0;
      while n < |fs|
        invariant 0 <= n <= |fs|
        invariant AllValid(ds[..n]) && impact == Combine(ds[..n])
      {
        var d := fs[n].Impact();
        CombinePrefix(ds, n);
        impact := AddImpact(impact, d);
        n := n + 1;
      }
      assert ds[..n] == ds;
    }
  }
}

/** What the failure model promises: bounded severities, affine fixed-key impacts, and a
    combined impact that is the key-wise sum of the active modes' impacts. */
module FailureModeProperties {
  import opened Wrappers
  import opened OrderedDicts
  import opened Impacts
  import opened FailureModes

  /** Ticking forward never lowers a severity that is at most 1. */
  lemma TickNeverDecreases(severity: real, rate: real, deltaMinutes: real)
    requires severity <= 1.0 && rate * deltaMinutes >= 0.0
    ensures severity <= TickSeverity(severity, rate, deltaMinutes) <= 1.0
  {
  }

  /** There is no lower clamp: a negative step takes the default rate below 0. */
  lemma TickHasNoLowerClamp()
    ensures TickSeverity(0.0, DefaultProgressionRate, -10.0) < 0.0
  {
  }

  /** Each kind reports the same keys at every severity, and the value under each key is
      affine in the severity, with coefficients that depend only on the kind and the key
      (`Intercept`, `Slope`). The base mode reports nothing. */
  lemma ImpactAffine(v: Variant, s1: real, s2: real)
    ensures ImpactOf(v, s1).keys == ImpactOf(v, s2).keys
    ensures v.Base? ==> ImpactOf(v, s1).keys == []
    ensures forall k :: k in ImpactOf(v, s1).m ==>
      && k in ImpactOf(v, s2).m
      && ImpactOf(v, s1).m[k] == Intercept(v, k) + Slope(v, k) * s1
  {
    forall k | k in ImpactOf(v, s1).m
      ensures k in ImpactOf(v, s2).m
      ensures ImpactOf(v, s1).m[k] == Intercept(v, k) + Slope(v, k) * s1
    {
      AffineForm(v, s1, k);
    }
  }

  /** The constant term of the value a kind reports under `k`. */
  function Intercept(v: Variant, k: string): real {
    match v
    case ToolWearAccelerated(mult) => mult
    case SpindleBearingDegradation => if k == VibrationMultiplierKey then 1.0 else 0.0
    case CoolantSystemFailure => if k == CoolantFlowMultiplierKey then 1.0 else 0.0
    case _ => 0.0
  }

  /** How fast the value a kind reports under `k` moves with the severity. */
  function Slope(v: Variant, k: string): real {
    match v
    case Base => 0.0
    case ToolWearAccelerated(mult) => mult
    case SpindleBearingDegradation => if k == VibrationMultiplierKey then 2.0 else 5.0
    case CoolantSystemFailure => if k == CoolantFlowMultiplierKey then -0.7 else 3.0
    case ThermalDrift => 0.02
    case AxisBacklash => 0.05
  }

  /** Every value a kind reports is `Intercept + Slope * severity`. */
  lemma AffineForm(v: Variant, s: real, k: string)
    requires k in ImpactOf(v, s).m
    ensures ImpactOf(v, s).m[k] == Intercept(v, k) + Slope(v, k) * s
  {
    SharedKeysDistinct();
    match v
    case ToolWearAccelerated(mult) =>
      Distribute(mult, s);
    case _ =>
  }

  lemma Distribute(m: real, s: real)
    ensures m * (1.0 + s) == m + m * s
  {
  }

  /** Injecting under a new id adds one active mode; under a known id the count stays. */
  lemma InjectCount(active: ODict<string, FailureMode>, f: FailureMode)
    requires active.Valid()
    ensures |active.Put(f.id, f).Values()| == |active.Values()| + (if f.id in active.m then 0 else 1)
  {
  }
}

=== FILE: gcode_examples.dfy ===
/** The parser's behaviour on the example lines of its test suite. */
module GCodeParserExamples {
  import opened Wrappers
  import opened Strings
  import opened GCodeParser
  import opened GCodeWordForms

  /** An N-word whose suffix is digits sets the block number to their value. */
  lemma BlockStep(cmd: GCodeCommand, tok: string, a: string)
    requires |tok| > 0 && tok[0] == 'N' && tok[1..] == a && a != [] && AllDigits(a)
    ensures ApplyToken(cmd, tok) == cmd.(blockNumber := Some(DigitsValue(a) as int))
  {
    BlockDigits(a);
  }

  /** A token that is not an N-word and matches the word pattern is dispatched. */
  lemma MatchedStep(cmd: GCodeCommand, tok: string, w: Word)
    requires !IsBlockWord(tok) && MatchWord(tok) == Some(w)
    ensures ApplyToken(cmd, tok) == Dispatch(cmd, w.letter, w.value)
  {
  }

  /** Any other letter followed by digits is dispatched with their value. */
  lemma IntegerStep(cmd: GCodeCommand, tok: string, a: string)
    requires |tok| > 0 && 'A' <= tok[0] <= 'Z' && tok[0] != 'N' && tok[1..] == a
    requires a != [] && AllDigits(a)
    ensures ApplyToken(cmd, tok) == Dispatch(cmd, tok[0], DigitsValue(a) as real)
  {
    IntegerWord(tok, a);
    MatchedStep(cmd, tok, MatchWord(tok).value);
  }

  /** Any other letter followed by `a.b` is dispatched with the value `a.b`. */
  lemma DecimalStep(cmd: GCodeCommand, tok: string, a: string, b: string)
    requires |tok| > 0 && 'A' <= tok[0] <= 'Z' && tok[0] != 'N' && tok[1..] == a + "." + b
    requires a != [] && AllDigits(a) && b != [] && AllDigits(b)
    ensures ApplyToken(cmd, tok) == Dispatch(cmd, tok[0], DigitsValue(a) as real + FractionValue(b))
  {
    DecimalWord(tok, a, b);
    var w := MatchWord(tok).value;
    MatchedStep(cmd, tok, w);
    assert w == Word(tok[0], DigitsValue(a) as real + FractionValue(b));
  }

  function DigitOf(c: char): int { c as int - '0' as int }

  lemma DigitsOne(p: char)
    requires IsDigit(p)
    ensures AllDigits([p]) && DigitsValue([p]) == DigitOf(p)
  {
    assert [p][..0] == [];
  }

  lemma DigitsTwo(p: char, q: char)
    requires IsDigit(p) && IsDigit(q)
    ensures AllDigits([p, q]) && DigitsValue([p, q]) == 10 * DigitOf(p) + DigitOf(q)
  {
    DigitsOne(p);
    assert [p, q][..1] == [p];
  }

  lemma DigitsFour(p: char, q: char, r: char, t: char)
    requires IsDigit(p) && IsDigit(q) && IsDigit(r) && IsDigit(t)
    ensures AllDigits([p, q, r, t])
    ensures DigitsValue([p, q, r, t]) == 1000 * DigitOf(p) + 100 * DigitOf(q) + 10 * DigitOf(r) + DigitOf(t)
  {
    DigitsTwo(p, q);
    assert [p, q, r][..2] == [p, q];
    assert [p, q, r, t][..3] == [p, q, r];
  }

  lemma FractionOne(r: char)
    requires IsDigit(r)
    ensures AllDigits([r]) && FractionValue([r]) == DigitOf(r) as real / 10.0
  {
    assert [r][1..] == [];
  }

  /** `N` and four digits. */
  lemma BlockFour(cmd: GCodeCommand, tok: string, p: char, q: char, r: char, t: char, n: int)
    requires |tok| == 5 && tok[0] == 'N' && tok[1] == p && tok[2] == q && tok[3] == r && tok[4] == t
    requires IsDigit(p) && IsDigit(q) && IsDigit(r) && IsDigit(t)
    requires n == 1000 * DigitOf(p) + 100 * DigitOf(q) + 10 * DigitOf(r) + DigitOf(t)
    ensures ApplyToken(cmd, tok) == cmd.(blockNumber := Some(n))
  {
    DigitsFour(p, q, r, t);
    assert tok[1..] == [p, q, r, t];
    BlockStep(cmd, tok, [p, q, r, t]);
  }

  /** A letter and one digit. */
  lemma IntegerOne(cmd: GCodeCommand, tok: string, p: char, v: real)
    requires |tok| == 2 && 'A' <= tok[0] <= 'Z' && tok[0] != 'N' && tok[1] == p && IsDigit(p)
    requires v == DigitOf(p) as real
    ensures ApplyToken(cmd, tok) == Dispatch(cmd, tok[0], v)
  {
    DigitsOne(p);
    assert tok[1..] == [p];
    IntegerStep(cmd, tok, [p]);
  }

  /** A letter and two digits. */
  lemma IntegerTwo(cmd: GCodeCommand, tok: string, p: char, q: char, v: real)
    requires |tok| == 3 && 'A' <= tok[0] <= 'Z' && tok[0] != 'N' && tok[1] == p && tok[2] == q
    requires IsDigit(p) && IsDigit(q)
    requires v == (10 * DigitOf(p) + DigitOf(q)) as real
    ensures ApplyToken(cmd, tok) == Dispatch(cmd, tok[0], v)
  {
    DigitsTwo(p, q);
    assert tok[1..] == [p, q];
    IntegerStep(cmd, tok, [p, q]);
  }

  /** A letter and four digits. */
  lemma IntegerFour(cmd: GCodeCommand, tok: string, p: char, q: char, r: char, t: char, v: real)
    requires |tok| == 5 && 'A' <= tok[0] <= 'Z' && tok[0] != 'N'
    requires tok[1] == p && tok[2] == q && tok[3] == r && tok[4] == t
    requires IsDigit(p) && IsDigit(q) && IsDigit(r) && IsDigit(t)
    requires v == (1000 * DigitOf(p) + 100 * DigitOf(q) + 10 * DigitOf(r) + DigitOf(t)) as real
    ensures ApplyToken(cmd, tok) == Dispatch(cmd, tok[0], v)
  {
    DigitsFour(p, q, r, t);
    assert tok[1..] == [p, q, r, t];
    IntegerStep(cmd, tok, [p, q, r, t]);
  }

  /** The pieces `DecimalStep` needs for a token `l d.d`. */
  lemma DecimalPiecesOne(tok: string, p: char, r: char)
    requires |tok| == 4 && tok[1] == p && tok[2] == '.' && tok[3] == r && IsDigit(p) && IsDigit(r)
    ensures tok[1..] == [p] + "." + [r]
    ensures AllDigits([p]) && AllDigits([r])
    ensures DigitsValue([p]) as real + FractionValue([r]) == DigitOf(p) as real + DigitOf(r) as real / 10.0
  {
    DigitsOne(p);
    FractionOne(r);
  }

  /** The pieces `DecimalStep` needs for a token `l dd.d`. */
  lemma DecimalPiecesTwo(tok: string, p: char, q: char, r: char)
    requires |tok| == 5 && tok[1] == p && tok[2] == q && tok[3] == '.' && tok[4] == r
    requires IsDigit(p) && IsDigit(q) && IsDigit(r)
    ensures tok[1..] == [p, q] + "." + [r]
    ensures AllDigits([p, q]) && AllDigits([r])
    ensures DigitsValue([p, q]) as real + FractionValue([r])
         == (10 * DigitOf(p) + DigitOf(q)) as real + DigitOf(r) as real / 10.0
  {
    DigitsTwo(p, q);
    FractionOne(r);
  }

  /** A letter, one digit, a point and one digit. */
  lemma DecimalOneOne(cmd: GCodeCommand, tok: string, p: char, r: char, v: real)
    requires |tok| == 4 && 'A' <= tok[0] <= 'Z' && tok[0] != 'N'
    requires tok[1] == p && tok[2] == '.' && tok[3] == r && IsDigit(p) && IsDigit(r)
    requires v == DigitOf(p) as real + DigitOf(r) as real / 10.0
    ensures ApplyToken(cmd, tok) == Dispatch(cmd, tok[0], v)
  {
    DecimalPiecesOne(tok, p, r);
    DecimalStep(cmd, tok, [p], [r]);
  }

  /** A letter, two digits, a point and one digit. */
  lemma DecimalTwoOne(cmd: GCodeCommand, tok: string, p: char, q: char, r: char, v: real)
    requires |tok| == 5 && 'A' <= tok[0] <= 'Z' && tok[0] != 'N'
    requires tok[1] == p && tok[2] == q && tok[3] == '.' && tok[4] == r
    requires IsDigit(p) && IsDigit(q) && IsDigit(r)
    requires v == (10 * DigitOf(p) + DigitOf(q)) as real + DigitOf(r) as real / 10.0
    ensures ApplyToken(cmd, tok) == Dispatch(cmd, tok[0], v)
  {
    DecimalPiecesTwo(tok, p, q, r);
    DecimalStep(cmd, tok, [p, q], [r]);
  }

  lemma ApplyFour(cmd: GCodeCommand, a: string, b: string, c: string, d: string)
    ensures ApplyTokens(cmd, [a, b, c, d])
         == ApplyToken(ApplyToken(ApplyToken(ApplyToken(cmd, a), b), c), d)
  {
    ApplyTokensPush(cmd, [], a);
    ApplyTokensPush(cmd, [a], b);
    ApplyTokensPush(cmd, [a, b], c);
    ApplyTokensPush(cmd, [a, b, c], d);
    assert [] + [a] == [a] && [a] + [b] == [a, b] && [a, b] + [c] == [a, b, c];
    assert [a, b, c] + [d] == [a, b, c, d];
  }

  lemma ApplyFive(cmd: GCodeCommand, a: string, b: string, c: string, d: string, e: string)
    ensures ApplyTokens(cmd, [a, b, c, d, e])
         == ApplyToken(ApplyToken(ApplyToken(ApplyToken(ApplyToken(cmd, a), b), c), d), e)
  {
    ApplyFour(cmd, a, b, c, d);
    ApplyTokensPush(cmd, [a, b, c, d], e);
    assert [a, b, c, d] + [e] == [a, b, c, d, e];
  }

  /** Words separated by single spaces split into exactly those words. */
  lemma WordsThree(a: string, b: string, c: string)
    requires a != [] && NoSpace(a) && b != [] && NoSpace(b) && c != [] && NoSpace(c)
    ensures Words(a + " " + (b + " " + c)) == [a, b, c]
  {
    WordsOne(c);
    WordsCons(b, c);
    WordsCons(a, b + " " + c);
  }

  lemma WordsFour(a: string, b: string, c: string, d: string)
    requires a != [] && NoSpace(a) && b != [] && NoSpace(b)
    requires c != [] && NoSpace(c) && d != [] && NoSpace(d)
    ensures Words(a + " " + (b + " " + (c + " " + d))) == [a, b, c, d]
  {
    WordsThree(b, c, d);
    WordsCons(a, b + " " + (c + " " + d));
  }

  lemma WordsFive(a: string, b: string, c: string, d: string, e: string)
    requires a != [] && NoSpace(a) && b != [] && NoSpace(b)
    requires c != [] && NoSpace(c) && d != [] && NoSpace(d) && e != [] && NoSpace(e)
    ensures Words(a + " " + (b + " " + (c + " " + (d + " " + e)))) == [a, b, c, d, e]
  {
    WordsFour(b, c, d, e);
    WordsCons(a, b + " " + (c + " " + (d + " " + e)));
  }

  // ---------------------------------------------------- "N0010 G00 X12.5 Y3.0 Z2.0"

  lemma Block0010(cmd: GCodeCommand, tok: string)
    requires tok == "N0010"
    ensures ApplyToken(cmd, tok) == cmd.(blockNumber := Some(10))
  {
    assert tok[0] == 'N';
    BlockFour(cmd, tok, '0', '0', '1', '0', 10);
  }

  lemma GCode00(cmd: GCodeCommand, tok: string)
    requires tok == "G00"
    ensures ApplyToken(cmd, tok) == cmd.(gCodes := cmd.gCodes + [0])
  {
    assert tok[0] == 'G';
    IntegerTwo(cmd, tok, '0', '0', 0.0);
  }

  lemma X12Point5(cmd: GCodeCommand, tok: string)
    requires tok == "X12.5"
    ensures ApplyToken(cmd, tok) == cmd.(x := Some(12.5))
  {
    assert tok[0] == 'X';
    DecimalTwoOne(cmd, tok, '1', '2', '5', 12.5);
  }

  lemma Y3Point0(cmd: GCodeCommand, tok: string)
    requires tok == "Y3.0"
    ensures ApplyToken(cmd, tok) == cmd.(y := Some(3.0))
  {
    assert tok[0] == 'Y';
    DecimalOneOne(cmd, tok, '3', '0', 3.0);
  }

  lemma Z2Point0(cmd: GCodeCommand, tok: string)
    requires tok == "Z2.0"
    ensures ApplyToken(cmd, tok) == cmd.(z := Some(2.0))
  {
    assert tok[0] == 'Z';
    DecimalOneOne(cmd, tok, '2', '0', 2.0);
  }

  lemma RapidWords()
    ensures Words("N0010 G00 X12.5 Y3.0 Z2.0") == ["N0010", "G00", "X12.5", "Y3.0", "Z2.0"]
  {
    assert "N0010 G00 X12.5 Y3.0 Z2.0"
        == "N0010" + " " + ("G00" + " " + ("X12.5" + " " + ("Y3.0" + " " + "Z2.0")));
    WordsFive("N0010", "G00", "X12.5", "Y3.0", "Z2.0");
  }

  lemma RapidFold()
    ensures ApplyTokens(EmptyCommand(None), ["N0010", "G00", "X12.5", "Y3.0", "Z2.0"])
         == GCodeCommand(Some(10), [0], [], Some(12.5), Some(3.0), Some(2.0), None, None, None,
                         None, None, None, None)
  {
    var c0 := EmptyCommand(None);
    ApplyFive(c0, "N0010", "G00", "X12.5", "Y3.0", "Z2.0");
    Block0010(c0, "N0010");
    var c1 := c0.(blockNumber := Some(10));
    GCode00(c1, "G00");
    var c2 := c1.(gCodes := c1.gCodes + [0]);
    X12Point5(c2, "X12.5");
    var c3 := c2.(x := Some(12.5));
    Y3Point0(c3, "Y3.0");
    var c4 := c3.(y := Some(3.0));
    Z2Point0(c4, "Z2.0");
  }

  /** `"N0010 G00 X12.5 Y3.0 Z2.0"`: block 10, rapid move G0 to X 12.5, Y 3.0, Z 2.0. */
  lemma ParseRapidMove()
    ensures Parse("N0010 G00 X12.5 Y3.0 Z2.0")
         == GCodeCommand(Some(10), [0], [], Some(12.5), Some(3.0), Some(2.0), None, None, None,
                         None, None, None, None)
  {
    ParseWithoutComment("N0010 G00 X12.5 Y3.0 Z2.0");
    RapidWords();
    RapidFold();
  }

  // ---------------------------------------------------- "N0020 G01 X10.0 Y5.0 F1200"

  lemma Block0020(cmd: GCodeCommand, tok: string)
    requires tok == "N0020"
    ensures ApplyToken(cmd, tok) == cmd.(blockNumber := Some(20))
  {
    assert tok[0] == 'N';
    BlockFour(cmd, tok, '0', '0', '2', '0', 20);
  }

  lemma GCode01(cmd: GCodeCommand, tok: string)
    requires tok == "G01"
    ensures ApplyToken(cmd, tok) == cmd.(gCodes := cmd.gCodes + [1])
  {
    assert tok[0] == 'G';
    IntegerTwo(cmd, tok, '0', '1', 1.0);
  }

  lemma X10Point0(cmd: GCodeCommand, tok: string)
    requires tok == "X10.0"
    ensures ApplyToken(cmd, tok) == cmd.(x := Some(10.0))
  {
    assert tok[0] == 'X';
    DecimalTwoOne(cmd, tok, '1', '0', '0', 10.0);
  }

  lemma Y5Point0(cmd: GCodeCommand, tok: string)
    requires tok == "Y5.0"
    ensures ApplyToken(cmd, tok) == cmd.(y := Some(5.0))
  {
    assert tok[0] == 'Y';
    DecimalOneOne(cmd, tok, '5', '0', 5.0);
  }

  lemma Feed1200(cmd: GCodeCommand, tok: string)
    requires tok == "F1200"
    ensures ApplyToken(cmd, tok) == cmd.(f := Some(1200.0))
  {
    assert tok[0] == 'F';
    IntegerFour(cmd, tok, '1', '2', '0', '0', 1200.0);
  }

  lemma LinearWords()
    ensures Words("N0020 G01 X10.0 Y5.0 F1200") == ["N0020", "G01", "X10.0", "Y5.0", "F1200"]
  {
    assert "N0020 G01 X10.0 Y5.0 F1200"
        == "N0020" + " " + ("G01" + " " + ("X10.0" + " " + ("Y5.0" + " " + "F1200")));
    WordsFive("N0020", "G01", "X10.0", "Y5.0", "F1200");
  }

  lemma LinearFold()
    ensures ApplyTokens(EmptyCommand(None), ["N0020", "G01", "X10.0", "Y5.0", "F1200"])
         == GCodeCommand(Some(20), [1], [], Some(10.0), Some(5.0), None, Some(1200.0), None, None,
                         None, None, None, None)
  {
    var c0 := EmptyCommand(None);
    ApplyFive(c0, "N0020", "G01", "X10.0", "Y5.0", "F1200");
    Block0020(c0, "N0020");
    var c1 := c0.(blockNumber := Some(20));
    GCode01(c1, "G01");
    var c2 := c1.(gCodes := c1.gCodes + [1]);
    X10Point0(c2, "X10.0");
    var c3 := c2.(x := Some(10.0));
    Y5Point0(c3, "Y5.0");
    var c4 := c3.(y := Some(5.0));
    Feed1200(c4, "F1200");
  }

  /** `"N0020 G01 X10.0 Y5.0 F1200"`: block 20, linear move G1 to X 10, Y 5 at feed 1200. */
  lemma ParseLinearMove()
    ensures Parse("N0020 G01 X10.0 Y5.0 F1200")
         == GCodeCommand(Some(20), [1], [], Some(10.0), Some(5.0), None, Some(1200.0), None, None,
                         None, None, None, None)
  {
    ParseWithoutComment("N0020 G01 X10.0 Y5.0 F1200");
    LinearWords();
    LinearFold();
  }

  // ---------------------------------------------------------- "N0030 M03 S8000 T1"

  lemma Block0030(cmd: GCodeCommand, tok: string)
    requires tok == "N0030"
    ensures ApplyToken(cmd, tok) == cmd.(blockNumber := Some(30))
  {
    assert tok[0] == 'N';
    BlockFour(cmd, tok, '0', '0', '3', '0', 30);
  }

  lemma MCode03(cmd: GCodeCommand, tok: string)
    requires tok == "M03"
    ensures ApplyToken(cmd, tok) == cmd.(mCodes := cmd.mCodes + [3])
  {
    assert tok[0] == 'M';
    IntegerTwo(cmd, tok, '0', '3', 3.0);
  }

  lemma Speed8000(cmd: GCodeCommand, tok: string)
    requires tok == "S8000"
    ensures ApplyToken(cmd, tok) == cmd.(s := Some(8000.0))
  {
    assert tok[0] == 'S';
    IntegerFour(cmd, tok, '8', '0', '0', '0', 8000.0);
  }

  lemma Tool1(cmd: GCodeCommand, tok: string)
    requires tok == "T1"
    ensures ApplyToken(cmd, tok) == cmd.(t := Some(1))
  {
    assert tok[0] == 'T';
    IntegerOne(cmd, tok, '1', 1.0);
  }

  lemma MCodesWords()
    ensures Words("N0030 M03 S8000 T1") == ["N0030", "M03", "S8000", "T1"]
  {
    assert "N0030 M03 S8000 T1" == "N0030" + " " + ("M03" + " " + ("S8000" + " " + "T1"));
    WordsFour("N0030", "M03", "S8000", "T1");
  }

  lemma MCodesFold()
    ensures ApplyTokens(EmptyCommand(None), ["N0030", "M03", "S8000", "T1"])
         == GCodeCommand(Some(30), [], [3], None, None, None, None, Some(8000.0), Some(1),
                         None, None, None, None)
  {
    var c0 := EmptyCommand(None);
    ApplyFour(c0, "N0030", "M03", "S8000", "T1");
    Block0030(c0, "N0030");
    var c1 := c0.(blockNumber := Some(30));
    MCode03(c1, "M03");
    var c2 := c1.(mCodes := c1.mCodes + [3]);
    Speed8000(c2, "S8000");
    var c3 := c2.(s := Some(8000.0));
    Tool1(c3, "T1");
  }

  /** `"N0030 M03 S8000 T1"`: block 30, M-code 3, spindle speed 8000 and tool 1. */
  lemma ParseMCodes()
    ensures Parse("N0030 M03 S8000 T1")
         == GCodeCommand(Some(30), [], [3], None, None, None, None, Some(8000.0), Some(1),
                         None, None, None, None)
  {
    ParseWithoutComment("N0030 M03 S8000 T1");
    MCodesWords();
    MCodesFold();
  }
}

=== FILE: gcode_parser.dfy ===
/** The FANUC-style G-code line parser: normalise the line, take out a parenthesised
    comment, split the rest on whitespace, and dispatch every `letter + number` word into
    a structured command. Malformed words are skipped, never reported. */
module GCodeParser {
  import opened Wrappers
  import opened Numbers
  import opened Strings

  /** What the number pattern captured: its value and how many characters it took. */
  datatype Number = Number(value: real, length: nat)

  /** A matched `letter + number` word. */
  datatype Word = Word(letter: char, value: real)

  /** One parsed program line. `None` is an absent word; the G and M lists keep the order
      and the repetitions of the line. */
  datatype GCodeCommand = GCodeCommand(
    blockNumber: Option<int>,
    gCodes: seq<int>,
    mCodes: seq<int>,
    x: Option<real>, y: Option<real>, z: Option<real>,
    f: Option<real>, s: Option<real>,
    t: Option<int>,
    i: Option<real>, j: Option<real>, k: Option<real>,
    comment: Option<string>)

  /** The command a line with nothing but (at most) a comment yields. */
  function EmptyCommand(comment: Option<string>): (cmd: GCodeCommand)
    ensures cmd.comment == comment && cmd.gCodes == [] && cmd.mCodes == []
    ensures cmd.blockNumber.None? && cmd.t.None?
    ensures forall l :: l in ValueLetters ==> ValueField(cmd, l).None?
  {
    GCodeCommand(None, [], [], None, None, None, None, None, None, None, None, None, comment)
  }

  // ---------------------------------------------------------------- numbers


  predicate AllDigits(d: string) {
    forall i :: 0 <= i < |d| ==> IsDigit(d[i])
  }

  /** The value of a run of decimal digits, read left to right. */
  function DigitsValue(d: string): nat
    requires AllDigits(d)
  {
    if d == [] then 0 else 10 * DigitsValue(d[..|d| - 1]) + (d[|d| - 1] as int - '0' as int)
  }

  /** The value of the digits after a decimal point: `0.d1d2...dn`. */
  function FractionValue(d: string): (v: real)
    requires AllDigits(d)
    ensures 0.0 <= v < 1.0
  {
    if d == [] then 0.0 else ((d[0] as int - '0' as int) as real + FractionValue(d[1..])) / 10.0
  }

  /** Length of the leading run of decimal digits. */
  function DigitRun(s: string): (n: nat)
    ensures n <= |s| && AllDigits(s[..n])
    ensures n == |s| || !IsDigit(s[n])
  {
    if s == [] || !IsDigit(s[0]) then 0 else 1 + DigitRun(s[1..])
  }

  function SignLength(s: string): (n: nat)
    ensures n <= 1 && n <= |s|
  {
    if |s| > 0 && (s[0] == '+' || s[0] == '-') then 1 else 0
  }

  function SignFactor(s: string): real {
    if |s| > 0 && s[0] == '-' then -1.0 else 1.0
  }

  /** What the pattern `[-+]?\d*\.?\d+`, matched at the start of `s`, captures, and the
      `float` of it: the value and the number of characters consumed. With backtracking
      the capture is the sign, the digit run, and a fraction when at least one digit
      follows the point; a point with no digit after it is not part of the number. */
  function MatchNumber(s: string): (m: Option<Number>)
    ensures m.Some? ==> 0 < m.value.length <= |s|
  {
    var sl := SignLength(s);
    match UnsignedNumber(s[sl..])
    case Some(Number(v, n)) => Some(Number(SignFactor(s) * v, sl + n))
    case None => None
  }

  /** The unsigned part `\d*\.?\d+` of the pattern: its value and length. */
  function UnsignedNumber(r: string): (m: Option<Number>)
    ensures m.Some? ==> 0 < m.value.length <= |r|
  {
    var d1 := DigitRun(r);
    var whole := DigitsValue(r[..d1]) as real;
    if d1 < |r| && r[d1] == '.' && DigitRun(r[d1 + 1..]) > 0 then
      var d2 := DigitRun(r[d1 + 1..]);
      var frac := FractionValue(r[d1 + 1..][..d2]);
      Some(Number(whole + frac, d1 + 1 + d2))
    else if d1 > 0 then
      Some(Number(whole, d1))
    else
      None
  }

  /** `int(s)` on a string: an optional sign, then digits with single underscores allowed
      between them. `None` is the ValueError the parser swallows. */
  function ParseInt(s: string): (r: Option<int>)
    ensures r.Some? ==> |s| > 0 && IsDigit(s[|s| - 1])
    ensures r.Some? && r.value < 0 ==> s[0] == '-'
  {
    var sl := SignLength(s);
    var body := s[sl..];
    if IsDigitGroup(body) then
      var v := DigitsValue(WithoutUnderscores(body)) as int;
      Some(if SignFactor(s) < 0.0 then -v else v)
    else None
  }

  predicate IsDigitGroup(b: string) {
    && |b| > 0 && IsDigit(b[0]) && IsDigit(b[|b| - 1])
    && (forall i :: 0 <= i < |b| ==> IsDigit(b[i]) || b[i] == '_')
    && (forall i :: 0 <= i < |b| - 1 ==> !(b[i] == '_' && b[i + 1] == '_'))
  }

  function WithoutUnderscores(b: string): (d: string)
    requires forall i :: 0 <= i < |b| ==> IsDigit(b[i]) || b[i] == '_'
    ensures AllDigits(d)
  {
    if b == [] then [] else (if b[0] == '_' then [] else [b[0]]) + WithoutUnderscores(b[1..])
  }

  // ---------------------------------------------------------------- words

  /** A token that is not an N-word, as `_token_re.match` sees it: an upper-case letter
      followed by a number, anything after the number ignored. */
  function MatchWord(tok: string): (w: Option<Word>)
    ensures w.Some? ==> |tok| >= 1 && 'A' <= tok[0] <= 'Z' && w.value.letter == tok[0]
    ensures w.Some? <==> MatchLength(tok) > 0
  {
    if |tok| >= 1 && 'A' <= tok[0] <= 'Z' then
      match MatchNumber(tok[1..])
      case Some(Number(v, _)) => Some(Word(tok[0], v))
      case None => None
    else None
  }

  /** Number of characters of `tok` that the word pattern consumes (0 when it fails). */
  function MatchLength(tok: string): (n: nat)
    ensures n <= |tok|
  {
    if |tok| >= 1 && 'A' <= tok[0] <= 'Z' then
      match MatchNumber(tok[1..])
      case Some(Number(_, len)) => 1 + len
      case None => 0
    else 0
  }

  /** The letters whose word sets an optional real field. */
  const ValueLetters: set<char> := {'X', 'Y', 'Z', 'F', 'S', 'I', 'J', 'K'}

  /** The letters the parser acts on; every other letter is matched and ignored. */
  const DispatchLetters: set<char> := ValueLetters + {'G', 'M', 'T'}

  function ValueField(cmd: GCodeCommand, l: char): Option<real>
    requires l in ValueLetters
  {
    match l
    case 'X' => cmd.x
    case 'Y' => cmd.y
    case 'Z' => cmd.z
    case 'F' => cmd.f
    case 'S' => cmd.s
    case 'I' => cmd.i
    case 'J' => cmd.j
    case _ => cmd.k
  }

  /** The effect of one matched `letter + number` word. */
  function Dispatch(cmd: GCodeCommand, letter: char, num: real): (next: GCodeCommand)
    ensures next.comment == cmd.comment && next.blockNumber == cmd.blockNumber
    ensures letter !in DispatchLetters ==> next == cmd
  {
    match letter
    case 'G' => cmd.(gCodes := cmd.gCodes + [Trunc(num)])
    case 'M' => cmd.(mCodes := cmd.mCodes + [Trunc(num)])
    case 'X' => cmd.(x := Some(num))
    case 'Y' => cmd.(y := Some(num))
    case 'Z' => cmd.(z := Some(num))
    case 'F' => cmd.(f := Some(num))
    case 'S' => cmd.(s := Some(num))
    case 'T' => cmd.(t := Some(Trunc(num)))
    case 'I' => cmd.(i := Some(num))
    case 'J' => cmd.(j := Some(num))
    case 'K' => cmd.(k := Some(num))
    case _ => cmd
  }

  predicate IsBlockWord(tok: string) { |tok| > 0 && tok[0] == 'N' }

  /** The effect of one whitespace-separated token on the command being built. */
  function ApplyToken(cmd: GCodeCommand, tok: string): (next: GCodeCommand)
    ensures next.comment == cmd.comment
    ensures !IsBlockWord(tok) ==> next.blockNumber == cmd.blockNumber
    ensures IsBlockWord(tok) ==> next.(blockNumber := cmd.blockNumber) == cmd
  {
    if IsBlockWord(tok) then
      match ParseInt(tok[1..])
      case Some(n) => cmd.(blockNumber := Some(n))
      case None => cmd
    else
      match MatchWord(tok)
      case Some(Word(letter, num)) => Dispatch(cmd, letter, num)
      case None => cmd
  }

  /** The tokens applied one after another, first token first. */
  function ApplyTokens(cmd: GCodeCommand, toks: seq<string>): (next: GCodeCommand)
    ensures next.comment == cmd.comment
    decreases |toks|
  {
    if toks == [] then cmd else ApplyToken(ApplyTokens(cmd, toks[..|toks| - 1]), toks[|toks| - 1])
  }

  // ---------------------------------------------------------------- comments

  function IndexOf(s: string, c: char): (r: Option<nat>)
    ensures r.Some? ==> r.value < |s| && s[r.value] == c && c !in s[..r.value]
    ensures r.None? ==> c !in s
  {
    if s == [] then None
    else if s[0] == c then Some(0)
    else match IndexOf(s[1..], c)
      case Some(i) => Some(i + 1)
      case None => None
  }

  /** Where `\(([^)]*)\)` first matches in `s`: the first `(` and the first `)` after it. */
  function CommentMatch(s: string): (m: Option<(nat, nat)>)
    ensures m.Some? ==> m.value.0 < m.value.1 < |s|
    ensures m.Some? ==> s[m.value.0] == '(' && s[m.value.1] == ')'
    ensures m.Some? ==> '(' !in s[..m.value.0] && ')' !in s[m.value.0 + 1..m.value.1]
  {
    match IndexOf(s, '(')
    case None => None
    case Some(i) =>
      match IndexOf(s[i + 1..], ')')
      case None => None
      case Some(d) => Some((i, i + 1 + d))
  }

  /** `_comment_re.sub("", s)`: every parenthesised group removed, left to right. */
  function RemoveComments(s: string): (r: string)
    ensures |r| <= |s|
    ensures CommentMatch(s).Some? ==> |r| < |s|
    decreases |s|
  {
    match CommentMatch(s)
    case None => s
    case Some((i, j)) => s[..i] + RemoveComments(s[j + 1..])
  }

  /** No `(` of `s` is followed, anywhere later, by a `)`. */
  predicate NoGroup(s: string) {
    forall a, b :: 0 <= a < b < |s| && s[a] == '(' ==> s[b] != ')'
  }

  lemma NoGroupWithoutMatch(s: string)
    requires CommentMatch(s).None?
    ensures NoGroup(s)
  {
    match IndexOf(s, '(')
    case None =>
    case Some(i) =>
      forall a, b | 0 <= a < b < |s| && s[a] == '(' ensures s[b] != ')' {
        assert s[b] == s[i + 1..][b - i - 1];
      }
  }

  lemma NoGroupAppend(head: string, tail: string)
    requires '(' !in head && NoGroup(tail)
    ensures NoGroup(head + tail)
  {
    var r := head + tail;
    forall a, b | 0 <= a < b < |r| && r[a] == '(' ensures r[b] != ')' {
      assert r[a] == tail[a - |head|] && r[b] == tail[b - |head|];
    }
  }

  /** After the comment groups are removed, no `(` is followed by a `)`. */
  lemma {:induction false} RemoveCommentsRemovesAll(s: string)
    ensures NoGroup(RemoveComments(s))
    decreases |s|
  {
    match CommentMatch(s)
    case None => NoGroupWithoutMatch(s);
    case Some((i, j)) =>
      RemoveCommentsRemovesAll(s[j + 1..]);
      NoGroupAppend(s[..i], RemoveComments(s[j + 1..]));
  }

  // ---------------------------------------------------------------- lines

  /** The line as the parser sees it: trimmed, then upper-cased. */
  function Normalize(line: string): string {
    Upper(Strip(line))
  }

  function CommentOf(norm: string): (c: Option<string>)
    ensures c.Some? <==> CommentMatch(norm).Some?
    ensures c.Some? ==> ')' !in c.value && |c.value| < |norm|
  {
    match CommentMatch(norm)
    case Some((i, j)) => Some(norm[i + 1..j])
    case None => None
  }

  /** What is left to tokenise once the comment groups are gone. */
  function BodyOf(norm: string): (body: string)
    ensures |body| <= |norm|
    ensures CommentMatch(norm).None? ==> body == norm
  {
    if CommentMatch(norm).Some? then Strip(RemoveComments(norm)) else norm
  }

  /** `GCodeParser.parse_line` as a function of the line. */
  function Parse(line: string): (cmd: GCodeCommand)
    ensures cmd.comment == CommentOf(Normalize(line))
  {
    var norm := Normalize(line);
    var cmd := EmptyCommand(CommentOf(norm));
    var body := BodyOf(norm);
    if body == [] then cmd else ApplyTokens(cmd, Words(body))
  }

  /** The assignment one address word makes to the command being built. */
  method DispatchWord(cmd: GCodeCommand, letter: char, num: real) returns (next: GCodeCommand)
    ensures next == Dispatch(cmd, letter, num)
  {
    next := cmd;
    if letter == 'G' {
      next := cmd.(gCodes := cmd.gCodes + [Trunc(num)]);
    } else if letter == 'M' {
      next := cmd.(mCodes := cmd.mCodes + [Trunc(num)]);
    } else if letter == 'X' {
      next := cmd.(x := Some(num));
    } else if letter == 'Y' {
      next := cmd.(y := Some(num));
    } else if letter == 'Z' {
      next := cmd.(z := Some(num));
    } else if letter == 'F' {
      next := cmd.(f := Some(num));
    } else if letter == 'S' {
      next := cmd.(s := Some(num));
    } else if letter == 'T' {
      next := cmd.(t := Some(Trunc(num)));
    } else if letter == 'I' {
      next := cmd.(i := Some(num));
    } else if letter == 'J' {
      next := cmd.(j := Some(num));
    } else if letter == 'K' {
      next := cmd.(k := Some(num));
    }
  }

  /** One token of `parse_line`'s loop: a block number or an address word, anything else
      left alone. */
  method ParseToken(cmd: GCodeCommand, token: string) returns (next: GCodeCommand)
    ensures next == ApplyToken(cmd, token)
  {
    next := cmd;
    if |token| > 0 && token[0] == 'N' {
      var parsed := ParseInt(token[1..]);
      if parsed.Some? {
        next := cmd.(blockNumber := Some(parsed.value));
      }
    } else {
      var word := MatchWord(token);
      if word.Some? {
        next := DispatchWord(cmd, word.value.letter, word.value.value);
      }
    }
  }

  lemma ApplyTokensPush(cmd: GCodeCommand, toks: seq<string>, tok: string)
    ensures ApplyTokens(cmd, toks + [tok]) == ApplyToken(ApplyTokens(cmd, toks), tok)
  {
    assert (toks + [tok])[..|toks|] == toks;
  }

  /** The comment capture of `parse_line` and what is left of the line without it. */
  method SplitComment(norm: string) returns (comment: Option<string>, body: string)
    ensures comment == CommentOf(norm) && body == BodyOf(norm)
  {
    comment := None;
    body := norm;
    var m := CommentMatch(norm);
    if m.Some? {
      comment := Some(norm[m.value.0 + 1..m.value.1]);
      body := Strip(RemoveComments(norm));
    }
  }

  /** `parse_line`'s loop: the tokens applied one by one, updating the command in place. */
  method ApplyAll(start: GCodeCommand, tokens: seq<string>) returns (cmd: GCodeCommand)
    ensures cmd == ApplyTokens(start, tokens)
  {
    cmd := start;
    var n := 0;
    while n < |tokens|
      invariant 0 <= n <= |tokens|
      invariant cmd == ApplyTokens(start, tokens[..n])
    {
      assert tokens[..n + 1] == tokens[..n] + [tokens[n]];
      ApplyTokensPush(start, tokens[..n], tokens[n]);
      cmd := ParseToken(cmd, tokens[n]);
      n := n + 1;
    }
    assert tokens[..n] == tokens;
  }

  /** `GCodeParser.parse_line`. */
  method ParseLine(line: string) returns (cmd: GCodeCommand)
    ensures cmd == Parse(line)
  {
    var norm := Normalize(line);
    var comment, body := SplitComment(norm);
    cmd := EmptyCommand(comment);
    if body != [] {
      cmd := ApplyAll(cmd, Words(body));
    }
  }
}

module GCodeParserProperties {
  import opened Wrappers
  import opened Numbers
  import opened Strings
  import opened GCodeParser

  /** Lower-case input parses exactly as its upper-case form. */
  lemma ParseIgnoresCase(line: string)
    ensures Parse(Upper(line)) == Parse(line)
  {
    StripUpper(line);
    UpperIsUpper(Strip(line));
  }

  /** Tokens never touch the comment. */
  lemma {:induction false} ApplyTokensKeepsComment(cmd: GCodeCommand, toks: seq<string>)
    ensures ApplyTokens(cmd, toks).comment == cmd.comment
    decreases |toks|
  {
    if toks != [] {
      ApplyTokensKeepsComment(cmd, toks[..|toks| - 1]);
    }
  }

  lemma ParseComment(line: string)
    ensures Parse(line).comment == CommentOf(Normalize(line))
  {
    var norm := Normalize(line);
    var body := BodyOf(norm);
    if body != [] {
      ApplyTokensKeepsComment(EmptyCommand(CommentOf(norm)), Words(body));
    }
  }

  lemma CommentOfUpper(norm: string)
    requires NoLower(norm)
    ensures CommentOf(norm).Some? ==> NoLower(CommentOf(norm).value) && ')' !in CommentOf(norm).value
  {
    match CommentMatch(norm)
    case None =>
    case Some((i, j)) =>
      var c := norm[i + 1..j];
      assert forall k :: 0 <= k < |c| ==> c[k] == norm[i + 1 + k];
  }

  /** The comment is the upper-cased text of the first group, and there is one exactly when
      some `(` of the normalised line is followed by a `)`. */
  lemma CommentProperties(line: string)
    ensures Parse(line).comment.None? <==> NoGroup(Normalize(line))
    ensures Parse(line).comment.Some? ==>
      NoLower(Parse(line).comment.value) && ')' !in Parse(line).comment.value
  {
    var norm := Normalize(line);
    ParseComment(line);
    UpperIsUpper(Strip(line));
    CommentOfUpper(norm);
    match CommentMatch(norm)
    case None => NoGroupWithoutMatch(norm);
    case Some((i, j)) =>
      assert norm[i] == '(' && norm[j] == ')';
  }

  /** A line with nothing left after the comment groups is the bare command. */
  lemma ParseEmptyBody(line: string)
    requires BodyOf(Normalize(line)) == []
    ensures Parse(line) == EmptyCommand(CommentOf(Normalize(line)))
  {
  }

  lemma NormalizeGroup(c: string)
    ensures Normalize("(" + c + ")") == "(" + Upper(c) + ")"
  {
    UpperAppend("(" + c, ")");
    UpperAppend("(", c);
    UpperKeeps("(");
    UpperKeeps(")");
    assert Strip("(" + c + ")") == "(" + c + ")";
  }

  lemma {:induction false} IndexOfEnd(u: string, c: char)
    requires c !in u
    ensures IndexOf(u + [c], c) == Some(|u|)
  {
    if u != [] {
      assert (u + [c])[1..] == u[1..] + [c];
      IndexOfEnd(u[1..], c);
    }
  }

  lemma CommentMatchGroup(u: string)
    requires ')' !in u
    ensures CommentMatch("(" + u + ")") == Some((0, |u| + 1))
  {
    var s := "(" + u + ")";
    assert s[1..] == u + ")";
    IndexOfEnd(u, ')');
  }

  lemma RemoveCommentsGroup(u: string)
    requires ')' !in u
    ensures RemoveComments("(" + u + ")") == []
  {
    CommentMatchGroup(u);
    var s := "(" + u + ")";
    assert s[|u| + 2..] == [];
  }

  lemma GroupPieces(u: string)
    requires ')' !in u
    ensures CommentOf("(" + u + ")") == Some(u)
    ensures BodyOf("(" + u + ")") == []
  {
    CommentMatchGroup(u);
    RemoveCommentsGroup(u);
    assert ("(" + u + ")")[1..|u| + 1] == u;
  }

  lemma OnlyCommentPieces(c: string)
    requires ')' !in c
    ensures CommentOf(Normalize("(" + c + ")")) == Some(Upper(c))
    ensures BodyOf(Normalize("(" + c + ")")) == []
  {
    UpperKeepsOthers(c, ')');
    NormalizeGroup(c);
    GroupPieces(Upper(c));
  }

  /** A line that is only a comment yields a command with nothing but that comment. */
  lemma OnlyComment(c: string)
    requires ')' !in c
    ensures Parse("(" + c + ")") == EmptyCommand(Some(Upper(c)))
  {
    OnlyCommentPieces(c);
    ParseEmptyBody("(" + c + ")");
  }
}

/** How the words of a line decide each field of the command. */
module GCodeWordProperties {
  import opened Wrappers
  import opened Numbers
  import opened Strings
  import opened GCodeParser

  /** The `letter + number` a token dispatches, if any: N-words never reach dispatch. */
  function WordOf(tok: string): (w: Option<Word>)
    ensures w.Some? ==> !IsBlockWord(tok) && MatchWord(tok) == w
  {
    if IsBlockWord(tok) then None else MatchWord(tok)
  }

  predicate SetsLetter(tok: string, l: char) {
    WordOf(tok).Some? && WordOf(tok).value.letter == l
  }

  /** A token that changes the block number: an N-word whose suffix is an integer. */
  predicate SetsBlock(tok: string) {
    IsBlockWord(tok) && ParseInt(tok[1..]).Some?
  }

  lemma ApplyTokenValue(cmd: GCodeCommand, tok: string, l: char)
    requires l in ValueLetters
    ensures ValueField(ApplyToken(cmd, tok), l)
      == if SetsLetter(tok, l) then Some(WordOf(tok).value.value) else ValueField(cmd, l)
  {
    if !IsBlockWord(tok) && MatchWord(tok).Some? {
      var w := MatchWord(tok).value;
      DispatchValue(cmd, w.letter, w.value, l);
    }
  }

  lemma DispatchValue(cmd: GCodeCommand, letter: char, num: real, l: char)
    requires l in ValueLetters
    ensures ValueField(Dispatch(cmd, letter, num), l) == if letter == l then Some(num) else ValueField(cmd, l)
  {
  }

  /** X, Y, Z, F, S, I, J and K take the number of their last word on the line. */
  lemma {:induction false} LastValueWins(cmd: GCodeCommand, toks: seq<string>, l: char, k: nat)
    requires l in ValueLetters && k < |toks| && SetsLetter(toks[k], l)
    requires forall m :: k < m < |toks| ==> !SetsLetter(toks[m], l)
    ensures ValueField(ApplyTokens(cmd, toks), l) == Some(WordOf(toks[k]).value.value)
    decreases |toks|
  {
    var last := |toks| - 1;
    ApplyTokenValue(ApplyTokens(cmd, toks[..last]), toks[last], l);
    if k < last {
      LastValueWins(cmd, toks[..last], l, k);
    }
  }

  /** A field no word names keeps its value. */
  lemma {:induction false} UnnamedValueKept(cmd: GCodeCommand, toks: seq<string>, l: char)
    requires l in ValueLetters
    requires forall m :: 0 <= m < |toks| ==> !SetsLetter(toks[m], l)
    ensures ValueField(ApplyTokens(cmd, toks), l) == ValueField(cmd, l)
    decreases |toks|
  {
    if toks != [] {
      var last := |toks| - 1;
      ApplyTokenValue(ApplyTokens(cmd, toks[..last]), toks[last], l);
      UnnamedValueKept(cmd, toks[..last], l);
    }
  }

  /** T takes the truncated number of its last word. */
  lemma {:induction false} LastToolWins(cmd: GCodeCommand, toks: seq<string>, k: nat)
    requires k < |toks| && SetsLetter(toks[k], 'T')
    requires forall m :: k < m < |toks| ==> !SetsLetter(toks[m], 'T')
    ensures ApplyTokens(cmd, toks).t == Some(Trunc(WordOf(toks[k]).value.value))
    decreases |toks|
  {
    var last := |toks| - 1;
    ApplyTokenTool(ApplyTokens(cmd, toks[..last]), toks[last]);
    if k < last {
      LastToolWins(cmd, toks[..last], k);
    }
  }

  lemma ApplyTokenTool(cmd: GCodeCommand, tok: string)
    ensures ApplyToken(cmd, tok).t
      == if SetsLetter(tok, 'T') then Some(Trunc(WordOf(tok).value.value)) else cmd.t
  {
    if !IsBlockWord(tok) && MatchWord(tok).Some? {
      var w := MatchWord(tok).value;
      assert ApplyToken(cmd, tok) == Dispatch(cmd, w.letter, w.value);
    }
  }

  /** The block number is the integer of the last well-formed N-word. */
  lemma {:induction false} LastBlockWins(cmd: GCodeCommand, toks: seq<string>, k: nat)
    requires k < |toks| && SetsBlock(toks[k])
    requires forall m :: k < m < |toks| ==> !SetsBlock(toks[m])
    ensures ApplyTokens(cmd, toks).blockNumber == ParseInt(toks[k][1..])
    decreases |toks|
  {
    var last := |toks| - 1;
    ApplyTokenBlock(ApplyTokens(cmd, toks[..last]), toks[last]);
    if k < last {
      LastBlockWins(cmd, toks[..last], k);
    }
  }

  lemma ApplyTokenBlock(cmd: GCodeCommand, tok: string)
    ensures ApplyToken(cmd, tok).blockNumber
      == if SetsBlock(tok) then ParseInt(tok[1..]) else cmd.blockNumber
  {
    if !IsBlockWord(tok) && MatchWord(tok).Some? {
      var w := MatchWord(tok).value;
      assert ApplyToken(cmd, tok) == Dispatch(cmd, w.letter, w.value);
    }
  }

  /** The truncated numbers of the `l`-words, in the order of the line, repeats kept. */
  function Codes(toks: seq<string>, l: char): (cs: seq<int>)
    ensures |cs| <= |toks|
    decreases |toks|
  {
    if toks == [] then []
    else
      var last := toks[|toks| - 1];
      Codes(toks[..|toks| - 1], l) + (if SetsLetter(last, l) then [Trunc(WordOf(last).value.value)] else [])
  }

  lemma {:induction false} CodesAppend(a: seq<string>, b: seq<string>, l: char)
    ensures Codes(a + b, l) == Codes(a, l) + Codes(b, l)
    decreases |b|
  {
    if b != [] {
      var last := |b| - 1;
      assert (a + b)[..|a + b| - 1] == a + b[..last];
      CodesAppend(a, b[..last], l);
    } else {
      assert a + b == a;
    }
  }

  /** G-words append their truncated numbers to `gCodes` in order; M-words to `mCodes`. */
  lemma {:induction false} CodesInOrder(cmd: GCodeCommand, toks: seq<string>)
    ensures ApplyTokens(cmd, toks).gCodes == cmd.gCodes + Codes(toks, 'G')
    ensures ApplyTokens(cmd, toks).mCodes == cmd.mCodes + Codes(toks, 'M')
    decreases |toks|
  {
    if toks != [] {
      var last := |toks| - 1;
      CodesInOrder(cmd, toks[..last]);
      ApplyTokenCodes(ApplyTokens(cmd, toks[..last]), toks[last]);
    }
  }

  lemma ApplyTokenCodes(cmd: GCodeCommand, tok: string)
    ensures ApplyToken(cmd, tok).gCodes
      == cmd.gCodes + if SetsLetter(tok, 'G') then [Trunc(WordOf(tok).value.value)] else []
    ensures ApplyToken(cmd, tok).mCodes
      == cmd.mCodes + if SetsLetter(tok, 'M') then [Trunc(WordOf(tok).value.value)] else []
  {
    if !IsBlockWord(tok) && MatchWord(tok).Some? {
      var w := MatchWord(tok).value;
      assert ApplyToken(cmd, tok) == Dispatch(cmd, w.letter, w.value);
    } else {
      assert cmd.gCodes + [] == cmd.gCodes && cmd.mCodes + [] == cmd.mCodes;
    }
  }

  /** A token that names no dispatched letter and is no well-formed N-word. */
  predicate Inert(tok: string) {
    !SetsBlock(tok) && (WordOf(tok).None? || WordOf(tok).value.letter !in DispatchLetters)
  }

  /** Malformed words and words of other letters (P, R, ...) change nothing, wherever they
      stand on the line. */
  lemma {:induction false} InertTokenIgnored(cmd: GCodeCommand, a: seq<string>, tok: string, b: seq<string>)
    requires Inert(tok)
    ensures ApplyTokens(cmd, a + [tok] + b) == ApplyTokens(cmd, a + b)
    decreases |b|
  {
    if b == [] {
      assert a + [tok] + b == a + [tok];
      assert a + b == a;
      ApplyTokensPush(cmd, a, tok);
      InertTokenKeeps(ApplyTokens(cmd, a), tok);
    } else {
      var last := |b| - 1;
      InertTokenIgnored(cmd, a, tok, b[..last]);
      assert a + [tok] + b == (a + [tok] + b[..last]) + [b[last]];
      assert a + b == (a + b[..last]) + [b[last]];
      ApplyTokensPush(cmd, a + [tok] + b[..last], b[last]);
      ApplyTokensPush(cmd, a + b[..last], b[last]);
    }
  }

  lemma InertTokenKeeps(cmd: GCodeCommand, tok: string)
    requires Inert(tok)
    ensures ApplyToken(cmd, tok) == cmd
  {
  }
}

/** The word pattern is anchored only at the start: what follows the number is ignored. */
module GCodeMatchProperties {
  import opened Wrappers
  import opened Numbers
  import opened Strings
  import opened GCodeParser

  lemma {:induction false} DigitRunPrefix(s: string, k: nat)
    requires DigitRun(s) <= k <= |s|
    ensures DigitRun(s[..k]) == DigitRun(s)
  {
    if s != [] && IsDigit(s[0]) {
      assert s[..k][1..] == s[1..][..k - 1];
      DigitRunPrefix(s[1..], k - 1);
    }
  }

  /** The whole part of a number with a fraction survives cutting the string after it. */
  lemma WholePiece(r: string, d1: nat, d2: nat)
    requires d1 == DigitRun(r) && d1 < |r| && r[d1] == '.'
    requires d2 <= |r| - d1 - 1
    ensures DigitRun(r[..d1 + 1 + d2]) == d1 && r[..d1 + 1 + d2][d1] == '.'
    ensures r[..d1 + 1 + d2][..d1] == r[..d1]
  {
    DigitRunPrefix(r, d1 + 1 + d2);
  }

  /** So does its fraction. */
  lemma FractionPiece(r: string, d1: nat, d2: nat)
    requires d1 < |r| && d2 == DigitRun(r[d1 + 1..])
    ensures DigitRun(r[..d1 + 1 + d2][d1 + 1..]) == d2
    ensures r[..d1 + 1 + d2][d1 + 1..][..d2] == r[d1 + 1..][..d2]
  {
    var f := r[d1 + 1..];
    assert r[..d1 + 1 + d2][d1 + 1..] == f[..d2];
    DigitRunPrefix(f, d2);
  }

  lemma UnsignedNumberPrefix(r: string)
    requires UnsignedNumber(r).Some?
    ensures UnsignedNumber(r[..UnsignedNumber(r).value.length]) == UnsignedNumber(r)
  {
    var d1 := DigitRun(r);
    if d1 < |r| && r[d1] == '.' && DigitRun(r[d1 + 1..]) > 0 {
      var d2 := DigitRun(r[d1 + 1..]);
      FractionalValue(r, d1, d2);
      FractionalCut(r, d1, d2);
      assert UnsignedNumber(r).value.length == d1 + 1 + d2;
    } else {
      assert UnsignedNumber(r).value.length == d1;
      DigitRunPrefix(r, d1);
      assert r[..d1][..d1] == r[..d1];
    }
  }

  /** Cutting `r` right after its fraction digits leaves the same reading. */
  lemma FractionalCut(r: string, d1: nat, d2: nat)
    requires d1 == DigitRun(r) && d1 < |r| && r[d1] == '.'
    requires d2 == DigitRun(r[d1 + 1..]) && d2 > 0
    ensures UnsignedNumber(r[..d1 + 1 + d2]) == Some(Number(PointValue(r[..d1], r[d1 + 1..][..d2]), d1 + 1 + d2))
  {
    var p := r[..d1 + 1 + d2];
    WholePiece(r, d1, d2);
    FractionPiece(r, d1, d2);
    FractionalValue(p, d1, d2);
  }

  /** The value of whole digits `w` followed by a point and fraction digits `f`. */
  function PointValue(w: string, f: string): real
    requires AllDigits(w) && AllDigits(f)
  {
    DigitsValue(w) as real + FractionValue(f)
  }

  /** What `UnsignedNumber` reads when a fractional part follows the whole digits. */
  lemma FractionalValue(x: string, d1: nat, d2: nat)
    requires d1 == DigitRun(x) && d1 < |x| && x[d1] == '.'
    requires d2 == DigitRun(x[d1 + 1..]) && d2 > 0
    ensures UnsignedNumber(x) == Some(Number(PointValue(x[..d1], x[d1 + 1..][..d2]), d1 + 1 + d2))
  {
  }

  lemma MatchNumberPrefix(s: string)
    requires MatchNumber(s).Some?
    ensures MatchNumber(s[..MatchNumber(s).value.length]) == MatchNumber(s)
  {
    var n := MatchNumber(s).value.length;
    var sl := SignLength(s);
    var r := s[sl..];
    var u := UnsignedNumber(r).value;
    assert n == sl + u.length;
    assert SignLength(s[..n]) == sl && SignFactor(s[..n]) == SignFactor(s);
    UnsignedNumberPrefix(r);
    assert s[..n][sl..] == r[..u.length];
  }

  /** A word reads the same once everything after its number is cut off. */
  lemma TrailingIgnored(tok: string)
    ensures MatchWord(tok[..MatchLength(tok)]) == MatchWord(tok)
  {
    if MatchWord(tok).Some? {
      var n := MatchLength(tok);
      MatchNumberPrefix(tok[1..]);
      assert tok[..n][1..] == tok[1..][..n - 1];
    }
  }
}

/** How well-formed words and comment-free lines are read. */
module GCodeWordForms {
  import opened Wrappers
  import opened Numbers
  import opened Strings
  import opened GCodeParser

  predicate NoSpace(w: string) {
    forall i :: 0 <= i < |w| ==> !IsSpace(w[i])
  }

  lemma {:induction false} WordLengthOf(w: string, rest: string)
    requires NoSpace(w)
    requires rest == [] || IsSpace(rest[0])
    ensures WordLength(w + rest) == |w|
  {
    if w != [] {
      assert (w + rest)[1..] == w[1..] + rest;
      WordLengthOf(w[1..], rest);
    } else {
      assert w + rest == rest;
    }
  }

  lemma WordsCons(w: string, rest: string)
    requires w != [] && NoSpace(w)
    ensures Words(w + " " + rest) == [w] + Words(rest)
  {
    var s := w + " " + rest;
    WordLengthOf(w, " " + rest);
    assert s == w + (" " + rest);
    assert s[..|w|] == w;
    assert s[|w|..] == " " + rest;
    assert (" " + rest)[1..] == rest;
  }

  lemma WordsOne(w: string)
    requires w != [] && NoSpace(w)
    ensures Words(w) == [w]
  {
    WordLengthOf(w, []);
    assert w + [] == w;
  }

  lemma {:induction false} DigitRunOf(a: string, rest: string)
    requires AllDigits(a)
    requires rest == [] || !IsDigit(rest[0])
    ensures DigitRun(a + rest) == |a|
  {
    if a != [] {
      assert (a + rest)[1..] == a[1..] + rest;
      DigitRunOf(a[1..], rest);
    } else {
      assert a + rest == rest;
    }
  }

  lemma IntegerUnsigned(a: string)
    requires a != [] && AllDigits(a)
    ensures UnsignedNumber(a).Some?
    ensures UnsignedNumber(a).value.value == DigitsValue(a) as real
  {
    DigitRunOf(a, []);
    assert a + [] == a;
    assert a[..|a|] == a;
  }

  /** A word `letter` followed by the digits `a`. */
  lemma IntegerWord(tok: string, a: string)
    requires |tok| > 0 && 'A' <= tok[0] <= 'Z' && tok[1..] == a && a != [] && AllDigits(a)
    ensures MatchWord(tok).Some? && MatchWord(tok).value.letter == tok[0]
    ensures MatchWord(tok).value.value == DigitsValue(a) as real
  {
    assert a[0..] == a;
    IntegerUnsigned(a);
  }

  lemma DecimalPieces(r: string, a: string, b: string)
    requires a != [] && AllDigits(a) && b != [] && AllDigits(b) && r == a + "." + b
    ensures DigitRun(r) == |a| && r[..|a|] == a && r[|a|] == '.'
    ensures DigitRun(r[|a| + 1..]) == |b| && r[|a| + 1..][..|b|] == b
  {
    assert r == a + ("." + b);
    DigitRunOf(a, "." + b);
    assert r[|a| + 1..] == b;
    DigitRunOf(b, []);
    assert b + [] == b;
  }

  lemma DecimalUnsigned(r: string, a: string, b: string)
    requires a != [] && AllDigits(a) && b != [] && AllDigits(b) && r == a + "." + b
    ensures UnsignedNumber(r).Some?
    ensures UnsignedNumber(r).value.value == DigitsValue(a) as real + FractionValue(b)
    ensures UnsignedNumber(r).value.length == |r|
  {
    DecimalPieces(r, a, b);
  }

  /** A word `letter` followed by `a.b`. */
  lemma DecimalWord(tok: string, a: string, b: string)
    requires |tok| > 0 && 'A' <= tok[0] <= 'Z' && tok[1..] == a + "." + b
    requires a != [] && AllDigits(a) && b != [] && AllDigits(b)
    ensures MatchWord(tok).Some? && MatchWord(tok).value.letter == tok[0]
    ensures MatchWord(tok).value.value == DigitsValue(a) as real + FractionValue(b)
  {
    var r := tok[1..];
    assert r[0] == a[0];
    assert r[0..] == r;
    DecimalUnsigned(r, a, b);
  }

  lemma {:induction false} WithoutUnderscoresDigits(a: string)
    requires AllDigits(a)
    ensures WithoutUnderscores(a) == a
  {
    if a != [] {
      WithoutUnderscoresDigits(a[1..]);
      assert a == [a[0]] + a[1..];
    }
  }

  /** The suffix of an N-word made of digits only, leading zeros allowed. */
  lemma BlockDigits(a: string)
    requires a != [] && AllDigits(a)
    ensures ParseInt(a) == Some(DigitsValue(a) as int)
  {
    assert SignLength(a) == 0 && a[0..] == a;
    WithoutUnderscoresDigits(a);
  }

  lemma NormalizeKeeps(line: string)
    requires line != [] && !IsSpace(line[0]) && !IsSpace(line[|line| - 1]) && NoLower(line)
    ensures Normalize(line) == line
  {
    assert LStrip(line) == line;
    assert RStrip(line) == line;
    UpperKeeps(line);
  }

  /** A line without `(` is tokenised whole and has no comment. */
  lemma ParseWithoutComment(line: string)
    requires line != [] && !IsSpace(line[0]) && !IsSpace(line[|line| - 1]) && NoLower(line)
    requires '(' !in line
    ensures Parse(line) == ApplyTokens(EmptyCommand(None), Words(line))
  {
    NormalizeKeeps(line);
    assert IndexOf(line, '(') == None;
  }
}

=== FILE: json.dfy ===
/** The JSON-like values that arrive as telemetry data: Python's `None`, `bool`, `int`,
    `float`, `str`, `list` and `dict` with string keys. */
module JsonValues {

  datatype Json =
    | JNull
    | JBool(b: bool)
    | JInt(i: int)
    | JFloat(f: real)
    | JString(s: string)
    | JArray(items: seq<Json>)
    | JObject(fields: map<string, Json>)

  /** `isinstance(v, (int, float))`: `bool` is a subclass of `int`, so it counts. */
  predicate IsNumber(v: Json) {
    v.JBool? || v.JInt? || v.JFloat?
  }

  /** `float(v)` for a value that `IsNumber` accepts. */
  function AsFloat(v: Json): (r: real)
    requires IsNumber(v)
    ensures v.JBool? ==> r == if v.b then 1.0 else 0.0
    ensures v.JInt? ==> r == v.i as real
    ensures v.JFloat? ==> r == v.f
  {
    match v
    case JBool(b) => if b then 1.0 else 0.0
    case JInt(i) => i as real
    case JFloat(f) => f
  }
}

=== FILE: mqtt_publisher.dfy ===
/** The telemetry publisher: messages published while disconnected wait in a queue and are
    flushed, oldest first, on the next connect. The broker client is modelled as the log of
    (topic, message, qos) triples it was asked to publish; messages are opaque strings (the
    JSON encoding of a payload). */
module MqttPublisher {

  /** One publish call made on the broker client. */
  datatype Sent = Sent(topic: string, message: string, qos: int)

  /** The topic a machine publishes telemetry on. */
  function Topic(machineId: string): (t: string)
    ensures |t| == |machineId| + 17
    ensures t[..7] == "dt/cnc/" && t[|t| - 10..] == "/telemetry"
    ensures t[7..7 + |machineId|] == machineId
  {
    "dt/cnc/" + machineId + "/telemetry"
  }

  /** What flushing `pending` sends: each message in order, on `topic`, at qos 0. */
  function Flushed(topic: string, pending: seq<string>): (s: seq<Sent>)
    ensures |s| == |pending|
    ensures forall i :: 0 <= i < |pending| ==> s[i] == Sent(topic, pending[i], 0)
  {
    seq(|pending|, i requires 0 <= i < |pending| => Sent(topic, pending[i], 0))
  }

  /** The messages of a publish log, in order. */
  function Messages(log: seq<Sent>): (ms: seq<string>)
    ensures |ms| == |log|
    ensures forall i :: 0 <= i < |log| ==> ms[i] == log[i].message
  {
    seq(|log|, i requires 0 <= i < |log| => log[i].message)
  }

  lemma MessagesAppend(a: seq<Sent>, b: seq<Sent>)
    ensures Messages(a + b) == Messages(a) + Messages(b)
  {
  }

  lemma MessagesFlushed(topic: string, pending: seq<string>)
    ensures Messages(Flushed(topic, pending)) == pending
  {
  }

  class MQTTPublisher {
    const machineId: string
    var queue: seq<string>
    var connected: bool
    /** The broker client's record of what it was asked to publish. */
    var published: seq<Sent>
    /** Every message handed to `Publish`, in order. */
    ghost var accepted: seq<string>

    /** Nothing waits while connected, and no message is lost, duplicated or reordered: the
        messages sent so far followed by the queue are exactly the messages accepted. */
    ghost predicate Valid()
      reads this
    {
      && (connected ==> queue == [])
      && Messages(published) + queue == accepted
    }

    constructor (machineId: string)
      ensures Valid()
      ensures this.machineId == machineId
      ensures queue == [] && !connected && published == [] && accepted == []
    {
      this.machineId := machineId;
      queue := [];
      connected := false;
      published := [];
      accepted := [];
    }

    /** Sends `message` now when connected, with the caller's qos; otherwise queues it. */
    method Publish(message: string, qos: int)
      requires Valid()
      modifies this
      ensures Valid()
      ensures connected == old(connected) && accepted == old(accepted) + [message]
      ensures old(connected) ==> published == old(published) + [Sent(Topic(machineId), message, qos)]
      ensures old(connected) ==> queue == old(queue)
      ensures !old(connected) ==> queue == old(queue) + [message] && published == old(published)
    {
      accepted := accepted + [message];
      if !connected {
        queue := queue + [message];
        return;
      }
      MessagesAppend(published, [Sent(Topic(machineId), message, qos)]);
      published := published + [Sent(Topic(machineId), message, qos)];
    }

    method QueueSize() returns (n: nat)
      ensures n == |queue|
    {
      n := |queue|;
    }

    /** Marks the publisher connected and flushes the queue. */
    method Connect()
      requires Valid()
      modifies this
      ensures Valid()
      ensures connected && queue == [] && accepted == old(accepted)
      ensures published == old(published) + Flushed(Topic(machineId), old(queue))
    {
      connected := true;
      FlushQueue();
    }

    method Disconnect()
      requires Valid()
      modifies this
      ensures Valid()
      ensures !connected
      ensures queue == old(queue) && published == old(published) && accepted == old(accepted)
    {
      connected := false;
    }

    /** Empties the queue, sending each pending message in FIFO order at qos 0. */
    method FlushQueue()
      requires Messages(published) + queue == accepted
      modifies this
      ensures Valid()
      ensures queue == []
      ensures connected == old(connected) && accepted == old(accepted)
      ensures published == old(published) + Flushed(Topic(machineId), old(queue))
    {
      if queue == [] {
        return;
      }
      var pending := queue;
      queue := [];
      var i := 0;
      while i < |pending|
        invariant 0 <= i <= |pending|
        invariant queue == [] && connected == old(connected) && accepted == old(accepted)
        invariant published == old(published) + Flushed(Topic(machineId), pending[..i])
      {
        assert pending[..i + 1] == pending[..i] + [pending[i]];
        published := published + [Sent(Topic(machineId), pending[i], 0)];
        i := i + 1;
      }
      assert pending[..i] == pending;
      MessagesAppend(old(published), Flushed(Topic(machineId), pending));
      MessagesFlushed(Topic(machineId), pending);
    }
  }
}

module MqttPublisherScenarios {
  import opened MqttPublisher

  /** A message published before the first connect is queued, then sent at qos 0 on
      connect, leaving the queue empty. */
  method BufferedPublishFlushesOnConnect(machineId: string, message: string, qos: int)
    returns (sizeBefore: nat, sizeAfter: nat, log: seq<Sent>)
    ensures sizeBefore == 1 && sizeAfter == 0
    ensures log == [Sent(Topic(machineId), message, 0)]
  {
    var p := new MQTTPublisher(machineId);
    p.Publish(message, qos);
    sizeBefore := p.QueueSize();
    p.Connect();
    sizeAfter := p.QueueSize();
    log := p.published;
  }

  /** After a disconnect, publishing buffers again and sends nothing. */
  method DisconnectBuffersAgain(machineId: string, first: string, second: string)
    returns (log: seq<Sent>, queued: seq<string>)
    ensures log == [Sent(Topic(machineId), first, 1)]
    ensures queued == [second]
  {
    var p := new MQTTPublisher(machineId);
    p.Connect();
    p.Publish(first, 1);
    p.Disconnect();
    p.Publish(second, 1);
    log := p.published;
    queued := p.queue;
  }
}

=== FILE: numbers.dfy ===
/** Python's `int()` applied to a float, and the few facts about products of reals that
    the solver does not find on its own. */
module Numbers {

  /** `int(x)` on a float: truncation toward zero. */
  function Trunc(r: real): (n: int)
    ensures r >= 0.0 ==> n as real <= r < n as real + 1.0
    ensures r < 0.0 ==> n as real - 1.0 < r <= n as real
  {
    if r >= 0.0 then r.Floor else -((-r).Floor)
  }

  lemma MulNonNegative(x: real, y: real)
    requires x >= 0.0 && y >= 0.0
    ensures x * y >= 0.0
  {
  }

  lemma MulPositive(x: real, y: real)
    requires x > 0.0 && y > 0.0
    ensures x * y > 0.0
  {
  }

  lemma MulMonotone(a: real, b: real, k: real)
    requires a <= b && k >= 0.0
    ensures a * k <= b * k
  {
    assert b * k - a * k == (b - a) * k;
  }

  lemma MulStrict(n: real, a: real, b: real)
    requires n > 0.0 && a < b
    ensures n * a < n * b
  {
    assert n * b - n * a == n * (b - a);
  }

  /** Squaring preserves the order of non-negative reals, in both directions. */
  lemma SquareLe(x: real, y: real)
    requires x >= 0.0 && y >= 0.0
    ensures x <= y <==> x * x <= y * y
  {
    if x <= y {
      MulMonotone(x, y, x);
      MulMonotone(x, y, y);
    } else {
      MulStrict(x - y, 0.0, x + y);
      assert x * x - y * y == (x - y) * (x + y);
    }
  }
}

=== FILE: ordered_dict.dfy ===
/** Python's `dict`: a finite map that remembers the order in which keys were first
    inserted. Overwriting a key keeps its place; deleting it drops it from the order. */
module OrderedDicts {
  import opened Wrappers

  predicate Distinct<K(==,!new)>(s: seq<K>) {
    forall i, j :: 0 <= i < j < |s| ==> s[i] != s[j]
  }

  datatype ODict<K(==,!new), V> = ODict(keys: seq<K>, m: map<K, V>) {

    /** Every key occurs once in the order, and the order lists exactly the mapped keys. */
    ghost predicate Valid() {
      Distinct(keys) && forall k :: k in m <==> k in keys
    }

    function Get(k: K): (r: Option<V>)
      ensures r.Some? <==> k in m
      ensures r.Some? ==> r.value == m[k]
    {
      if k in m then Some(m[k]) else None
    }

    /** `d.get(k, default)`. */
    function GetOr(k: K, default: V): (r: V)
      ensures k in m ==> r == m[k]
      ensures k !in m ==> r == default
    {
      if k in m then m[k] else default
    }

    /** `d[k] = v`: a new key goes to the end, an existing key keeps its place. */
    function Put(k: K, v: V): (d: ODict<K, V>)
      requires Valid()
      ensures d.Valid()
      ensures d.m == m[k := v]
      ensures k in m ==> d.keys == keys
      ensures k !in m ==> d.keys == keys + [k]
    {
      if k in m then ODict(keys, m[k := v]) else ODict(keys + [k], m[k := v])
    }

    /** `d.pop(k, None)`: removes `k` if present, and nothing else. */
    function Remove(k: K): (d: ODict<K, V>)
      requires Valid()
      ensures d.Valid()
      ensures d.m == m - {k}
      ensures d.keys == Without(keys, k)
    {
      WithoutKeepsOthers(keys, k);
      ODict(Without(keys, k), m - {k})
    }

    /** `list(d.values())`, in key order. */
    function Values(): (vs: seq<V>)
      requires Valid()
      ensures |vs| == |keys|
      ensures forall i :: 0 <= i < |keys| ==> vs[i] == m[keys[i]]
    {
      seq(|keys|, i requires 0 <= i < |keys| => m[keys[i]])
    }
  }

  function Empty<K(==,!new), V>(): (d: ODict<K, V>)
    ensures d.Valid() && d.keys == [] && d.m == map[]
  {
    ODict([], map[])
  }

  /** The order with one key taken out, everything else in place. */
  function Without<K(==,!new)>(s: seq<K>, k: K): (r: seq<K>)
    ensures |r| <= |s|
  {
    if s == [] then []
    else if s[0] == k then Without(s[1..], k)
    else [s[0]] + Without(s[1..], k)
  }

  lemma {:induction false} WithoutKeepsOthers<K(!new)>(s: seq<K>, k: K)
    requires Distinct(s)
    ensures Distinct(Without(s, k))
    ensures forall x :: x in Without(s, k) <==> x in s && x != k
    ensures k in s ==> |Without(s, k)| == |s| - 1
    ensures k !in s ==> Without(s, k) == s
  {
    if s != [] {
      assert Distinct(s[1..]) by {
        forall i, j | 0 <= i < j < |s[1..]| ensures s[1..][i] != s[1..][j] {
          assert s[1..][i] == s[i + 1] && s[1..][j] == s[j + 1];
        }
      }
      WithoutKeepsOthers(s[1..], k);
      assert s == [s[0]] + s[1..];
      assert s[0] !in s[1..] by {
        forall i | 0 <= i < |s[1..]| ensures s[1..][i] != s[0] {
          assert s[1..][i] == s[i + 1];
        }
      }
    }
  }
}

=== FILE: predictor.dfy ===
/** Predictive maintenance: a remaining-useful-life estimate for the tool, a health score for
    the spindle, and the two-entry maintenance schedule built from them. Times are seconds on
    the caller's UTC clock. */
module Predictor {

  datatype PredictorConfig = PredictorConfig(
    safetyFactor: real,
    maxToolLifeMinutes: real,
    spindleTempLimitC: real,
    spindleVibrationLimit: real)

  const DefaultConfig := PredictorConfig(0.9, 300.0, 80.0, 6.0)

  function Min(a: real, b: real): real { if a <= b then a else b }
  function Max(a: real, b: real): real { if a >= b then a else b }

  /** The response schema's bounds on a tool estimate. */
  datatype ToolRul = ToolRul(machineId: string, minutesRemaining: real, confidence: real)
  {
    predicate Valid() {
      minutesRemaining >= 0.0 && 0.0 <= confidence <= 1.0
    }
  }

  /** The response schema's bounds on a spindle assessment. */
  datatype SpindleHealth = SpindleHealth(machineId: string, healthScore: real, daysToMaintenance: real)
  {
    predicate Valid() {
      0.0 <= healthScore <= 100.0 && daysToMaintenance >= 0.0
    }
  }

  /** Wear as a fraction of a worn-out tool, clamped to [0, 1]. */
  function WearFactor(wearPercent: real): (f: real)
    ensures 0.0 <= f <= 1.0
    ensures 0.0 <= wearPercent <= 100.0 ==> f * 100.0 == wearPercent
  {
    Max(0.0, Min(100.0, wearPercent)) / 100.0
  }

  function BaseLife(cfg: PredictorConfig): real {
    cfg.maxToolLifeMinutes * cfg.safetyFactor
  }

  /** Cutting speed relative to 300 m/min, clamped below at 0. */
  function SpeedFactor(speedMMin: real): (f: real)
    ensures f >= 0.0
  {
    Max(0.0, speedMMin) / 300.0
  }

  /** Minutes of life used up by runtime, wear and cutting speed. */
  function Consumed(cfg: PredictorConfig, wearPercent: real, runtimeMinutes: real, speedMMin: real): real {
    runtimeMinutes * 0.6 + WearFactor(wearPercent) * BaseLife(cfg) + SpeedFactor(speedMMin) * 20.0
  }

  /** `predict_tool_rul`. */
  function PredictToolRul(cfg: PredictorConfig, wearPercent: real, runtimeMinutes: real,
                          speedMMin: real, machineId: string): (r: ToolRul)
    ensures r.Valid() && r.machineId == machineId
    ensures r.confidence >= 0.3
    ensures r.minutesRemaining == 0.0 || r.minutesRemaining + Consumed(cfg, wearPercent, runtimeMinutes, speedMMin) == BaseLife(cfg)
    ensures r.minutesRemaining >= BaseLife(cfg) - Consumed(cfg, wearPercent, runtimeMinutes, speedMMin)
  {
    var wf := WearFactor(wearPercent);
    ToolRul(machineId,
            Max(0.0, BaseLife(cfg) - Consumed(cfg, wearPercent, runtimeMinutes, speedMMin)),
            Max(0.3, 1.0 - wf))
  }

  /** `predict_spindle_health`. A zero limit would divide by zero in the original, so both
      limits must be non-zero. */
  function PredictSpindleHealth(cfg: PredictorConfig, machineId: string, vibrationMmS: real,
                                temperatureC: real, trendSlope: real): (h: SpindleHealth)
    requires cfg.spindleVibrationLimit != 0.0 && cfg.spindleTempLimitC != 0.0
    ensures h.machineId == machineId
    ensures h.healthScore >= 0.0 && h.daysToMaintenance >= 0.0
    ensures h.daysToMaintenance * 5.0 == h.healthScore
  {
    var vibRatio := Min(1.0, vibrationMmS / cfg.spindleVibrationLimit);
    var tempRatio := Min(1.0, temperatureC / cfg.spindleTempLimitC);
    var trendPenalty := Min(1.0, Max(0.0, trendSlope) * 0.1);
    var score := Max(0.0, 100.0 * (1.0 - (0.5 * vibRatio + 0.4 * tempRatio + 0.1 * trendPenalty)));
    SpindleHealth(machineId, score, Max(0.0, score / 5.0))
  }

  datatype Urgency = Low | Medium | High

  function UrgencyRank(u: Urgency): int {
    match u
    case Low => 0
    case Medium => 1
    case High => 2
  }

  function ToolUrgency(minutesRemaining: real): Urgency {
    if minutesRemaining < 30.0 then High else if minutesRemaining < 120.0 then Medium else Low
  }

  function SpindleUrgency(healthScore: real): Urgency {
    if healthScore < 40.0 then High else if healthScore < 70.0 then Medium else Low
  }

  datatype MaintenancePrediction = MaintenancePrediction(
    component: string,
    action: string,
    urgency: Urgency,
    estimatedTime: real,
    confidence: real)

  datatype MaintenanceSchedule = MaintenanceSchedule(machineId: string, predictions: seq<MaintenancePrediction>)

  const SecondsPerMinute := 60.0
  const SecondsPerDay := 86400.0

  /** `build_maintenance_schedule` at wall-clock time `now`. */
  function BuildSchedule(machineId: string, rul: ToolRul, health: SpindleHealth, now: real)
    : (s: MaintenanceSchedule)
    ensures s.machineId == machineId && |s.predictions| == 2
    ensures s.predictions[0].confidence == rul.confidence && s.predictions[1].confidence == 0.7
    ensures s.predictions[0].component == "Tool" && s.predictions[0].action == "Replace"
    ensures s.predictions[0].urgency == ToolUrgency(rul.minutesRemaining)
    ensures s.predictions[1].component == "Spindle Bearings" && s.predictions[1].action == "Inspect"
    ensures s.predictions[1].urgency == SpindleUrgency(health.healthScore)
    ensures rul.Valid() && health.Valid() ==>
      s.predictions[0].estimatedTime >= now && s.predictions[1].estimatedTime >= now
  {
    MaintenanceSchedule(machineId, [
      MaintenancePrediction("Tool", "Replace", ToolUrgency(rul.minutesRemaining),
                            now + rul.minutesRemaining * SecondsPerMinute, rul.confidence),
      MaintenancePrediction("Spindle Bearings", "Inspect", SpindleUrgency(health.healthScore),
                            now + health.daysToMaintenance * SecondsPerDay, 0.7)])
  }
}

module PredictorProperties {
  import opened Numbers
  import opened Predictor

  /** Wear below 0 estimates like 0 and wear above 100 like 100; a negative cutting speed
      estimates like 0. */
  lemma ToolRulClamps(cfg: PredictorConfig, wear: real, runtime: real, speed: real, id: string)
    ensures wear < 0.0 ==> PredictToolRul(cfg, wear, runtime, speed, id) == PredictToolRul(cfg, 0.0, runtime, speed, id)
    ensures wear > 100.0 ==> PredictToolRul(cfg, wear, runtime, speed, id) == PredictToolRul(cfg, 100.0, runtime, speed, id)
    ensures speed < 0.0 ==> PredictToolRul(cfg, wear, runtime, speed, id) == PredictToolRul(cfg, wear, runtime, 0.0, id)
  {
  }

  /** With a non-negative base life and runtime, the estimate never exceeds the base life. */
  lemma ToolRulAtMostBaseLife(cfg: PredictorConfig, wear: real, runtime: real, speed: real, id: string)
    requires BaseLife(cfg) >= 0.0 && runtime >= 0.0
    ensures PredictToolRul(cfg, wear, runtime, speed, id).minutesRemaining <= BaseLife(cfg)
  {
    MulMonotone(0.0, WearFactor(wear), BaseLife(cfg));
    assert Consumed(cfg, wear, runtime, speed) >= 0.0;
  }

  lemma WearFactorMonotone(w1: real, w2: real)
    requires w1 <= w2
    ensures WearFactor(w1) <= WearFactor(w2)
  {
  }

  /** More wear, more runtime or a faster cut never leaves more life. */
  lemma ToolRulMonotone(cfg: PredictorConfig, w1: real, w2: real, r1: real, r2: real,
                        s1: real, s2: real, id: string)
    requires BaseLife(cfg) >= 0.0
    requires w1 <= w2 && r1 <= r2 && s1 <= s2
    ensures PredictToolRul(cfg, w2, r2, s2, id).minutesRemaining <= PredictToolRul(cfg, w1, r1, s1, id).minutesRemaining
    ensures PredictToolRul(cfg, w2, r2, s2, id).confidence <= PredictToolRul(cfg, w1, r1, s1, id).confidence
  {
    var k := BaseLife(cfg);
    WearFactorMonotone(w1, w2);
    MulMonotone(WearFactor(w1), WearFactor(w2), k);
    MulMonotone(SpeedFactor(s1), SpeedFactor(s2), 20.0);
    MulMonotone(r1, r2, 0.6);
    SumMonotone(r1 * 0.6, r2 * 0.6, WearFactor(w1) * k, WearFactor(w2) * k,
                SpeedFactor(s1) * 20.0, SpeedFactor(s2) * 20.0);
  }

  lemma SumMonotone(x1: real, x2: real, y1: real, y2: real, z1: real, z2: real)
    requires x1 <= x2 && y1 <= y2 && z1 <= z2
    ensures x1 + y1 + z1 <= x2 + y2 + z2
  {
  }

  /** Default settings give a base life of 270 minutes; at 50 minutes and 150 m/min, wear 10
      leaves 203 minutes and wear 80 only 14. */
  lemma ToolRulWearExample()
    ensures BaseLife(DefaultConfig) == 270.0
    ensures PredictToolRul(DefaultConfig, 10.0, 50.0, 150.0, "").minutesRemaining == 203.0
    ensures PredictToolRul(DefaultConfig, 80.0, 50.0, 150.0, "").minutesRemaining == 14.0
    ensures PredictToolRul(DefaultConfig, 80.0, 50.0, 150.0, "").confidence == 0.3
  {
  }

  /** Non-negative readings and positive limits keep the score within the schema's [0, 100];
      an idle, cold spindle with no trend scores exactly 100. */
  lemma HealthWithinSchema(cfg: PredictorConfig, id: string, vibration: real, temperature: real, trend: real)
    requires cfg.spindleVibrationLimit > 0.0 && cfg.spindleTempLimitC > 0.0
    requires vibration >= 0.0 && temperature >= 0.0
    ensures PredictSpindleHealth(cfg, id, vibration, temperature, trend).Valid()
    ensures vibration == 0.0 && temperature == 0.0 && trend <= 0.0 ==>
      PredictSpindleHealth(cfg, id, vibration, temperature, trend).healthScore == 100.0
  {
    assert vibration / cfg.spindleVibrationLimit >= 0.0;
    assert temperature / cfg.spindleTempLimitC >= 0.0;
  }

  /** Readings at or past both limits with a trend of 10 or more leave no health. */
  lemma HealthExhausted(cfg: PredictorConfig, id: string, vibration: real, temperature: real, trend: real)
    requires cfg.spindleVibrationLimit > 0.0 && cfg.spindleTempLimitC > 0.0
    requires vibration >= cfg.spindleVibrationLimit && temperature >= cfg.spindleTempLimitC && trend >= 10.0
    ensures PredictSpindleHealth(cfg, id, vibration, temperature, trend).healthScore == 0.0
  {
    assert vibration / cfg.spindleVibrationLimit >= 1.0;
    assert temperature / cfg.spindleTempLimitC >= 1.0;
  }

  /** Less remaining life or less health never lowers urgency, and the thresholds are
      strict: 30 minutes and 40 points are no longer high. */
  lemma UrgencyMonotone(a: real, b: real)
    requires a <= b
    ensures UrgencyRank(ToolUrgency(a)) >= UrgencyRank(ToolUrgency(b))
    ensures UrgencyRank(SpindleUrgency(a)) >= UrgencyRank(SpindleUrgency(b))
    ensures ToolUrgency(30.0) == Medium && ToolUrgency(120.0) == Low
    ensures SpindleUrgency(40.0) == Medium && SpindleUrgency(70.0) == Low
  {
  }

  /** The schedule for a worn tool and a healthy spindle: replace the tool urgently, within
      14 minutes, and inspect the bearings at low urgency in 20 days. */
  lemma ScheduleExample(now: real)
    ensures var rul := PredictToolRul(DefaultConfig, 80.0, 50.0, 150.0, "CNC-001");
      var health := PredictSpindleHealth(DefaultConfig, "CNC-001", 0.0, 0.0, 0.0);
      var s := BuildSchedule("CNC-001", rul, health, now);
      && s.predictions[0].urgency == High && s.predictions[0].estimatedTime == now + 840.0
      && s.predictions[1].urgency == Low && s.predictions[1].estimatedTime == now + 20.0 * 86400.0
  {
    ToolRulWearExample();
    HealthWithinSchema(DefaultConfig, "CNC-001", 0.0, 0.0, 0.0);
  }
}

=== FILE: rate_limit.dfy ===
/** The API's token-bucket rate limiter: each call first refills the bucket for the time
    elapsed since the previous call, capped at the capacity, then takes `amount` tokens if
    that many are available. The monotonic clock is a parameter. */
module RateLimit {
  import opened Numbers

  /** The token level after refilling for `elapsed` seconds. */
  function Refilled(capacity: int, refillPerSec: real, tokens: real, elapsed: real): (r: real)
    ensures r <= capacity as real
    ensures r == capacity as real || r == tokens + elapsed * refillPerSec
    ensures r <= tokens + elapsed * refillPerSec
  {
    var t := tokens + elapsed * refillPerSec;
    if (capacity as real) < t then capacity as real else t
  }

  class TokenBucket {
    const capacity: int
    const refillPerSec: real
    var tokens: real
    var lastRefill: real

    /** The level lies between empty and full, and time only ever adds tokens. */
    ghost predicate Valid()
      reads this
    {
      0.0 <= tokens <= capacity as real && refillPerSec >= 0.0
    }

    /** A full bucket whose refill clock starts at `now`. */
    constructor (capacity: int, refillPerSec: real, now: real)
      ensures this.capacity == capacity && this.refillPerSec == refillPerSec
      ensures tokens == capacity as real && lastRefill == now
      ensures capacity >= 0 && refillPerSec >= 0.0 ==> Valid()
    {
      this.capacity := capacity;
      this.refillPerSec := refillPerSec;
      tokens := capacity as real;
      lastRefill := now;
    }

    /** Refills, then grants the request iff the refilled level covers `amount`, deducting
        exactly `amount` on success and nothing on refusal. The clock moves to `now` either
        way. */
    method Allow(now: real, amount: int) returns (granted: bool)
      modifies this
      ensures lastRefill == now
      ensures (granted, tokens)
        == AllowStep(capacity, refillPerSec, old(tokens), old(lastRefill), now, amount)
      ensures old(Valid()) && amount >= 0 && now >= old(lastRefill) ==> Valid()
    {
      var elapsed := now - lastRefill;
      if elapsed >= 0.0 && refillPerSec >= 0.0 {
        MulNonNegative(elapsed, refillPerSec);
      }
      lastRefill := now;
      tokens := Refilled(capacity, refillPerSec, tokens, elapsed);
      if tokens >= amount as real {
        tokens := tokens - amount as real;
        return true;
      }
      return false;
    }
  }

  /** The token level and verdict of one `Allow` call, as a function of the state before. */
  function AllowStep(capacity: int, refillPerSec: real, tokens: real, lastRefill: real,
                     now: real, amount: int): (r: (bool, real))
    ensures r.0 <==> Refilled(capacity, refillPerSec, tokens, now - lastRefill) >= amount as real
    ensures r.0 ==> r.1 + amount as real == Refilled(capacity, refillPerSec, tokens, now - lastRefill)
    ensures !r.0 ==> r.1 < amount as real
  {
    var t := Refilled(capacity, refillPerSec, tokens, now - lastRefill);
    if t >= amount as real then (true, t - amount as real) else (false, t)
  }
}

module RateLimitProperties {
  import opened Numbers
  import opened RateLimit

  /** For a non-negative request the bucket never holds more than its capacity afterwards,
      and, given a non-negative level, capacity and refill rate and a clock that does not run
      backwards, never goes negative. */
  lemma AllowKeepsBounds(capacity: int, refillPerSec: real, tokens: real, lastRefill: real,
                         now: real, amount: int)
    requires amount >= 0
    ensures AllowStep(capacity, refillPerSec, tokens, lastRefill, now, amount).1 <= capacity as real
    ensures tokens >= 0.0 && capacity >= 0 && refillPerSec >= 0.0 && now >= lastRefill ==>
      AllowStep(capacity, refillPerSec, tokens, lastRefill, now, amount).1 >= 0.0
  {
    if tokens >= 0.0 && capacity >= 0 && refillPerSec >= 0.0 && now >= lastRefill {
      MulNonNegative(now - lastRefill, refillPerSec);
    }
  }

  /** A granted request leaves exactly `amount` fewer tokens than the refill produced; a
      refused one leaves the refilled level, which was short of `amount`. */
  lemma AllowDeducts(capacity: int, refillPerSec: real, tokens: real, lastRefill: real,
                     now: real, amount: int)
    ensures var (ok, t) := AllowStep(capacity, refillPerSec, tokens, lastRefill, now, amount);
      var r := Refilled(capacity, refillPerSec, tokens, now - lastRefill);
      && (ok ==> t == r - amount as real && r >= amount as real)
      && (!ok ==> t == r && r < amount as real)
  {
  }

  /** The API's bucket (capacity 100, refilling 100 tokens a minute) grants 100 unit
      requests made at one instant and refuses the 101st. */
  method BurstThenRefuse(now: real) returns (granted: seq<bool>, last: bool)
    ensures |granted| == 100 && forall i :: 0 <= i < 100 ==> granted[i]
    ensures !last
  {
    var bucket := new TokenBucket(100, 100.0 / 60.0, now);
    granted := [];
    while |granted| < 100
      invariant |granted| <= 100 && forall i :: 0 <= i < |granted| ==> granted[i]
      invariant bucket.lastRefill == now && bucket.capacity == 100
      invariant bucket.tokens == (100 - |granted|) as real
    {
      var ok := bucket.Allow(now, 1);
      granted := granted + [ok];
    }
    last := bucket.Allow(now, 1);
  }
}

=== FILE: service_client.dfy ===
/** The two pieces of the API's downstream client that compute something: the dotted-path
    lookup of a metric inside a telemetry record's data, and the filtering that turns stored
    telemetry into the aggregation request. The HTTP calls are not modelled. */
module ServiceClient {
  import opened Wrappers
  import opened Strings
  import opened JsonValues
  import opened ApiModels

  /** One point of the aggregation request. */
  datatype AggregatePoint = AggregatePoint(machineId: string, metric: string, timestamp: real, value: real)

  /** The aggregation request: the surviving points and the windows, passed through. */
  datatype AggregatePayload = AggregatePayload(points: seq<AggregatePoint>, windows: seq<string>)

  /** The value at the end of `path`, starting from `current`: `None` as soon as a step
      reaches something that is not an object or lacks the key, and `None` for a leaf that
      is not a number. */
  function Lookup(current: Json, path: seq<string>): (r: Option<real>)
    ensures path != [] && !(current.JObject? && path[0] in current.fields) ==> r == None
    ensures path == [] ==> r == if IsNumber(current) then Some(AsFloat(current)) else None
  {
    if path == [] then
      if IsNumber(current) then Some(AsFloat(current)) else None
    else if current.JObject? && path[0] in current.fields then
      Lookup(current.fields[path[0]], path[1..])
    else None
  }

  /** `_extract_metric(data, metric)`: walks the dot-separated parts of `metric`. */
  method ExtractMetric(data: map<string, Json>, metric: string) returns (r: Option<real>)
    ensures r == Lookup(JObject(data), SplitOn(metric, '.'))
  {
    var parts := SplitOn(metric, '.');
    var current := JObject(data);
    var i := 0;
    while i < |parts|
      invariant 0 <= i <= |parts|
      invariant Lookup(current, parts[i..]) == Lookup(JObject(data), parts)
    {
      if !current.JObject? || parts[i] !in current.fields {
        return None;
      }
      current := current.fields[parts[i]];
      i := i + 1;
    }
    if current.JBool? || current.JInt? || current.JFloat? {
      return Some(AsFloat(current));
    }
    return None;
  }

  /** The points of the aggregation request, in input order: one per record whose metric
      can be extracted, carrying the given machine id and metric. */
  function Survivors(machineId: string, records: seq<TelemetryRecord>, metric: string)
    : (ps: seq<AggregatePoint>)
    ensures |ps| <= |records|
    ensures forall k :: 0 <= k < |ps| ==> ps[k].machineId == machineId && ps[k].metric == metric
  {
    if records == [] then []
    else
      var rest := Survivors(machineId, records[1..], metric);
      match Lookup(JObject(records[0].data), SplitOn(metric, '.'))
      case None => rest
      case Some(v) => [AggregatePoint(machineId, metric, records[0].timestamp, v)] + rest
  }

  /** The request body `aggregate` posts. */
  method AggregatePayloadOf(machineId: string, records: seq<TelemetryRecord>, metric: string,
                            windows: seq<string>)
    returns (payload: AggregatePayload)
    ensures payload.points == Survivors(machineId, records, metric)
    ensures payload.windows == windows
  {
    var points := [];
    var i := 0;
    while i < |records|
      invariant 0 <= i <= |records|
      invariant points + Survivors(machineId, records[i..], metric)
             == Survivors(machineId, records, metric)
    {
      var value := ExtractMetric(records[i].data, metric);
      if value.Some? {
        points := points + [AggregatePoint(machineId, metric, records[i].timestamp, value.value)];
      }
      i := i + 1;
    }
    payload := AggregatePayload(points, windows);
  }
}

module ServiceClientProperties {
  import opened Wrappers
  import opened Strings
  import opened JsonValues
  import opened ApiModels
  import opened ServiceClient

  /** A boolean leaf reads as 1.0 or 0.0; a string, array, object or null leaf as nothing. */
  lemma LeafValues(v: Json)
    ensures Lookup(v, []) == match v
      case JBool(b) => Some(if b then 1.0 else 0.0)
      case JInt(i) => Some(i as real)
      case JFloat(f) => Some(f)
      case _ => None
  {
  }

  /** The lookup is a walk through objects followed by a number check on what it reaches. */
  lemma {:induction false} LookupIsWalk(current: Json, path: seq<string>)
    ensures Lookup(current, path) == match Walk(current, path)
      case Some(v) => if IsNumber(v) then Some(AsFloat(v)) else None
      case None => None
    decreases |path|
  {
    if path != [] && current.JObject? && path[0] in current.fields {
      LookupIsWalk(current.fields[path[0]], path[1..]);
    }
  }

  /** The value reached by following `path` through objects, whatever its kind. */
  function Walk(current: Json, path: seq<string>): (r: Option<Json>)
    ensures path == [] ==> r == Some(current)
  {
    if path == [] then Some(current)
    else if current.JObject? && path[0] in current.fields then
      Walk(current.fields[path[0]], path[1..])
    else None
  }

  /** Survivors of a concatenation are the survivors of each part, in order: the filter
      never reorders records. */
  lemma {:induction false} SurvivorsAppend(machineId: string, a: seq<TelemetryRecord>,
                                           b: seq<TelemetryRecord>, metric: string)
    ensures Survivors(machineId, a + b, metric)
         == Survivors(machineId, a, metric) + Survivors(machineId, b, metric)
  {
    if a != [] {
      assert (a + b)[1..] == a[1..] + b;
      SurvivorsAppend(machineId, a[1..], b, metric);
    } else {
      assert a + b == b;
    }
  }

  /** A record survives iff its metric can be extracted, and then carries that value and its
      own timestamp. */
  lemma SurvivorsOne(machineId: string, r: TelemetryRecord, metric: string)
    ensures var v := Lookup(JObject(r.data), SplitOn(metric, '.'));
      Survivors(machineId, [r], metric)
        == if v.None? then [] else [AggregatePoint(machineId, metric, r.timestamp, v.value)]
  {
  }

  /** A top-level metric name is looked up directly in the data object. */
  lemma TopLevelMetric(data: map<string, Json>, metric: string)
    requires '.' !in metric
    ensures Lookup(JObject(data), SplitOn(metric, '.'))
         == if metric in data && IsNumber(data[metric]) then Some(AsFloat(data[metric])) else None
  {
    NoSeparatorSplit(metric, '.');
  }

  lemma {:induction false} NoSeparatorSplit(s: string, sep: char)
    requires sep !in s
    ensures SplitOn(s, sep) == [s]
  {
    if s != [] {
      NoSeparatorSplit(s[1..], sep);
      assert [s[0]] + s[1..] == s;
    }
  }
}

=== FILE: spindle.dfy ===
/** Spindle physics in closed form: mechanical power, thermal growth, rolling-bearing defect
    frequencies and a wear-driven vibration curve. `cos` and `exp` are passed in as
    functions; the lemmas state the few laws of them they rely on. */
module SpindlePhysics {
  import opened OrderedDicts

  /** The decimal value of Python's `math.pi`. */
  const Pi: real := 3.141592653589793

  datatype BearingGeometry = BearingGeometry(
    ballDiameterMm: real,
    pitchDiameterMm: real,
    contactAngleDeg: real,
    numBalls: int)

  const DefaultGeometry: BearingGeometry := BearingGeometry(8.0, 40.0, 15.0, 8)

  datatype Spindle = Spindle(
    thermalExpansionCoeffPerC: real,
    baseVibrationMmS: real,
    geometry: BearingGeometry)

  const DefaultSpindle: Spindle := Spindle(0.0000117, 0.3, DefaultGeometry)

  /** `power_kw`: P = 2π·rpm·torque / 60000. */
  function PowerKw(rpm: real, torqueNm: real): (kw: real)
    ensures rpm >= 0.0 && torqueNm >= 0.0 ==> kw >= 0.0
    ensures rpm == 0.0 || torqueNm == 0.0 ==> kw == 0.0
  {
    (2.0 * Pi * rpm * torqueNm) / 60000.0
  }

  /** `thermal_expansion_mm`: length times coefficient times temperature rise. */
  function ThermalExpansionMm(sp: Spindle, lengthMm: real, deltaTempC: real): (mm: real)
    ensures lengthMm == 0.0 || deltaTempC == 0.0 ==> mm == 0.0
    ensures lengthMm >= 0.0 && sp.thermalExpansionCoeffPerC >= 0.0 && deltaTempC >= 0.0 ==> mm >= 0.0
  {
    lengthMm * sp.thermalExpansionCoeffPerC * deltaTempC
  }

  /** `math.radians`. */
  function Radians(deg: real): real {
    deg * Pi / 180.0
  }

  /** The four rolling-bearing defect frequencies, in Hz. */
  datatype BearingFrequencies = BearingFrequencies(bpfo: real, bpfi: real, bsf: real, ftf: real)

  /** `bearing_frequencies_hz`, with the cosine of the contact angle taken from `cos`. */
  function BearingFrequenciesHz(sp: Spindle, rpm: real, cos: real -> real): (f: BearingFrequencies)
    requires sp.geometry.ballDiameterMm != 0.0 && sp.geometry.pitchDiameterMm != 0.0
    ensures f.bpfo + f.bpfi == sp.geometry.numBalls as real * (rpm / 60.0)
    ensures rpm == 0.0 ==> f == BearingFrequencies(0.0, 0.0, 0.0, 0.0)
  {
    var g := sp.geometry;
    var fr := rpm / 60.0;
    var c := g.ballDiameterMm / g.pitchDiameterMm * cos(Radians(g.contactAngleDeg));
    var half := g.numBalls as real / 2.0;
    BearingFrequencies(
      half * fr * (1.0 - c),
      half * fr * (1.0 + c),
      (g.pitchDiameterMm / g.ballDiameterMm) * fr * (1.0 - c * c),
      0.5 * fr * (1.0 - c))
  }

  lemma FrequencyKeysDistinct()
    ensures "BPFO" != "BPFI" && "BPFO" != "BSF" && "BPFO" != "FTF"
    ensures "BPFI" != "BSF" && "BPFI" != "FTF" && "BSF" != "FTF"
  {
    assert "BPFO"[3] != "BPFI"[3];
    assert "BPFO"[1] != "BSF"[1] && "BPFI"[1] != "BSF"[1];
    assert "FTF"[0] == 'F';
  }

  /** The dictionary the source returns: always exactly these four keys. */
  function AsDict(f: BearingFrequencies): (d: ODict<string, real>)
    ensures d.Valid() && d.keys == ["BPFO", "BPFI", "BSF", "FTF"]
    ensures d.m["BPFO"] == f.bpfo && d.m["BPFI"] == f.bpfi
    ensures d.m["BSF"] == f.bsf && d.m["FTF"] == f.ftf
  {
    FrequencyKeysDistinct();
    ODict(["BPFO", "BPFI", "BSF", "FTF"],
          map["BPFO" := f.bpfo, "BPFI" := f.bpfi, "BSF" := f.bsf, "FTF" := f.ftf])
  }

  /** The wear clamped into [0, 100], as a fraction. */
  function WearFraction(wearPercent: real): (w: real)
    ensures 0.0 <= w <= 1.0
  {
    (if wearPercent < 0.0 then 0.0 else if wearPercent > 100.0 then 100.0 else wearPercent) / 100.0
  }

  /** `vibration_mm_s`: base vibration grown exponentially with wear, capped at 10 mm/s. */
  function VibrationMmS(sp: Spindle, wearPercent: real, exp: real -> real): (v: real)
    ensures v <= 10.0
  {
    var v := sp.baseVibrationMmS * exp(3.0 * WearFraction(wearPercent));
    if v < 10.0 then v else 10.0
  }

  /** What the vibration lemmas need of `exp`: strictly increasing, exp(0) = 1, and
      exp(3) at most 20.1 (it is about 20.09). */
  ghost predicate ExpLaws(exp: real -> real) {
    && (forall x, y :: x < y ==> exp(x) < exp(y))
    && exp(0.0) == 1.0
    && exp(3.0) <= 20.1
  }
}

module SpindleProperties {
  import opened Numbers
  import opened OrderedDicts
  import opened SpindlePhysics

  /** Power is bilinear in speed and torque, and zero when either is. */
  lemma PowerBilinear(rpm: real, torque: real, a: real)
    ensures PowerKw(a * rpm, torque) == a * PowerKw(rpm, torque)
    ensures PowerKw(rpm, a * torque) == a * PowerKw(rpm, torque)
    ensures rpm == 0.0 || torque == 0.0 ==> PowerKw(rpm, torque) == 0.0
  {
    assert 2.0 * Pi * (a * rpm) * torque == a * (2.0 * Pi * rpm * torque);
    assert 2.0 * Pi * rpm * (a * torque) == a * (2.0 * Pi * rpm * torque);
  }

  /** 12000 rpm at 10 N·m is 4π kW, between 10 and 15. */
  lemma PowerExample()
    ensures PowerKw(12000.0, 10.0) == 4.0 * Pi
    ensures 10.0 < PowerKw(12000.0, 10.0) < 15.0
  {
  }

  /** 100 mm heated by 20 °C grows by 0.0234 mm with the default coefficient. */
  lemma ThermalExample()
    ensures ThermalExpansionMm(DefaultSpindle, 100.0, 20.0) == 0.0234
    ensures 0.02 <= ThermalExpansionMm(DefaultSpindle, 100.0, 20.0) <= 0.03
  {
  }

  lemma ScaleMiddle(x: real, fr: real, fa: real, y: real, a: real)
    requires fa == a * fr
    ensures x * fa * y == a * (x * fr * y)
  {
  }

  /** Every defect frequency scales linearly with the shaft speed. */
  lemma FrequenciesLinear(sp: Spindle, rpm: real, a: real, cos: real -> real)
    requires sp.geometry.ballDiameterMm != 0.0 && sp.geometry.pitchDiameterMm != 0.0
    ensures var f, fa := BearingFrequenciesHz(sp, rpm, cos), BearingFrequenciesHz(sp, a * rpm, cos);
      && fa.bpfo == a * f.bpfo && fa.bpfi == a * f.bpfi
      && fa.bsf == a * f.bsf && fa.ftf == a * f.ftf
  {
    var g := sp.geometry;
    var c := g.ballDiameterMm / g.pitchDiameterMm * cos(Radians(g.contactAngleDeg));
    var half := g.numBalls as real / 2.0;
    var fr := rpm / 60.0;
    var fa := a * rpm / 60.0;
    assert fa == a * fr;
    ScaleMiddle(half, fr, fa, 1.0 - c, a);
    ScaleMiddle(half, fr, fa, 1.0 + c, a);
    ScaleMiddle(g.pitchDiameterMm / g.ballDiameterMm, fr, fa, 1.0 - c * c, a);
    ScaleMiddle(0.5, fr, fa, 1.0 - c, a);
  }

  /** The inner-race frequency is at least the outer-race one, and the outer-race frequency
      is the number of balls times the cage frequency. */
  lemma FrequencyRelations(sp: Spindle, rpm: real, cos: real -> real)
    requires sp.geometry.ballDiameterMm > 0.0 && sp.geometry.pitchDiameterMm > 0.0
    requires sp.geometry.numBalls >= 0 && rpm >= 0.0
    requires cos(Radians(sp.geometry.contactAngleDeg)) >= 0.0
    ensures BearingFrequenciesHz(sp, rpm, cos).bpfi >= BearingFrequenciesHz(sp, rpm, cos).bpfo
    ensures BearingFrequenciesHz(sp, rpm, cos).bpfo
      == sp.geometry.numBalls as real * BearingFrequenciesHz(sp, rpm, cos).ftf
  {
    var g := sp.geometry;
    var cosT := cos(Radians(g.contactAngleDeg));
    var ratio := g.ballDiameterMm / g.pitchDiameterMm;
    var c := ratio * cosT;
    var half := g.numBalls as real / 2.0;
    var fr := rpm / 60.0;
    MulNonNegative(ratio, cosT);
    MulNonNegative(half, fr);
    MulNonNegative(half * fr, 2.0 * c);
    assert half * fr * (1.0 + c) == half * fr * (1.0 - c) + half * fr * (2.0 * c);
    assert half * fr * (1.0 - c) == g.numBalls as real * (0.5 * fr * (1.0 - c));
  }

  /** Wear below 0 reads as 0 and wear above 100 as 100. */
  lemma VibrationClampsWear(sp: Spindle, wearPercent: real, exp: real -> real)
    ensures wearPercent <= 0.0 ==> VibrationMmS(sp, wearPercent, exp) == VibrationMmS(sp, 0.0, exp)
    ensures wearPercent >= 100.0 ==> VibrationMmS(sp, wearPercent, exp) == VibrationMmS(sp, 100.0, exp)
  {
  }

  /** The vibration never drops below the base level and never exceeds 10 mm/s. */
  lemma VibrationRange(sp: Spindle, wearPercent: real, exp: real -> real)
    requires ExpLaws(exp) && 0.0 <= sp.baseVibrationMmS <= 10.0
    ensures sp.baseVibrationMmS <= VibrationMmS(sp, wearPercent, exp) <= 10.0
  {
    var w := WearFraction(wearPercent);
    assert exp(3.0 * w) >= 1.0 by {
      if 3.0 * w > 0.0 {
        assert exp(0.0) < exp(3.0 * w);
      }
    }
    MulNonNegative(sp.baseVibrationMmS, exp(3.0 * w) - 1.0);
    assert sp.baseVibrationMmS * exp(3.0 * w) - sp.baseVibrationMmS
      == sp.baseVibrationMmS * (exp(3.0 * w) - 1.0);
  }

  /** More wear never means less vibration. */
  lemma VibrationMonotone(sp: Spindle, w1: real, w2: real, exp: real -> real)
    requires ExpLaws(exp) && sp.baseVibrationMmS >= 0.0 && w1 <= w2
    ensures VibrationMmS(sp, w1, exp) <= VibrationMmS(sp, w2, exp)
  {
    var f1, f2 := WearFraction(w1), WearFraction(w2);
    assert f1 <= f2;
    assert exp(3.0 * f1) <= exp(3.0 * f2) by {
      if f1 < f2 {
        assert 3.0 * f1 < 3.0 * f2;
      }
    }
    MulNonNegative(sp.baseVibrationMmS, exp(3.0 * f2) - exp(3.0 * f1));
    assert sp.baseVibrationMmS * exp(3.0 * f2) - sp.baseVibrationMmS * exp(3.0 * f1)
      == sp.baseVibrationMmS * (exp(3.0 * f2) - exp(3.0 * f1));
  }

  /** With the default spindle, 80 % wear vibrates strictly more than 10 %: neither value
      reaches the 10 mm/s cap. */
  lemma VibrationWearExample(exp: real -> real)
    requires ExpLaws(exp)
    ensures VibrationMmS(DefaultSpindle, 80.0, exp) > VibrationMmS(DefaultSpindle, 10.0, exp)
  {
    assert WearFraction(80.0) == 0.8 && WearFraction(10.0) == 0.1;
    assert exp(0.3) < exp(2.4) < exp(3.0);
    assert 0.3 * exp(2.4) < 0.3 * 20.1;
    assert 0.3 * exp(0.3) < 0.3 * exp(2.4);
  }
}

=== FILE: store.dfy ===
/** The records the API stores, and its in-memory store: machines by id, a bounded telemetry
    history per machine, and unbounded per-machine lists of predictions and anomalies. */
module ApiModels {
  import opened Wrappers
  import opened JsonValues

  datatype Machine = Machine(id: string, name: string, location: string, model: Option<string>)

  /** A telemetry record: the time it was taken, the machine, and its data object. */
  datatype TelemetryRecord = TelemetryRecord(timestamp: real, machineId: string, data: map<string, Json>)

  datatype PredictionRecord = PredictionRecord(machineId: string, payload: map<string, Json>)

  datatype AnomalyRecord = AnomalyRecord(machineId: string, payload: map<string, Json>)
}

module Store {
  import opened Wrappers
  import opened OrderedDicts
  import opened BoundedDeques
  import opened ApiModels

  /** The default bound on a machine's telemetry history. */
  const DefaultMaxItems: int := 200

  /** The telemetry map after appending `item`: the machine's deque is created with
      `maxItems` on its first record, and `maxItems` is ignored afterwards. A negative bound
      is refused even when the deque already exists, because the new deque is built before
      the lookup. */
  function AddedTelemetry(tel: ODict<string, BoundedDeque<TelemetryRecord>>,
                          item: TelemetryRecord, maxItems: int)
    : (r: Option<ODict<string, BoundedDeque<TelemetryRecord>>>)
    requires tel.Valid()
    ensures r.Some? <==> maxItems >= 0
    ensures r.Some? ==> r.value.Valid()
    ensures r.Some? && Bounded(tel) ==> Bounded(r.value)
  {
    match NewDeque(maxItems)
    case None => None
    case Some(empty) =>
      var q := tel.GetOr(item.machineId, empty).Append(item);
      PutKeepsBounded(tel, item.machineId, q);
      Some(tel.Put(item.machineId, q))
  }

  lemma PutKeepsBounded(tel: ODict<string, BoundedDeque<TelemetryRecord>>, id: string,
                        q: BoundedDeque<TelemetryRecord>)
    requires tel.Valid() && q.Valid()
    ensures Bounded(tel) ==> Bounded(tel.Put(id, q))
  {
  }

  /** Every history in the map is within its own bound. */
  predicate Bounded(tel: ODict<string, BoundedDeque<TelemetryRecord>>) {
    forall id :: id in tel.m ==> tel.m[id].Valid()
  }

  /** The newest element of a deque, if any. */
  function Newest<T>(q: Option<BoundedDeque<T>>): (r: Option<T>)
    ensures r.Some? <==> q.Some? && q.value.items != []
    ensures r.Some? ==> r.value == q.value.items[|q.value.items| - 1]
  {
    if q.Some? && q.value.items != [] then Some(q.value.items[|q.value.items| - 1]) else None
  }

  class InMemoryStore {
    var machines: ODict<string, Machine>
    var telemetry: ODict<string, BoundedDeque<TelemetryRecord>>
    var predictions: ODict<string, seq<PredictionRecord>>
    var anomalies: ODict<string, seq<AnomalyRecord>>

    /** Every map is a well-formed ordered map and every history is within its bound. */
    ghost predicate Valid()
      reads this
    {
      && machines.Valid() && telemetry.Valid() && predictions.Valid() && anomalies.Valid()
      && Bounded(telemetry)
    }

    constructor ()
      ensures Valid()
      ensures machines == Empty() && telemetry == Empty()
      ensures predictions == Empty() && anomalies == Empty()
    {
      machines := Empty();
      telemetry := Empty();
      predictions := Empty();
      anomalies := Empty();
    }

    /** Stores `m` under its id, replacing any machine with that id. */
    method AddMachine(m: Machine)
      requires Valid()
      modifies this
      ensures Valid()
      ensures machines == old(machines).Put(m.id, m)
      ensures telemetry == old(telemetry) && predictions == old(predictions)
      ensures anomalies == old(anomalies)
    {
      machines := machines.Put(m.id, m);
    }

    /** Every stored machine, in first-insertion order. */
    method ListMachines() returns (ms: seq<Machine>)
      requires Valid()
      ensures |ms| == |machines.keys|
      ensures forall i :: 0 <= i < |ms| ==> ms[i] == machines.m[machines.keys[i]]
    {
      ms := machines.Values();
    }

    method GetMachine(id: string) returns (r: Option<Machine>)
      ensures r.Some? <==> id in machines.m
      ensures r.Some? ==> r.value == machines.m[id]
    {
      r := machines.Get(id);
    }

    /** Appends `item` to its machine's history; `Err` for a negative bound, with nothing
        changed. */
    method AddTelemetry(item: TelemetryRecord, maxItems: int) returns (r: Result<()>)
      requires Valid()
      modifies this
      ensures Valid()
      ensures r.Ok? <==> maxItems >= 0
      ensures r.Ok? ==> telemetry == AddedTelemetry(old(telemetry), item, maxItems).value
      ensures r.Err? ==> telemetry == old(telemetry)
      ensures machines == old(machines) && predictions == old(predictions)
      ensures anomalies == old(anomalies)
    {
      if maxItems < 0 {
        r := Err("maxlen must be non-negative");
      } else {
        SetTelemetry(AddedTelemetry(telemetry, item, maxItems).value);
        r := Ok(());
      }
    }

    /** Replaces the telemetry map by a well-formed one, leaving the other maps alone. */
    method SetTelemetry(t: ODict<string, BoundedDeque<TelemetryRecord>>)
      requires Valid() && t.Valid() && Bounded(t)
      modifies this
      ensures Valid() && telemetry == t
      ensures machines == old(machines) && predictions == old(predictions)
      ensures anomalies == old(anomalies)
    {
      telemetry := t;
    }

    /** The machine's most recent record, or `None` when it has none. */
    method LatestTelemetry(id: string) returns (r: Option<TelemetryRecord>)
      ensures r.Some? <==> id in telemetry.m && telemetry.m[id].items != []
      ensures r.Some? ==> r.value == telemetry.m[id].items[|telemetry.m[id].items| - 1]
    {
      r := Newest(telemetry.Get(id));
    }

    /** The machine's records, oldest first; empty for an unknown machine. */
    method History(id: string) returns (items: seq<TelemetryRecord>)
      ensures id in telemetry.m ==> items == telemetry.m[id].items
      ensures id !in telemetry.m ==> items == []
    {
      var q := telemetry.Get(id);
      items := if q.Some? then q.value.items else [];
    }

    /** Appends to the machine's prediction list, creating it if needed. */
    method AddPrediction(record: PredictionRecord)
      requires Valid()
      modifies this
      ensures Valid()
      ensures predictions
           == old(predictions).Put(record.machineId,
                                   old(predictions).GetOr(record.machineId, []) + [record])
      ensures machines == old(machines) && telemetry == old(telemetry)
      ensures anomalies == old(anomalies)
    {
      predictions := predictions.Put(record.machineId,
                                     predictions.GetOr(record.machineId, []) + [record]);
    }

    method ListPredictions(id: string) returns (rs: seq<PredictionRecord>)
      ensures id in predictions.m ==> rs == predictions.m[id]
      ensures id !in predictions.m ==> rs == []
    {
      rs := predictions.GetOr(id, []);
    }

    /** Appends to the machine's anomaly list, creating it if needed. */
    method AddAnomaly(record: AnomalyRecord)
      requires Valid()
      modifies this
      ensures Valid()
      ensures anomalies
           == old(anomalies).Put(record.machineId,
                                 old(anomalies).GetOr(record.machineId, []) + [record])
      ensures machines == old(machines) && telemetry == old(telemetry)
      ensures predictions == old(predictions)
    {
      anomalies := anomalies.Put(record.machineId,
                                 anomalies.GetOr(record.machineId, []) + [record]);
    }

    method ListAnomalies(id: string) returns (rs: seq<AnomalyRecord>)
      ensures id in anomalies.m ==> rs == anomalies.m[id]
      ensures id !in anomalies.m ==> rs == []
    {
      rs := anomalies.GetOr(id, []);
    }
  }
}

module StoreProperties {
  import opened Wrappers
  import opened OrderedDicts
  import opened BoundedDeques
  import opened ApiModels
  import opened Store

  /** After an accepted append with a positive bound, the newest record is the one appended,
      the history is within the machine's bound, and every other machine is untouched. */
  lemma AddedTelemetryNewest(tel: ODict<string, BoundedDeque<TelemetryRecord>>,
                             item: TelemetryRecord, maxItems: int, other: string)
    requires tel.Valid() && maxItems >= 0
    requires item.machineId in tel.m ==> tel.m[item.machineId].maxlen > 0
    requires item.machineId !in tel.m ==> maxItems > 0
    ensures var t := AddedTelemetry(tel, item, maxItems).value;
      && Newest(t.Get(item.machineId)) == Some(item)
      && |t.m[item.machineId].items| <= t.m[item.machineId].maxlen
      && (other != item.machineId ==> t.Get(other) == tel.Get(other))
  {
    var empty := NewDeque<TelemetryRecord>(maxItems).value;
    var q := tel.GetOr(item.machineId, empty);
    var q1 := q.Append(item);
    var t := tel.Put(item.machineId, q1);
    assert AddedTelemetry(tel, item, maxItems).value == t;
    assert q.maxlen > 0;
    assert t.m[item.machineId] == q1;
    assert q1.items[|q1.items| - 1] == item;
  }

  /** The bound is fixed by a machine's first record: later bounds are ignored. */
  lemma MaxlenFixedAtFirstInsert(tel: ODict<string, BoundedDeque<TelemetryRecord>>,
                                 item: TelemetryRecord, maxItems: int)
    requires tel.Valid() && maxItems >= 0
    ensures var t := AddedTelemetry(tel, item, maxItems).value;
      t.m[item.machineId].maxlen
        == if item.machineId in tel.m then tel.m[item.machineId].maxlen else maxItems
  {
  }

  /** A history that is full loses its oldest record on the next append. */
  lemma FullHistoryDropsOldest(q: BoundedDeque<TelemetryRecord>, item: TelemetryRecord)
    requires q.Valid() && |q.items| == q.maxlen && q.maxlen > 0
    ensures q.Append(item).items == q.items[1..] + [item]
  {
  }

  /** Ingesting one record for a new machine makes it the latest and only one, as the API's
      ingest endpoint relies on. */
  method IngestStoresLatest(item: TelemetryRecord) returns (latest: Option<TelemetryRecord>, history: seq<TelemetryRecord>)
    ensures latest == Some(item)
    ensures history == [item]
  {
    var store := new InMemoryStore();
    var r := store.AddTelemetry(item, DefaultMaxItems);
    latest := store.LatestTelemetry(item.machineId);
    history := store.History(item.machineId);
  }
}

=== FILE: strings.dfy ===
/** The few Python `str` operations the services rely on, restricted to ASCII:
    `upper`, `strip`, `split()` on whitespace, `split(sep)`, and `<` on strings. */
module Strings {

  /** `str.isspace` on the ASCII range: tab, newline, vertical tab, form feed, carriage
      return, the four separators 0x1C-0x1F and the space. */
  predicate IsSpace(c: char) {
    var n := c as int;
    n == 32 || 9 <= n <= 13 || 28 <= n <= 31
  }

  predicate IsLower(c: char) { 'a' <= c <= 'z' }

  predicate IsDigit(c: char) { '0' <= c <= '9' }

  function UpperChar(c: char): (u: char)
    ensures !IsLower(u)
    ensures IsSpace(u) == IsSpace(c)
    ensures !IsLower(c) ==> u == c
  {
    if IsLower(c) then (c as int - 32) as char else c
  }

  /** `s.upper()` for ASCII letters; every other character is kept. */
  function Upper(s: string): string {
    seq(|s|, i requires 0 <= i < |s| => UpperChar(s[i]))
  }

  predicate NoLower(s: string) {
    forall i :: 0 <= i < |s| ==> !IsLower(s[i])
  }

  lemma UpperIsUpper(s: string)
    ensures NoLower(Upper(s))
    ensures Upper(Upper(s)) == Upper(s)
  {
  }

  lemma UpperKeeps(s: string)
    requires NoLower(s)
    ensures Upper(s) == s
  {
  }

  /** Upper-casing creates no character that is not a lower-case letter's image. */
  lemma UpperKeepsOthers(s: string, c: char)
    requires !IsLower(c) && !('A' <= c <= 'Z') && c !in s
    ensures c !in Upper(s)
  {
    forall i | 0 <= i < |s| ensures Upper(s)[i] != c {
      assert s[i] != c;
    }
  }

  lemma UpperAppend(a: string, b: string)
    ensures Upper(a + b) == Upper(a) + Upper(b)
  {
    assert forall i :: 0 <= i < |a + b| ==> Upper(a + b)[i] == (Upper(a) + Upper(b))[i];
  }

  predicate AllSpace(s: string) {
    forall i :: 0 <= i < |s| ==> IsSpace(s[i])
  }

  /** `s.lstrip()`: the suffix left after dropping every leading whitespace character. */
  function LStrip(s: string): (r: string)
    ensures |r| <= |s| && r == s[|s| - |r|..]
    ensures AllSpace(s[..|s| - |r|])
    ensures r == [] || !IsSpace(r[0])
  {
    if s != [] && IsSpace(s[0]) then
      var t := s[1..];
      var r := LStrip(t);
      assert s[..|s| - |r|] == [s[0]] + t[..|t| - |r|];
      assert t[|t| - |r|..] == s[|s| - |r|..];
      r
    else s
  }

  /** `s.rstrip()`: the prefix left after dropping every trailing whitespace character. */
  function RStrip(s: string): (r: string)
    ensures |r| <= |s| && r == s[..|r|]
    ensures AllSpace(s[|r|..])
    ensures r == [] || !IsSpace(r[|r| - 1])
  {
    if s != [] && IsSpace(s[|s| - 1]) then
      var r := RStrip(s[..|s| - 1]);
      assert AllSpace(s[|r|..]) by {
        forall i | |r| <= i < |s| - 1 ensures IsSpace(s[i]) {
          assert s[i] == s[..|s| - 1][|r|..][i - |r|];
        }
      }
      r
    else s
  }

  /** `s.strip()`. */
  function Strip(s: string): string {
    RStrip(LStrip(s))
  }

  lemma {:induction false} LStripUpper(s: string)
    ensures LStrip(Upper(s)) == Upper(LStrip(s))
  {
    if s != [] {
      assert Upper(s)[1..] == Upper(s[1..]);
      if IsSpace(s[0]) {
        LStripUpper(s[1..]);
      }
    }
  }

  lemma {:induction false} RStripUpper(s: string)
    ensures RStrip(Upper(s)) == Upper(RStrip(s))
  {
    if s != [] {
      var p := s[..|s| - 1];
      assert s == p + [s[|s| - 1]];
      UpperAppend(p, [s[|s| - 1]]);
      assert Upper(s)[..|s| - 1] == Upper(p);
      if IsSpace(s[|s| - 1]) {
        RStripUpper(p);
      }
    }
  }

  /** Stripping and upper-casing commute, because upper-casing keeps whitespace. */
  lemma StripUpper(s: string)
    ensures Strip(Upper(s)) == Upper(Strip(s))
  {
    LStripUpper(s);
    RStripUpper(LStrip(s));
  }

  /** Length of the leading run of non-whitespace characters. */
  function WordLength(s: string): (n: nat)
    ensures n <= |s|
    ensures forall i :: 0 <= i < n ==> !IsSpace(s[i])
    ensures n == |s| || IsSpace(s[n])
  {
    if s == [] || IsSpace(s[0]) then 0 else 1 + WordLength(s[1..])
  }

  /** `s.split()` with no separator: the maximal runs of non-whitespace characters, in order. */
  function Words(s: string): (ws: seq<string>)
    ensures forall k :: 0 <= k < |ws| ==> ws[k] != [] && !IsSpace(ws[k][0])
    decreases |s|
  {
    if s == [] then []
    else if IsSpace(s[0]) then Words(s[1..])
    else
      var n := WordLength(s);
      [s[..n]] + Words(s[n..])
  }

  /** `s.split(sep)` for a one-character separator: never empty, and the pieces keep the
      empty strings between adjacent separators. */
  function SplitOn(s: string, sep: char): (parts: seq<string>)
    ensures |parts| >= 1
    ensures forall k :: 0 <= k < |parts| ==> sep !in parts[k]
  {
    if s == [] then [[]]
    else
      var rest := SplitOn(s[1..], sep);
      if s[0] == sep then [[]] + rest
      else [[s[0]] + rest[0]] + rest[1..]
  }

  /** `sep.join(parts)`. */
  function Join(parts: seq<string>, sep: char): string
    requires |parts| >= 1
  {
    if |parts| == 1 then parts[0] else parts[0] + [sep] + Join(parts[1..], sep)
  }

  /** Splitting and joining again gives back the original string. */
  lemma {:induction false} JoinSplitOn(s: string, sep: char)
    ensures Join(SplitOn(s, sep), sep) == s
  {
    if s != [] {
      var rest := SplitOn(s[1..], sep);
      JoinSplitOn(s[1..], sep);
      if s[0] == sep {
        assert SplitOn(s, sep)[1..] == rest;
      } else {
        var parts := SplitOn(s, sep);
        if |rest| == 1 {
          assert parts == [[s[0]] + rest[0]];
        } else {
          assert parts[1..] == rest[1..];
          assert Join(rest, sep) == rest[0] + [sep] + Join(rest[1..], sep);
        }
      }
    }
  }

  /** Python's `<=` on strings: lexicographic by code point, a proper prefix first. */
  predicate LexLe(a: string, b: string) {
    a == [] || (b != [] && (a[0] < b[0] || (a[0] == b[0] && LexLe(a[1..], b[1..]))))
  }

  lemma {:induction false} LexLeTotal(a: string, b: string)
    ensures LexLe(a, b) || LexLe(b, a)
  {
    if a != [] && b != [] && a[0] == b[0] {
      LexLeTotal(a[1..], b[1..]);
    }
  }

  lemma {:induction false} LexLeAntisymmetric(a: string, b: string)
    requires LexLe(a, b) && LexLe(b, a)
    ensures a == b
  {
    if a != [] && b != [] {
      LexLeAntisymmetric(a[1..], b[1..]);
      assert a == [a[0]] + a[1..] && b == [b[0]] + b[1..];
    }
  }

  lemma {:induction false} LexLeTransitive(a: string, b: string, c: string)
    requires LexLe(a, b) && LexLe(b, c)
    ensures LexLe(a, c)
  {
    if a != [] && b != [] && c != [] && a[0] == b[0] && b[0] == c[0] {
      LexLeTransitive(a[1..], b[1..], c[1..]);
    }
  }
}

=== FILE: telemetry_models.dfy ===
/** The telemetry snapshot a simulated machine reports. Each sub-record carries the range
    checks its schema enforces at construction, as a `Valid` predicate: a record that is not
    `Valid` is one the schema would refuse to build. */
module TelemetryModels {

  datatype SpindleTelemetry = SpindleTelemetry(
    rpm: real,
    loadPercent: real,
    temperatureC: real,
    vibrationMmS: real)
  {
    predicate Valid() {
      && 0.0 <= rpm <= 24000.0
      && 0.0 <= loadPercent <= 100.0
      && 0.0 <= temperatureC <= 120.0
      && 0.0 <= vibrationMmS <= 20.0
    }
  }

  /** Position and velocity of one axis; neither is range-checked. */
  datatype AxisState = AxisState(positionMm: real, velocityMmMin: real)

  datatype AxesTelemetry = AxesTelemetry(x: AxisState, y: AxisState, z: AxisState)

  datatype ToolType = EndMill | Drill | Tap | BoringBar

  datatype ToolTelemetry = ToolTelemetry(
    id: string,
    toolType: ToolType,
    diameterMm: real,
    wearPercent: real,
    runtimeMinutes: real)
  {
    /** The diameter bound is strict; wear is a percentage; runtime has no upper bound. */
    predicate Valid() {
      && diameterMm > 0.0
      && 0.0 <= wearPercent <= 100.0
      && runtimeMinutes >= 0.0
    }
  }

  datatype CoolantTelemetry = CoolantTelemetry(
    flowRateLpm: real,
    temperatureC: real,
    pressureBar: real)
  {
    predicate Valid() {
      && 0.0 <= flowRateLpm <= 20.0
      && 0.0 <= temperatureC <= 60.0
      && 0.0 <= pressureBar <= 10.0
    }
  }

  /** Each reading is non-negative; nothing ties the total to the other two. */
  datatype PowerTelemetry = PowerTelemetry(totalKw: real, spindleKw: real, servoKw: real)
  {
    predicate Valid() {
      totalKw >= 0.0 && spindleKw >= 0.0 && servoKw >= 0.0
    }
  }

  datatype Mode = Auto | Mdi | Jog | Ref

  datatype StatusTelemetry = StatusTelemetry(
    mode: Mode,
    program: string,
    block: string,
    cycleTimeS: int)
  {
    predicate Valid() {
      cycleTimeS >= 0
    }
  }

  /** A full snapshot. The timestamp is the UTC wall-clock time, in seconds, supplied by the
      caller. */
  datatype Telemetry = Telemetry(
    timestamp: real,
    machineId: string,
    spindle: SpindleTelemetry,
    axes: AxesTelemetry,
    tool: ToolTelemetry,
    coolant: CoolantTelemetry,
    power: PowerTelemetry,
    status: StatusTelemetry)
  {
    predicate Valid() {
      spindle.Valid() && tool.Valid() && coolant.Valid() && power.Valid() && status.Valid()
    }
  }

  // The field defaults of each record.
  const DefaultSpindleTelemetry := SpindleTelemetry(0.0, 0.0, 20.0, 0.0)
  const DefaultAxis := AxisState(0.0, 0.0)
  const DefaultAxes := AxesTelemetry(DefaultAxis, DefaultAxis, DefaultAxis)
  const DefaultTool := ToolTelemetry("T01", EndMill, 10.0, 0.0, 0.0)
  const DefaultCoolant := CoolantTelemetry(0.0, 20.0, 0.0)
  const DefaultPower := PowerTelemetry(0.0, 0.0, 0.0)
  const DefaultStatus := StatusTelemetry(Auto, "O0001", "N0001", 0)

  /** `Telemetry.example()`, stamped with the given wall-clock time. */
  function Example(timestamp: real): Telemetry {
    Telemetry(
      timestamp,
      "CNC-001",
      SpindleTelemetry(12000.0, 45.2, 38.5, 0.8),
      AxesTelemetry(
        AxisState(150.234, 5000.0),
        AxisState(75.891, 5000.0),
        AxisState(-25.5, 2000.0)),
      ToolTelemetry("T01", EndMill, 10.0, 23.5, 145.0),
      CoolantTelemetry(12.5, 22.3, 4.2),
      PowerTelemetry(8.5, 5.2, 2.8),
      StatusTelemetry(Auto, "O1234", "N0150", 234))
  }
}

module TelemetryModelProperties {
  import opened TelemetryModels

  /** Every field default lies inside its own field's bounds. */
  lemma DefaultsValid()
    ensures DefaultSpindleTelemetry.Valid() && DefaultTool.Valid() && DefaultCoolant.Valid()
    ensures DefaultPower.Valid() && DefaultStatus.Valid()
    ensures DefaultTool.diameterMm > 0.0
  {
  }

  /** The example snapshot passes validation, names a machine, and has rpm and wear in range,
      although its total power is not the sum of its spindle and servo power. */
  lemma ExampleValid(timestamp: real)
    ensures Example(timestamp).Valid()
    ensures Example(timestamp).machineId != []
    ensures 0.0 <= Example(timestamp).spindle.rpm <= 24000.0
    ensures 0.0 <= Example(timestamp).tool.wearPercent <= 100.0
    ensures var p := Example(timestamp).power; p.totalKw != p.spindleKw + p.servoKw
  {
  }

  /** The validity of a snapshot depends on its sub-records alone: the axes, identifiers,
      timestamp and strings are never checked. */
  lemma ValidIgnoresUncheckedFields(t: Telemetry, timestamp: real, machineId: string,
                                    axes: AxesTelemetry, program: string, block: string)
    ensures t.(timestamp := timestamp, machineId := machineId, axes := axes,
               status := t.status.(program := program, block := block)).Valid() == t.Valid()
  {
  }
}

=== FILE: wrappers.dfy ===
/** Option and Result: the None return values and raised exceptions of the Python code. */
module Wrappers {

  datatype Option<+T> = None | Some(value: T) {
    function GetOr(default: T): T {
      match this
      case Some(v) => v
      case None => default
    }
  }

  /** The outcome of an operation that Python lets raise: `Err` carries the exception's name. */
  datatype Result<+T> = Ok(value: T) | Err(error: string)
}
